=== FILE: README.md ===
# IgDiscover read grouping and IgBLAST reader, in Dafny

A model of two pure-logic components of IgDiscover. Each comes with proofs of what they promise.

1. **The barcode/CDR3 grouping engine of `igdiscover/group.py`:**
   - Reads are filed under their barcode, taken from the 5' or the 3' end, with optional trimming of the leading G run.
   - Within a barcode, reads are clustered by single linkage when grouping by CDR3. Two reads are linked when their CDR3 keys are at Hamming distance at most one and their lengths differ by at most two.
   - Each cluster emits one FASTA record:
     - its first read when it is too small for a consensus;
     - its first read when the consensus has an ambiguous base;
     - otherwise the consensus, named `consensus{k}`.
   - Running counters are updated for every cluster.
   - The emitted name is reduced to its first token, without a trailing `;`.
   - A bucket with two reads of the same name stops the run, and so does a read name with no token where that name is split.
2. **The IgBLAST `-outfmt 7` reader of `blastiger.py`:**
   - `split_by_section` cuts a line stream at header lines.
   - `parse_igblast_record` decodes the query name, the V-(D)-J rearrangement summary, the germline CDR3 start and the hit table into a typed record. It converts 1-based positions to 0-based ones and checks that the hits agree with the record.
   - `parse_igblast` yields one record per `# IGBLASTN` block.

## Modules

| module | file | what |
|---|---|---|
| `Wrappers` | wrappers.dfy | `Option` and `Result` |
| `Text` | text.dfy | `str` operations: `isspace`, `strip`, `lstrip`, `startswith`, `find`, `split(sep)`, `join`, `split(maxsplit=1)[0]` |
| `Numerals` | numerals.dfy | `str(n)` and base-10 `int(s)` |
| `Ordering` | ordering.dfy | Python's `<` on `str`; `sorted` on distinct keys |
| `Hamming` | hamming.dfy | `hamming_neighbors` |
| `Graph` | graph.dfy | `Graph`: `add_edge` and `connected_components` |
| `Cluster` | cluster.dfy | `cluster_sequences` |
| `Representative` | select.dfy | the per-cluster choice, the counters, `Counter.most_common` and name normalisation |
| `Ingest` | ingest.dfy | the reading loop of `main`: limit, length filter, barcode split, G trimming, CDR3 key, bucketing |
| `Grouping` | grouping.dfy | the per-barcode loop of `main` |
| `Sections` | sections.dfy | `split_by_section` |
| `Igblast` | igblast.dfy | `parse_igblast_record` and `parse_igblast` |
| `IgblastRender` | render.dfy | the lines IgBLAST writes for a record, and the proofs that the reader reads them back |

**Reads are modelled as indexed records.**
- Each read has a name, a sequence and a CDR3 key.
- A graph is a sequence of adjacency lists over read indices, in place of Python objects.
- `sqt.align.consensus` is an uninterpreted function parameter (`Consensus`).
- `find_cdr3` is an injected function `string -> Option<(int, int)>`.

**A Python exception is an error value.** In the reader each exception is one constructor of `IgblastError`. `main`'s aborts become the `Status` of a `GroupRun` or an `IngestError`.

**The model follows the code where the documentation says otherwise:**
- The module docstring of group.py (line 22) says a two-read cluster emits a randomly picked read. The code always emits the first read of the cluster (lines 266-271), and `random` is never used. `SelectRepresentative` follows the code.
- The length test of line 159 applies to reads with identical keys too. `Cluster.Linked` and `Cluster.SimilarityGraphEdges` state this.
- `split_by_section` raises `ParseError`, a name blastiger.py never defines, so Python raises `NameError` there. Either way the stream is rejected at that line; the model calls it `ExpectedHeader` / `NoHeader`.

## Model

| member | source | states |
|---|---|---|
| Hamming.HammingNeighbors | igdiscover/group.py:136-142 | the key itself is yielded last, and every yielded string has the key's length |
| Hamming.NeighborsMembers | igdiscover/group.py:136-142 | a string is yielded iff it is the key itself or differs from it at exactly one position, where it holds one of A, C, G, T |
| Hamming.NeighborsCount | igdiscover/group.py:136-142 | for a key over ACGT, exactly 3·len(s) + 1 strings are yielded, all different |
| Graph.AddEdge | igdiscover/group.py:109-111 | after `add_edge(a, b)`, `b` is a neighbour of `a` and `a` of `b`; no other neighbour relation appears; the node set is the same |
| Graph.AddEdgesMembers | igdiscover/group.py:109-111 | after a series of `add_edge` calls, `y` is a neighbour of `x` iff it was already one or some call linked `x` and `y` in either order |
| Graph.AddEdgesSymmetric | igdiscover/group.py:109-111 | a graph built with `add_edge` only is undirected |
| Graph.ComponentIsReachableSet | igdiscover/group.py:113-133 | a node set closed under edges, whose members are all reachable from its first one, holds exactly the nodes reachable from any member |
| Graph.Explore | igdiscover/group.py:118-131 | the worklist search from an unvisited node returns a duplicate-free component that starts with that node, holds only reachable, previously unvisited nodes, and is closed under edges; the visited set grows by exactly the component |
| Graph.ConnectedComponents | igdiscover/group.py:113-133 | the components partition the nodes, and their sizes add up to the node count; no edge leaves a component; every member is reachable from the component's first node; that first node is the component's smallest, and first nodes increase from one component to the next |
| Cluster.KeyIndexFrom | igdiscover/group.py:152-154 | `cdr3_seqs[key]` lists exactly the reads with that key, in input order |
| Cluster.LinksFrom | igdiscover/group.py:155-160 | the loop adds edge (a, b) exactly when b's key is in the Hamming neighbourhood of a's key and the lengths differ by at most 2 |
| Cluster.SimilarityGraphEdges | igdiscover/group.py:151-160 | in the graph, j is a neighbour of i iff the reads are linked: lengths within 2 and one key a neighbour of the other, identical keys included |
| Cluster.SimilarityGraphSymmetric | igdiscover/group.py:151-160 | the similarity graph is undirected |
| Cluster.ClusterSequences | igdiscover/group.py:145-163 | the clusters partition the bucket, and their sizes sum to its length (the assertion of line 162); each cluster is closed under links and is exactly the set reachable from any of its members; clusters come in order of their first read, which is their earliest read |
| Cluster.ClusterProperties | igdiscover/group.py:145-150 | a closed, connected component of the similarity graph is a single-linkage cluster: closed under links, and equal to the set reachable from each member |
| Representative.MostCommon | igdiscover/group.py:285 | `Counter(...).most_common(1)[0][0]` is a value of the list with the highest count; among values with that count it is the first one to occur |
| Representative.MostCommonDetermined | igdiscover/group.py:285 | those three properties determine the most common value uniquely |
| Representative.SelectRepresentative | igdiscover/group.py:264-286 | the choice is too-few iff the cluster has fewer than 3 reads; it is ambiguous iff it has at least 3 and the consensus contains `N`; otherwise it is a consensus. Too-few and ambiguous emit the first read, with its name, sequence and key. A consensus emits the consensus sequence, named `consensus{k}` with k the new consensus count, keyed by the most common CDR3. Exactly the chosen kind's counter moves, by one, and the singleton counter moves iff the cluster has one read |
| Representative.NormalizeName | igdiscover/group.py:288-290 | fails (the `IndexError`) iff the name is all whitespace; otherwise the result has no whitespace |
| Representative.NormalizeNameOf | igdiscover/group.py:288-290 | a name of leading whitespace, a word, an optional `;` and a whitespace-led tail normalises to the word |
| Representative.ConsensusNameNormal | igdiscover/group.py:286-290 | `consensus{k}` is left unchanged by normalisation |
| Text.FirstToken | igdiscover/group.py:288 | `split(maxsplit=1)[0]` fails iff the string is all whitespace; otherwise it is the non-empty, whitespace-free word at the start of the `lstrip`ped string |
| Text.FirstTokenOf | igdiscover/group.py:288 | leading whitespace, a word, then the end or whitespace gives that word |
| Numerals.NatToString | igdiscover/group.py:286 | `'{}'.format(k)` is the canonical decimal form: digits only, no leading zero, value k |
| Ingest.SliceSplit | igdiscover/group.py:193-198 | `s[:k] + s[k:] == s` for every barcode length k, negative included, so barcode and remainder make up the read |
| Ingest.SliceInside | igdiscover/group.py:216 | a pseudo-CDR3 slice with in-range bounds of one sign is the plain subsequence, counted from the 3' end for negative bounds |
| Ingest.TrimG | igdiscover/group.py:203 | `lstrip('G')` removes a prefix made only of G, and what is left does not start with G |
| Ingest.Unbarcode | igdiscover/group.py:193-205 | a positive length takes a barcode of min(length, len) bases from the 5' end, a negative one from the 3' end; the rest of the read, G-trimmed when asked, is what remains |
| Ingest.Classify | igdiscover/group.py:190-219 | a record is too short iff shorter than the minimum length; it fails the regex iff it is long enough, real-CDR3 mode is on and `find_cdr3` finds nothing; otherwise it is kept under its barcode with its name, its unbarcoded sequence, and the key that the CDR3 mode selects |
| Ingest.Add | igdiscover/group.py:220-221 | a kept read is appended to its barcode's bucket, creating the bucket if new; other buckets are unchanged; barcodes stay sorted, buckets non-empty, and `n` counts the filed reads |
| Ingest.IngestAll | igdiscover/group.py:188-221 | after the reading loop, `n + too_short + regex_fail` is the number of records; each counter counts its outcome; each barcode's bucket is exactly its kept reads, in input order |
| Ingest.BucketReads | igdiscover/group.py:177-221 | a zero barcode length exits; a negative limit is the error `islice` raises; otherwise the state is valid, the counters add up to the records read, and the buckets hold the kept reads by barcode, in order |
| Ordering.Insert | igdiscover/group.py:249 | adding a new barcode keeps the barcode list strictly sorted, with exactly the old barcodes and the new one |
| Ordering.SortedUnique | igdiscover/group.py:249 | two strictly sorted lists of the same strings are equal, so the maintained list is `sorted(barcodes)` |
| Ordering.LessTotal | igdiscover/group.py:249 | Python's string order is total on different strings |
| Ordering.LessTransitive | igdiscover/group.py:249 | Python's string order is transitive |
| Grouping.ClustersOf | igdiscover/group.py:254-258 | with CDR3 grouping the clusters partition the bucket, and each is a connected component of the similarity graph led by its smallest read; without it the bucket is one cluster; sizes sum to the bucket size |
| Grouping.EmitCluster | igdiscover/group.py:260-296 | the `IndexError` happens iff a groups table is written and some read of the cluster has an all-whitespace name (`write_group` takes every name's first token), or the kept first read's name is all whitespace. Otherwise the printed record represents the cluster: it is too small iff it has fewer than 3 reads, and ambiguous iff it has at least 3 and its consensus has an `N`. A consensus record prints the consensus, under the next consensus number, with the most common CDR3. Any other record prints the first read's sequence and CDR3 under its normalised name. The record carries the barcode and the cluster size, and the counter of its kind moves by one |
| Grouping.TallyBalanced | igdiscover/group.py:259-283 | when the counters count the printed records by kind, `too_few + n_consensus + n_ambiguous` is the number of records and `n_singletons <= too_few` |
| Grouping.EmitBucket | igdiscover/group.py:259-296 | over the clusters of one bucket, one record per cluster, each counted; a completed loop's j-th new record represents the bucket's j-th cluster, so the records follow the clusters one to one and in cluster order; the loop stops with an `IndexError` exactly when one of the bucket's clusters raises it, and the records so far still tally |
| Grouping.StopsTokenless | igdiscover/group.py:262-290 | a bucket whose cluster raises the `IndexError` holds a read whose name has no token |
| Grouping.GroupBuckets | igdiscover/group.py:249-296 | for every run, however it ended, each printed record is counted once by kind, names are single tokens, records come in sorted barcode order, and the k-th consensus is `consensus{k}`. A completed run printed one record per counted cluster, with sizes summing to the reads filed, and found no bucket with duplicate names; without CDR3 grouping that is one record per barcode, in order. A duplicate-name stop names a bucket that holds a repeated name. An `IndexError` stop names a bucket with distinct names that holds a read whose name has no token. Every bucket of a smaller barcode than the stopping one had distinct names. With distinct names in every bucket and a token in every read name, the run completes. Every printed record represents a cluster of the bucket of its barcode, as `EmitCluster` states |
| Grouping.GroupReads | igdiscover/group.py:176-296 | `main` fails before reading iff the barcode length is 0 or the limit is negative; a completed run's sizes add up to the reads kept, and its counters balance; an `IndexError` stop names a barcode one of whose kept reads has a name without a token; when every barcode's reads have distinct names with a token each, the run completes; every printed record represents a cluster of the reads kept under its barcode |
| Text.Strip | blastiger.py:44 | a stripped line has no whitespace at either end |
| Text.StripOf | blastiger.py:44 | whitespace, a core without edge whitespace, whitespace: `strip` gives the core |
| Text.Split | blastiger.py:78 | `split('\t')` gives at least one piece, the pieces joined by the separator are the line, and no piece contains the separator |
| Text.SplitJoin | blastiger.py:78 | splitting fields joined by a one-character separator that none contains gives the fields back |
| Numerals.ParseInt | blastiger.py:97 | `int()` accepts a string iff, once stripped, it is an optional sign followed by ASCII digits, with single underscores allowed between digits |
| Numerals.ParseIntToString | blastiger.py:97 | `int(str(n)) == n` |
| Sections.SplitBySection | blastiger.py:31-57 | the stream is rejected iff its first stripped line is not a header; empty input gives no sections; otherwise headers and lines, in order, are the stripped input, every header starts with one of the starts, and no body line does |
| Sections.SplitFlatten | blastiger.py:31-57 | the converse: the lines of well-formed sections split back into those sections |
| Igblast.DecodeBool | blastiger.py:61 | `BOOL[s]` succeeds iff s is `Yes`, `No` or `N/A`, and then the value is written back as s; any other word is a `KeyError` |
| Igblast.DecodeFrame | blastiger.py:62 | `FRAME[s]` succeeds iff s is `In-frame`, `Out-of-frame` or `N/A`, and then the value is written back as s; any other word is a `KeyError` |
| Igblast.DecodeEncode | blastiger.py:61-62 | every value is read back from the word that encodes it |
| Igblast.StrandKeptIff | blastiger.py:92 | `strand in '+-'` holds exactly for the substrings of `+-` |
| Igblast.ParseSummaryLine | blastiger.py:77-92 | a line without 7 or 8 tab fields is a `ValueError`; a chain of `N/A` fails the assertion; otherwise it succeeds iff the stop, frame and productive words decode. Seven fields mean no D call. `N/A` genes become `None`. The strand is kept iff it lies in `+-`. Query name, CDR3 start and hits are untouched |
| Igblast.ReadSummary | blastiger.py:79-92 | the same, for the seven or eight fields of the line |
| Igblast.FindCdr3 | blastiger.py:95-98 | the first line that starts with `CDR3-IMGT (germline)`, or none |
| Igblast.ApplyAlignment | blastiger.py:93-98 | without a CDR3 line nothing changes; otherwise the first such line is read, and only the CDR3 start changes |
| Igblast.ReadCdr3 | blastiger.py:97 | a line without a second tab field is an `IndexError`; otherwise it fails iff `int()` rejects the second field, with a `ValueError` naming it; on success only the CDR3 start changes, and it is that integer minus 1 |
| Igblast.Cdr3Field | blastiger.py:97 | a field `int()` rejects is a `ValueError` naming it; otherwise the CDR3 start is the field's value minus 1 and nothing else changes |
| Igblast.GeneOf | blastiger.py:107 | the gene column is accepted iff it is V, D or J, and then names that gene |
| Igblast.GeneOfName | blastiger.py:107 | every gene's name is read back as that gene |
| Igblast.HitOf | blastiger.py:104-106 | a six-field line is a hit iff both start columns are integers; the id and sequences are copied, and both starts are made 0-based |
| Igblast.ApplyHitLine | blastiger.py:100-109 | blank and `#` lines change nothing; a line without six fields is a `ValueError`; a line that succeeds adds the hit of a new gene, keeps every earlier hit, and grows the table by one |
| Igblast.NewHit | blastiger.py:104-109 | a six-field line succeeds iff its gene is V, D or J and not yet hit and both starts parse; the result is the old hits plus the new one |
| Igblast.ApplyHits | blastiger.py:99-109 | a hit table section keeps all earlier hits and adds one per line that is neither blank nor a comment |
| Igblast.HitsFromLines | blastiger.py:99-109 | every gene a hit table adds has as its hit the one some line of the table describes (six fields, that gene, starts made 0-based), and every line that is neither blank nor a comment describes one of the added hits |
| Igblast.QueryNameOf | blastiger.py:75-76 | a header `# Query: ` followed by a name without `: ` gives that name |
| Igblast.ApplySection | blastiger.py:74-109 | by the start of the header, tested in the source's order: a `# Query: ` header sets the query name to the text after the first `: `; a summary section is read as the rearrangement summary; an alignment section as the alignment summary; a hit table adds its hits; any other section changes nothing. A section touches only its own kind's fields and keeps the record decoded |
| Igblast.ApplySections | blastiger.py:74-109 | the sections in order keep the record decoded; the query name is the one of the last query header, or the earlier one if there is none; a kind of section that does not occur leaves its fields alone; errors are never header errors |
| Igblast.Check | blastiger.py:111-119 | passes iff there are no hits, or there is a query name and every hit agrees with it (query id the name without one trailing `;`, `reversed|` exactly on strand `-`, a known chain); hits without a query name are the `AttributeError` |
| Igblast.ParseIgblastRecord | blastiger.py:60-131 | the header error happens iff the first stripped line is not a section header; an empty record has every field unset; every parsed record has a chain other than `N/A`, a kept strand and consistent hits; its query name is the one of the last `# Query: ` header, or none; without a summary, an alignment or a hit table section the summary fields, the CDR3 start or the hits stay unset |
| Igblast.LastSummaryWins | blastiger.py:74-92 | after all the sections, the summary fields are those read from the first line of the last summary section, whatever the record held before |
| Igblast.RecordSummary | blastiger.py:60-92 | a parsed record's genes, chain, stop codon, frame, productivity and strand are those read from the first line of its last summary section |
| Igblast.Collect | blastiger.py:168-171 | a generator stopped by an exception: the records yielded are the successes before the first failure, and that failure is the error |
| Igblast.CollectAll | blastiger.py:168-171 | when every record parses, all are yielded and there is no error |
| Igblast.ParseRecords | blastiger.py:169-171 | record k is yielded iff record blocks 0..k all have the version header `# IGBLASTN 2.2.29+` and parse; the first failing block gives the error |
| Igblast.ParseIgblast | blastiger.py:134-171 | a file whose first stripped line is not `# IGBLASTN…` yields nothing and fails; otherwise the records are those of its blocks |
| IgblastRender.ParseRender | blastiger.py:60-131 | the lines IgBLAST writes for any record it can express parse back to that record |
| IgblastRender.ParseRenderFile | blastiger.py:134-171 | a file of such records, each under the version line, parses back to the same records and no error |

## Left out

- Reading FASTA/FASTQ files (`SequenceReader`), `open` in `parse_igblast`, and the qualities trimmed along with the sequence (group.py 204-205) are I/O. Records are given as a sequence of name/sequence pairs, and a file as its lines.
- The printed FASTA text (group.py 291-296) is modelled as an `Emitted` record with the same fields, not as a formatted string.
- The rows of the groups table (`write_group`, the csv writer) and the size histogram (group.py 169-173, 236-242, 262-263, 303-316) are output, and the model does not produce them. `Options.groupsOutput` says whether the table is written. Only its one effect on the run is modelled: `write_group` takes the first token of every read name, so an all-whitespace name raises `IndexError` (line 171).
- `sqt`'s `Sequence` class is not part of this model. With a groups table but without CDR3 grouping, `write_group` reads a `cdr3` attribute that `main` never sets (line 171). The model assumes that read succeeds.
- Logging is left out (group.py 223-234, 298-301). That includes the percentage on line 227, which raises `ZeroDivisionError` in real-CDR3 mode when no record is long enough.
- Argument parsing (`add_arguments`, `slice_arg`, `get_argument_parser`), `run_igblast` (it has only a docstring), and `blastiger.main`, which prints records.
- `sqt.align.consensus` is a foreign routine with a float threshold. It is an uninterpreted parameter; only the policy around it is modelled.
- `find_cdr3` is a foreign regular-expression search. It is a parameter of the real-CDR3 mode.
- Python's `int()` also accepts non-ASCII Unicode digits; only ASCII digits, signs, whitespace and single underscores between digits are modelled.
- Running Python with `-O` removes every `assert` and the `__debug__` block. The model always runs them.
- Grouping.GroupBuckets: on an `IndexError` the counters are those as of the last printed record. Python's counters at that point are never observed.
- Grouping.GroupBuckets: each record is tied to some cluster of its bucket, fixed as a set of reads and by its first read. The contract does not say that the records follow the clusters one to one, in cluster order. The order of a cluster's other reads is the search order of `Graph.Explore`. The consensus and the most-common tie-break depend on that order, and the grouping contract does not restate it.
- Grouping.GroupReads: as for `Grouping.GroupBuckets`, each record is tied to some cluster of the reads kept under its barcode. The contract does not say that the records follow those clusters one to one and in cluster order. The clusters are computed inside the loop, so `main`'s contract cannot name them; `Grouping.EmitBucket` states the correspondence bucket by bucket.
- The model tells reads apart by their index in the bucket. Python's graph is keyed by the sequence objects themselves, which are distinct objects.
- Igblast.ParseIgblastRecord: the values a present alignment or hit-table section sets are not stated for arbitrary input; the summary fields are, by `Igblast.RecordSummary`. `Igblast.ApplySection` states each step, and `IgblastRender.ParseRender` states the whole content of the records IgBLAST writes.
- Igblast.ApplySections: for the alignment and the hit table, the contract says what a missing section leaves, not the values a present one sets; for the summary, `Igblast.LastSummaryWins` does. `Igblast.ApplySection` states each step, and `IgblastRender.ParseRender` states the whole content of the records IgBLAST writes.
- Igblast.ParseIgblast: for a file that splits, the contract refers to `ParseRecords`, which carries the meaning.
- Numerals.ParseInt: the contract says which strings `int()` accepts, not the value it gives; `Numerals.ParseIntToString` states the value for the numbers IgBLAST writes.
- Text.Strip: the contract says only that the result has no edge whitespace. `Text.StripOf` characterises the result exactly.
- IgblastRender.ParseRender: limited to the records a writer can express.
  - Fields are non-empty and free of whitespace.
  - A record without a chain has no summary values.
  - The strand is never the empty string.
  - Hits agree with the record.

=== FILE: cluster.dfy ===
/** Single-linkage clustering of the reads of one barcode bucket by CDR3 key
    and length (`cluster_sequences` in group.py). Reads are numbered by
    their position in the bucket. */
module Cluster {
  import opened Hamming
  import opened Graph

  /** A read after barcode removal: its name, its sequence and its CDR3 key
      (the empty string when grouping does not use a CDR3). */
  datatype Read = Read(name: string, sequence: string, cdr3: string)

  /** `abs(len(a) - len(b)) <= 2`. */
  predicate SimilarLength(a: Read, b: Read) {
    -2 <= |a.sequence| - |b.sequence| <= 2
  }

  /** `t` is `s` or one of its one-base substitutions. */
  ghost predicate KeyNeighbor(s: string, t: string) {
    t == s || OneSubstitution(s, t)
  }

  /** Reads `i` and `j` get an edge: similar lengths, and one key is in the
      Hamming neighbourhood of the other. Identical keys are not exempt from
      the length test. */
  ghost predicate Linked(bucket: seq<Read>, i: nat, j: nat) {
    && i < |bucket| && j < |bucket|
    && SimilarLength(bucket[i], bucket[j])
    && (KeyNeighbor(bucket[i].cdr3, bucket[j].cdr3) || KeyNeighbor(bucket[j].cdr3, bucket[i].cdr3))
  }

  /** Indices from `i` on of the reads whose key is `key`, in input order. */
  function KeyIndexFrom(bucket: seq<Read>, key: string, i: nat): (r: seq<nat>)
    requires i <= |bucket|
    ensures forall j :: j in r <==> i <= j < |bucket| && bucket[j].cdr3 == key
    ensures forall k :: 0 <= k < |r| ==> i <= r[k] < |bucket|
    ensures forall a, b :: 0 <= a < b < |r| ==> r[a] < r[b]
    decreases |bucket| - i
  {
    if i == |bucket| then []
    else (if bucket[i].cdr3 == key then [i] else []) + KeyIndexFrom(bucket, key, i + 1)
  }

  /** `cdr3_seqs.get(key, [])`: the reads sharing the key `key`, in order. */
  function KeyIndex(bucket: seq<Read>, key: string): seq<nat> {
    KeyIndexFrom(bucket, key, 0)
  }

  /** The edges `(i, j)` added for the reads `js` found under one key. */
  function LinksTo(bucket: seq<Read>, i: nat, js: seq<nat>): (es: seq<(nat, nat)>)
    requires i < |bucket| && forall k :: 0 <= k < |js| ==> js[k] < |bucket|
    ensures forall k :: 0 <= k < |es| ==> es[k].0 < |bucket| && es[k].1 < |bucket|
    ensures forall a: nat, b: nat :: (a, b) in es <==> a == i && b in js && SimilarLength(bucket[i], bucket[b])
  {
    if |js| == 0 then []
    else
      var rest := LinksTo(bucket, i, js[1..]);
      assert forall b :: b in js <==> b == js[0] || b in js[1..];
      (if SimilarLength(bucket[i], bucket[js[0]]) then [(i, js[0])] else []) + rest
  }

  /** The edges added for read `i` while it scans the keys `keys`. */
  function LinksForKeys(bucket: seq<Read>, i: nat, keys: seq<string>): (es: seq<(nat, nat)>)
    requires i < |bucket|
    ensures forall k :: 0 <= k < |es| ==> es[k].0 < |bucket| && es[k].1 < |bucket|
    ensures forall a: nat, b: nat :: (a, b) in es <==>
      a == i && b < |bucket| && bucket[b].cdr3 in keys && SimilarLength(bucket[i], bucket[b])
  {
    if |keys| == 0 then []
    else
      var js := KeyIndex(bucket, keys[0]);
      var es := LinksTo(bucket, i, js) + LinksForKeys(bucket, i, keys[1..]);
      assert forall s :: s in keys <==> s == keys[0] || s in keys[1..];
      es
  }

  /** The edges added by the loop of `cluster_sequences`, from read `i` on,
      in the order they are added. */
  function LinksFrom(bucket: seq<Read>, i: nat): (es: seq<(nat, nat)>)
    requires i <= |bucket|
    ensures forall k :: 0 <= k < |es| ==> es[k].0 < |bucket| && es[k].1 < |bucket|
    ensures forall a: nat, b: nat :: (a, b) in es <==>
      i <= a < |bucket| && b < |bucket| && bucket[b].cdr3 in HammingNeighbors(bucket[a].cdr3)
      && SimilarLength(bucket[a], bucket[b])
    decreases |bucket| - i
  {
    if i == |bucket| then []
    else LinksForKeys(bucket, i, HammingNeighbors(bucket[i].cdr3)) + LinksFrom(bucket, i + 1)
  }

  /** The graph `cluster_sequences` builds before extracting components. */
  function SimilarityGraph(bucket: seq<Read>): (g: Adjacency)
    ensures |g| == |bucket| && WellFormed(g)
  {
    AddEdges(Empty(|bucket|), LinksFrom(bucket, 0))
  }

  /** The neighbour lists hold exactly the linked reads. */
  lemma SimilarityGraphEdges(bucket: seq<Read>, i: nat, j: nat)
    requires i < |bucket| && j < |bucket|
    ensures j in SimilarityGraph(bucket)[i] <==> Linked(bucket, i, j)
  {
    var es := LinksFrom(bucket, 0);
    var a, b := bucket[i], bucket[j];
    AddEdgesMembers(Empty(|bucket|), es, i, j);
    assert j !in Empty(|bucket|)[i];
    assert (i, j) in es <==> b.cdr3 in HammingNeighbors(a.cdr3) && SimilarLength(a, b);
    assert (j, i) in es <==> a.cdr3 in HammingNeighbors(b.cdr3) && SimilarLength(b, a);
    NeighborsMembers(a.cdr3, b.cdr3);
    NeighborsMembers(b.cdr3, a.cdr3);
  }

  lemma SimilarityGraphSymmetric(bucket: seq<Read>)
    ensures Symmetric(SimilarityGraph(bucket))
  {
    AddEdgesSymmetric(|bucket|, LinksFrom(bucket, 0));
  }

  /** Every read linked to a member of `comp` is in `comp`. */
  ghost predicate ClosedUnderLinks(bucket: seq<Read>, comp: seq<nat>) {
    forall i: nat, j: nat :: i in comp && Linked(bucket, i, j) ==> j in comp
  }

  /** From any member of `comp`, `comp` holds exactly the reads reachable in
      `g`. */
  ghost predicate ReachableSet(g: Adjacency, comp: seq<nat>) {
    forall i: nat, j: nat :: i in comp && j < |g| ==> (j in comp <==> Reachable(g, i, j))
  }

  /** `cluster_sequences(sequences)`: the connected components of the
      similarity graph, as lists of read indices. Every read is in exactly
      one cluster, each cluster is closed under links and is exactly the set
      of reads connected to any of its members, and clusters come in the
      order of their smallest read, which is also their first. */
  method ClusterSequences(bucket: seq<Read>) returns (clusters: seq<seq<nat>>)
    ensures IsPartition(clusters, |bucket|)
    ensures SumSizes(clusters) == |bucket|
    ensures forall c :: 0 <= c < |clusters| ==> ClosedUnderLinks(bucket, clusters[c])
    ensures forall c :: 0 <= c < |clusters| ==> ReachableSet(SimilarityGraph(bucket), clusters[c])
    ensures forall c, i :: 0 <= c < |clusters| && i in clusters[c] ==> clusters[c][0] <= i
    ensures forall c :: 0 <= c < |clusters| - 1 ==> clusters[c][0] < clusters[c + 1][0]
  {
    var g := SimilarityGraph(bucket);
    SimilarityGraphSymmetric(bucket);
    clusters := ConnectedComponents(g);
    forall c | 0 <= c < |clusters|
      ensures ClosedUnderLinks(bucket, clusters[c]) && ReachableSet(g, clusters[c])
    {
      ClusterProperties(bucket, g, clusters[c]);
    }
  }

  /** A closed component of the similarity graph whose members are reachable
      from its first read is closed under links and is the reachable set of
      each of its members. */
  lemma ClusterProperties(bucket: seq<Read>, g: Adjacency, comp: seq<nat>)
    requires g == SimilarityGraph(bucket)
    requires |comp| > 0
    requires forall x :: x in comp ==> x < |g|
    requires forall x, y :: x in comp && y in g[x] ==> y in comp
    requires forall x :: x in comp ==> Reachable(g, comp[0], x)
    ensures ClosedUnderLinks(bucket, comp) && ReachableSet(g, comp)
  {
    SimilarityGraphSymmetric(bucket);
    forall i: nat, j: nat | i in comp && Linked(bucket, i, j)
      ensures j in comp
    {
      SimilarityGraphEdges(bucket, i, j);
    }
    forall i: nat, j: nat | i in comp && j < |g|
      ensures j in comp <==> Reachable(g, i, j)
    {
      ComponentIsReachableSet(g, comp, i, j);
    }
  }
}

=== FILE: graph.dfy ===
/** The undirected graph of one barcode bucket (`Graph` in group.py), with
    nodes numbered 0 .. n-1 in insertion order and each node's neighbour list
    kept in the order edges were added. */
module Graph {

  type Adjacency = seq<seq<nat>>

  /** Every neighbour is a node of the graph. */
  predicate WellFormed(g: Adjacency) {
    forall x, k :: 0 <= x < |g| && 0 <= k < |g[x]| ==> g[x][k] < |g|
  }

  ghost predicate Symmetric(g: Adjacency) {
    forall x, y :: 0 <= x < |g| && 0 <= y < |g| && y in g[x] ==> x in g[y]
  }

  /** `Graph(nodes)`: n nodes, no edges. */
  function Empty(n: nat): (g: Adjacency)
    ensures |g| == n && WellFormed(g)
    ensures forall x :: 0 <= x < n ==> g[x] == []
  {
    seq(n, _ => [])
  }

  /** `add_edge(a, b)`: `b` is appended to `a`'s list, then `a` to `b`'s. */
  function AddEdge(g: Adjacency, a: nat, b: nat): (h: Adjacency)
    requires a < |g| && b < |g|
    ensures |h| == |g|
    ensures forall x, y :: 0 <= x < |g| ==>
      (y in h[x] <==> y in g[x] || (x == a && y == b) || (x == b && y == a))
    ensures WellFormed(g) ==> WellFormed(h)
  {
    var g1 := g[a := g[a] + [b]];
    g1[b := g1[b] + [a]]
  }

  /** Adds the edges of `es`, in order. */
  function AddEdges(g: Adjacency, es: seq<(nat, nat)>): (h: Adjacency)
    requires forall k :: 0 <= k < |es| ==> es[k].0 < |g| && es[k].1 < |g|
    ensures |h| == |g|
    ensures WellFormed(g) ==> WellFormed(h)
    decreases |es|
  {
    if |es| == 0 then g else AddEdges(AddEdge(g, es[0].0, es[0].1), es[1..])
  }

  /** A neighbour list is exactly the edges seen from either end. */
  lemma {:induction false} AddEdgesMembers(g: Adjacency, es: seq<(nat, nat)>, x: nat, y: nat)
    requires forall k :: 0 <= k < |es| ==> es[k].0 < |g| && es[k].1 < |g|
    requires x < |g|
    ensures y in AddEdges(g, es)[x] <==> y in g[x] || (x, y) in es || (y, x) in es
    decreases |es|
  {
    if |es| > 0 {
      var h := AddEdge(g, es[0].0, es[0].1);
      AddEdgesMembers(h, es[1..], x, y);
      assert es == [es[0]] + es[1..];
    }
  }

  /** Graphs built with `add_edge` only are undirected. */
  lemma AddEdgesSymmetric(n: nat, es: seq<(nat, nat)>)
    requires forall k :: 0 <= k < |es| ==> es[k].0 < n && es[k].1 < n
    ensures Symmetric(AddEdges(Empty(n), es))
  {
    var g := AddEdges(Empty(n), es);
    forall x, y | 0 <= x < |g| && 0 <= y < |g| && y in g[x]
      ensures x in g[y]
    {
      AddEdgesMembers(Empty(n), es, x, y);
      AddEdgesMembers(Empty(n), es, y, x);
    }
  }

  /** A walk along edges. */
  ghost predicate IsPath(g: Adjacency, p: seq<nat>) {
    && |p| > 0
    && (forall k :: 0 <= k < |p| ==> p[k] < |g|)
    && (forall k :: 0 <= k < |p| - 1 ==> p[k + 1] in g[p[k]])
  }

  ghost predicate Reachable(g: Adjacency, a: nat, b: nat) {
    exists p :: IsPath(g, p) && p[0] == a && p[|p| - 1] == b
  }

  lemma ReachableSelf(g: Adjacency, a: nat)
    requires a < |g|
    ensures Reachable(g, a, a)
  {
    assert IsPath(g, [a]);
  }

  lemma ReachableStep(g: Adjacency, a: nat, b: nat, c: nat)
    requires WellFormed(g) && b < |g|
    requires Reachable(g, a, b) && c in g[b]
    ensures Reachable(g, a, c)
  {
    var p :| IsPath(g, p) && p[0] == a && p[|p| - 1] == b;
    var q := p + [c];
    assert IsPath(g, q);
  }

  /** In an undirected graph a walk can be taken backwards. */
  lemma ReachableSymmetric(g: Adjacency, a: nat, b: nat)
    requires WellFormed(g) && Symmetric(g)
    requires Reachable(g, a, b)
    ensures Reachable(g, b, a)
  {
    var p :| IsPath(g, p) && p[0] == a && p[|p| - 1] == b;
    var q := seq(|p|, k requires 0 <= k < |p| => p[|p| - 1 - k]);
    forall k | 0 <= k < |q| - 1
      ensures q[k + 1] in g[q[k]]
    {
      var j := |p| - 2 - k;
      assert q[k] == p[j + 1] && q[k + 1] == p[j];
      assert p[j + 1] in g[p[j]];
    }
    assert IsPath(g, q);
  }

  lemma ReachableTransitive(g: Adjacency, a: nat, b: nat, c: nat)
    requires Reachable(g, a, b) && Reachable(g, b, c)
    ensures Reachable(g, a, c)
  {
    var p :| IsPath(g, p) && p[0] == a && p[|p| - 1] == b;
    var q :| IsPath(g, q) && q[0] == b && q[|q| - 1] == c;
    var r := p + q[1..];
    forall k | 0 <= k < |r| - 1
      ensures r[k + 1] in g[r[k]]
    {
      if k == |p| - 1 {
        assert r[k] == q[0] && r[k + 1] == q[1];
      } else if k >= |p| {
        assert r[k] == q[k - |p| + 1] && r[k + 1] == q[k - |p| + 2];
      }
    }
    assert IsPath(g, r);
  }

  /** A walk that starts inside a node set with no outgoing edge stays in it. */
  lemma {:induction false} WalkStaysInside(g: Adjacency, comp: seq<nat>, p: seq<nat>, k: nat)
    requires IsPath(g, p) && p[0] in comp && k < |p|
    requires forall x :: x in comp ==> x < |g|
    requires forall x, y :: x in comp && y in g[x] ==> y in comp
    ensures p[k] in comp
    decreases k
  {
    if k > 0 {
      WalkStaysInside(g, comp, p, k - 1);
    }
  }

  /** A component that is closed under edges and whose members are all
      reachable from its first node is exactly the set of nodes reachable
      from any one of its members. */
  lemma ComponentIsReachableSet(g: Adjacency, comp: seq<nat>, x: nat, y: nat)
    requires WellFormed(g) && Symmetric(g)
    requires |comp| > 0 && x in comp && y < |g|
    requires forall u :: u in comp ==> u < |g|
    requires forall u, v :: u in comp && v in g[u] ==> v in comp
    requires forall u :: u in comp ==> Reachable(g, comp[0], u)
    ensures y in comp <==> Reachable(g, x, y)
  {
    if y in comp {
      ReachableSymmetric(g, comp[0], x);
      ReachableTransitive(g, x, comp[0], y);
    }
    if Reachable(g, x, y) {
      var p :| IsPath(g, p) && p[0] == x && p[|p| - 1] == y;
      WalkStaysInside(g, comp, p, |p| - 1);
    }
  }

  /** No edge leaves the node set `s`. */
  ghost predicate Closed(g: Adjacency, s: set<nat>) {
    forall x, y :: x in s && 0 <= x < |g| && y in g[x] ==> y in s
  }

  predicate NoDup(xs: seq<nat>) {
    forall a, b :: 0 <= a < b < |xs| ==> xs[a] != xs[b]
  }

  /** The elements of `ns` that are not in `visited`, in order: the
      neighbours pushed on the worklist. */
  function Unvisited(ns: seq<nat>, visited: set<nat>): (r: seq<nat>)
    ensures forall y :: y in r <==> y in ns && y !in visited
  {
    if |ns| == 0 then []
    else (if ns[0] in visited then [] else [ns[0]]) + Unvisited(ns[1..], visited)
  }

  /** Bookkeeping of the worklist search: `seen` is the old visited set plus
      the component found so far, which holds each node once. */
  ghost predicate Tracked(g: Adjacency, visited: set<nat>, comp: seq<nat>, seen: set<nat>) {
    && (forall x :: x in seen <==> x in visited || x in comp)
    && |seen| == |visited| + |comp|
    && (forall x :: x in seen ==> x < |g|)
    && NoDup(comp)
    && (forall x :: x in comp ==> x !in visited)
  }

  /** Everything found or queued is reachable from `start`. */
  ghost predicate Reaches(g: Adjacency, start: nat, comp: seq<nat>, toVisit: seq<nat>) {
    && (forall k :: 0 <= k < |toVisit| ==> toVisit[k] < |g| && Reachable(g, start, toVisit[k]))
    && (forall x :: x in comp ==> Reachable(g, start, x))
  }

  /** Every neighbour of the component is visited or still queued. */
  ghost predicate Frontier(g: Adjacency, comp: seq<nat>, seen: set<nat>, toVisit: seq<nat>) {
    forall x, y :: x in comp && 0 <= x < |g| && y in g[x] ==> y in seen || y in toVisit
  }

  /** What the worklist search keeps true. */
  ghost predicate SearchInvariant(g: Adjacency, start: nat, visited: set<nat>,
                                  comp: seq<nat>, seen: set<nat>, toVisit: seq<nat>)
  {
    && WellFormed(g)
    && start < |g| && start !in visited
    && (|comp| == 0 ==> toVisit == [start])
    && (|comp| > 0 ==> comp[0] == start)
    && Tracked(g, visited, comp, seen)
    && Reaches(g, start, comp, toVisit)
    && Frontier(g, comp, seen, toVisit)
  }

  /** Popping a node that is already visited. */
  lemma SkipVisited(g: Adjacency, start: nat, visited: set<nat>,
                    comp: seq<nat>, seen: set<nat>, toVisit: seq<nat>)
    requires SearchInvariant(g, start, visited, comp, seen, toVisit)
    requires |toVisit| > 0 && toVisit[|toVisit| - 1] in seen
    ensures SearchInvariant(g, start, visited, comp, seen, toVisit[..|toVisit| - 1])
  {
    var rest := toVisit[..|toVisit| - 1];
    assert toVisit == rest + [toVisit[|toVisit| - 1]];
  }

  lemma TrackedVisit(g: Adjacency, visited: set<nat>, comp: seq<nat>, seen: set<nat>, n: nat)
    requires Tracked(g, visited, comp, seen)
    requires n < |g| && n !in seen
    ensures Tracked(g, visited, comp + [n], seen + {n})
  {
    var comp' := comp + [n];
    forall a, b | 0 <= a < b < |comp'|
      ensures comp'[a] != comp'[b]
    {
      if b == |comp| {
        assert comp'[a] == comp[a] && comp[a] in comp;
      }
    }
  }

  lemma ReachesVisit(g: Adjacency, start: nat, comp: seq<nat>, toVisit: seq<nat>, seen: set<nat>)
    requires WellFormed(g)
    requires Reaches(g, start, comp, toVisit) && |toVisit| > 0
    ensures var n := toVisit[|toVisit| - 1];
      Reaches(g, start, comp + [n], toVisit[..|toVisit| - 1] + Unvisited(g[n], seen))
  {
    var n := toVisit[|toVisit| - 1];
    var rest := toVisit[..|toVisit| - 1];
    var pushed := Unvisited(g[n], seen);
    var toVisit' := rest + pushed;
    forall k | 0 <= k < |toVisit'|
      ensures toVisit'[k] < |g| && Reachable(g, start, toVisit'[k])
    {
      if k < |rest| {
        assert toVisit'[k] == toVisit[k];
      } else {
        assert toVisit'[k] in pushed;
        ReachableStep(g, start, n, toVisit'[k]);
      }
    }
  }

  lemma FrontierVisit(g: Adjacency, comp: seq<nat>, seen: set<nat>, toVisit: seq<nat>)
    requires WellFormed(g)
    requires Frontier(g, comp, seen, toVisit) && |toVisit| > 0
    requires toVisit[|toVisit| - 1] < |g|
    ensures var n := toVisit[|toVisit| - 1];
      Frontier(g, comp + [n], seen + {n}, toVisit[..|toVisit| - 1] + Unvisited(g[n], seen + {n}))
  {
    var n := toVisit[|toVisit| - 1];
    var rest := toVisit[..|toVisit| - 1];
    assert toVisit == rest + [n];
    var seen' := seen + {n};
    var toVisit' := rest + Unvisited(g[n], seen');
    forall x, y | x in comp + [n] && 0 <= x < |g| && y in g[x]
      ensures y in seen' || y in toVisit'
    {
      if x != n {
        assert y in seen || y in toVisit;
      }
    }
  }

  /** Popping an unvisited node `n`: it joins the component and its
      unvisited neighbours are pushed. */
  lemma VisitNode(g: Adjacency, start: nat, visited: set<nat>,
                  comp: seq<nat>, seen: set<nat>, toVisit: seq<nat>)
    requires SearchInvariant(g, start, visited, comp, seen, toVisit)
    requires |toVisit| > 0 && toVisit[|toVisit| - 1] !in seen
    ensures toVisit[|toVisit| - 1] < |g|
    ensures var n := toVisit[|toVisit| - 1];
      SearchInvariant(g, start, visited, comp + [n], seen + {n},
                      toVisit[..|toVisit| - 1] + Unvisited(g[n], seen + {n}))
  {
    var n := toVisit[|toVisit| - 1];
    assert n < |g|;
    TrackedVisit(g, visited, comp, seen, n);
    ReachesVisit(g, start, comp, toVisit, seen + {n});
    FrontierVisit(g, comp, seen, toVisit);
  }

  /** One run of the inner loop of `connected_components`: a depth-first
      worklist search from `start` that skips the nodes already visited.
      It returns the new component and the enlarged visited set. */
  method Explore(g: Adjacency, start: nat, visited: set<nat>) returns (comp: seq<nat>, seen: set<nat>)
    requires WellFormed(g) && Symmetric(g)
    requires start < |g| && start !in visited
    requires forall x :: x in visited ==> x < |g|
    requires Closed(g, visited)
    ensures |comp| > 0 && comp[0] == start && NoDup(comp)
    ensures forall x :: x in seen <==> x in visited || x in comp
    ensures |seen| == |visited| + |comp|
    ensures forall x :: x in comp ==> x < |g| && x !in visited
    ensures forall x :: x in comp ==> Reachable(g, start, x)
    ensures forall x, y :: x in comp && y in g[x] ==> y in comp
    ensures Closed(g, seen)
  {
    var nodes := Nodes(|g|);
    var toVisit := [start];
    comp := [];
    seen := visited;
    SearchStart(g, start, visited);
    while |toVisit| > 0
      invariant SearchInvariant(g, start, visited, comp, seen, toVisit)
      invariant seen <= nodes
      decreases |nodes - seen|, |toVisit|
    {
      var n := toVisit[|toVisit| - 1];
      if n in seen {
        SkipVisited(g, start, visited, comp, seen, toVisit);
        toVisit := toVisit[..|toVisit| - 1];
        continue;
      }
      VisitNode(g, start, visited, comp, seen, toVisit);
      Shrinks(nodes, seen, n);
      toVisit := toVisit[..|toVisit| - 1];
      seen := seen + {n};
      comp := comp + [n];
      toVisit := toVisit + Unvisited(g[n], seen);
    }
    FinishSearch(g, start, visited, comp, seen);
  }

  /** Before the search, only `start` is queued. */
  lemma SearchStart(g: Adjacency, start: nat, visited: set<nat>)
    requires WellFormed(g) && start < |g| && start !in visited
    requires forall x :: x in visited ==> x < |g|
    ensures SearchInvariant(g, start, visited, [], visited, [start])
    ensures visited <= Nodes(|g|)
  {
    ReachableSelf(g, start);
  }

  /** Visiting a new node leaves fewer nodes to visit. */
  lemma Shrinks(nodes: set<nat>, seen: set<nat>, n: nat)
    requires n in nodes && n !in seen && seen <= nodes
    ensures seen + {n} <= nodes
    ensures |nodes - (seen + {n})| < |nodes - seen|
  {
    assert nodes - (seen + {n}) < nodes - seen;
  }

  /** With the worklist empty, the component is closed under edges: a
      neighbour visited before the search would, by symmetry and the
      closedness of the old visited set, have pulled the component in. */
  lemma FinishSearch(g: Adjacency, start: nat, visited: set<nat>, comp: seq<nat>, seen: set<nat>)
    requires Symmetric(g) && Closed(g, visited)
    requires SearchInvariant(g, start, visited, comp, seen, [])
    ensures |comp| > 0 && comp[0] == start && NoDup(comp)
    ensures forall x :: x in seen <==> x in visited || x in comp
    ensures |seen| == |visited| + |comp|
    ensures forall x :: x in comp ==> x < |g| && x !in visited
    ensures forall x :: x in comp ==> Reachable(g, start, x)
    ensures forall x, y :: x in comp && y in g[x] ==> y in comp
    ensures Closed(g, seen)
  {
  }

  /** The node set 0 .. n-1. */
  function Nodes(n: nat): (s: set<nat>)
    ensures forall x: nat :: x in s <==> x < n
    ensures |s| == n
  {
    if n == 0 then {} else
      var s := Nodes(n - 1);
      assert n - 1 !in s;
      s + {n - 1}
  }

  /** `connected_components()`: walks the nodes in insertion order and starts
      a component at each node not yet visited. */
  method ConnectedComponents(g: Adjacency) returns (comps: seq<seq<nat>>)
    requires WellFormed(g) && Symmetric(g)
    ensures IsPartition(comps, |g|)
    ensures SumSizes(comps) == |g|
    ensures forall c, x, y :: 0 <= c < |comps| && x in comps[c] && y in g[x] ==> y in comps[c]
    ensures forall c, x :: 0 <= c < |comps| && x in comps[c] ==> Reachable(g, comps[c][0], x)
    ensures forall c, x :: 0 <= c < |comps| && x in comps[c] ==> comps[c][0] <= x
    ensures forall c :: 0 <= c < |comps| - 1 ==> comps[c][0] < comps[c + 1][0]
  {
    comps := [];
    var visited: set<nat> := {};
    for i := 0 to |g|
      invariant ComponentsSoFar(g, comps)
      invariant Progress(g, comps, visited, i)
    {
      if i in visited {
        SkipVisitedNode(g, comps, visited, i);
      } else {
        var comp, seen := Explore(g, i, visited);
        AppendComponent(g, comps, visited, i, comp, seen);
        comps := comps + [comp];
        visited := seen;
      }
    }
    Conclude(g, comps, visited);
  }

  /** After the last node the components partition the whole graph. */
  lemma Conclude(g: Adjacency, comps: seq<seq<nat>>, visited: set<nat>)
    requires ComponentsSoFar(g, comps) && Progress(g, comps, visited, |g|)
    ensures IsPartition(comps, |g|)
    ensures SumSizes(comps) == |g|
  {
    assert visited == Nodes(|g|);
  }

  /** What holds of every component found so far, whatever the progress. */
  ghost predicate ComponentsSoFar(g: Adjacency, comps: seq<seq<nat>>) {
    && (forall c :: 0 <= c < |comps| ==> |comps[c]| > 0 && NoDup(comps[c]))
    && (forall c1, c2, x :: 0 <= c1 < c2 < |comps| && x in comps[c1] ==> x !in comps[c2])
    && (forall c, x :: 0 <= c < |comps| && x in comps[c] ==> x < |g|)
    && (forall c, x :: 0 <= c < |comps| && x in comps[c] ==> comps[c][0] <= x)
    && (forall c :: 0 <= c < |comps| - 1 ==> comps[c][0] < comps[c + 1][0])
    && (forall c, x, y :: 0 <= c < |comps| && x in comps[c] && x < |g| && y in g[x] ==> y in comps[c])
    && (forall c, x :: 0 <= c < |comps| && x in comps[c] ==> Reachable(g, comps[c][0], x))
  }

  /** The outer loop after the nodes before `i`: those are all visited, and
      every visited node lies in some component. */
  ghost predicate Progress(g: Adjacency, comps: seq<seq<nat>>, visited: set<nat>, i: nat) {
    && (forall x :: x in visited ==> x < |g|)
    && (forall x :: x in visited ==> Covered(comps, x))
    && (forall c, x :: 0 <= c < |comps| && x in comps[c] ==> x in visited)
    && (forall c :: 0 <= c < |comps| ==> |comps[c]| > 0 && comps[c][0] < i)
    && (forall x: nat :: x < i ==> x in visited)
    && Closed(g, visited)
    && SumSizes(comps) == |visited|
  }

  /** The facts `Explore` establishes about a component found from `i`. */
  ghost predicate FoundFrom(g: Adjacency, i: nat, visited: set<nat>, comp: seq<nat>, seen: set<nat>) {
    && |comp| > 0 && comp[0] == i && NoDup(comp)
    && (forall x :: x in seen <==> x in visited || x in comp)
    && |seen| == |visited| + |comp|
    && (forall x :: x in comp ==> x < |g| && x !in visited)
    && (forall x :: x in comp ==> Reachable(g, i, x))
    && (forall x, y :: x in comp && y in g[x] ==> y in comp)
    && Closed(g, seen)
  }

  lemma AppendComponent(g: Adjacency, comps: seq<seq<nat>>, visited: set<nat>, i: nat, comp: seq<nat>, seen: set<nat>)
    requires WellFormed(g) && i < |g|
    requires ComponentsSoFar(g, comps) && Progress(g, comps, visited, i)
    requires i !in visited
    requires FoundFrom(g, i, visited, comp, seen)
    ensures ComponentsSoFar(g, comps + [comp])
    ensures Progress(g, comps + [comp], seen, i + 1)
  {
    ComponentsAppend(g, comps, visited, i, comp);
    ProgressAppend(g, comps, visited, i, comp, seen);
  }

  lemma ComponentsAppend(g: Adjacency, comps: seq<seq<nat>>, visited: set<nat>, i: nat, comp: seq<nat>)
    requires ComponentsSoFar(g, comps)
    requires forall c, x :: 0 <= c < |comps| && x in comps[c] ==> x in visited
    requires forall c :: 0 <= c < |comps| ==> |comps[c]| > 0 && comps[c][0] < i
    requires |comp| > 0 && comp[0] == i && NoDup(comp)
    requires forall x :: x in comp ==> x < |g| && x !in visited && i <= x
    requires forall x :: x in comp ==> Reachable(g, i, x)
    requires forall x, y :: x in comp && y in g[x] ==> y in comp
    ensures ComponentsSoFar(g, comps + [comp])
  {
    var comps' := comps + [comp];
    var k := |comps|;
    assert comps'[k] == comp;
    forall c | 0 <= c < k
      ensures comps'[c] == comps[c]
    {
    }
    forall c1, c2, x | 0 <= c1 < c2 < |comps'| && x in comps'[c1]
      ensures x !in comps'[c2]
    {
      if c2 == k {
        assert x in visited;
      }
    }
  }

  lemma ProgressAppend(g: Adjacency, comps: seq<seq<nat>>, visited: set<nat>,
                       i: nat, comp: seq<nat>, seen: set<nat>)
    requires Progress(g, comps, visited, i)
    requires FoundFrom(g, i, visited, comp, seen)
    ensures Progress(g, comps + [comp], seen, i + 1)
  {
    var comps' := comps + [comp];
    SumSizesAppend(comps, comp);
    forall c | 0 <= c < |comps|
      ensures comps'[c] == comps[c]
    {
    }
    forall x | x in seen
      ensures Covered(comps', x)
    {
      if x in comp {
        assert x in comps'[|comps|];
      } else {
        var c :| 0 <= c < |comps| && x in comps[c];
        assert x in comps'[c];
      }
    }
  }

  lemma SkipVisitedNode(g: Adjacency, comps: seq<seq<nat>>, visited: set<nat>, i: nat)
    requires Progress(g, comps, visited, i) && i in visited
    ensures Progress(g, comps, visited, i + 1)
  {
  }

  /** Every node 0 .. n-1 lies in exactly one component, components are
      non-empty and hold no node twice. */
  ghost predicate IsPartition(comps: seq<seq<nat>>, n: nat) {
    && (forall c :: 0 <= c < |comps| ==> |comps[c]| > 0 && NoDup(comps[c]))
    && (forall c1, c2, x :: 0 <= c1 < c2 < |comps| && x in comps[c1] ==> x !in comps[c2])
    && (forall c, x :: 0 <= c < |comps| && x in comps[c] ==> x < n)
    && (forall x :: 0 <= x < n ==> Covered(comps, x))
  }

  ghost predicate Covered(comps: seq<seq<nat>>, x: nat) {
    exists c :: 0 <= c < |comps| && x in comps[c]
  }

  function SumSizes(comps: seq<seq<nat>>): nat {
    if |comps| == 0 then 0 else SumSizes(comps[..|comps| - 1]) + |comps[|comps| - 1]|
  }

  lemma SumSizesAppend(comps: seq<seq<nat>>, comp: seq<nat>)
    ensures SumSizes(comps + [comp]) == SumSizes(comps) + |comp|
  {
    assert (comps + [comp])[..|comps|] == comps;
  }
}

=== FILE: grouping.dfy ===
/** The second half of `main` in group.py: barcode by barcode in sorted
    order, the reads are split into clusters and each cluster emits one
    FASTA record. */
module Grouping {
  import opened Wrappers
  import opened Text
  import opened Ordering
  import opened Graph
  import opened Cluster
  import opened Representative
  import opened Ingest

  /** One emitted FASTA record: the header `>name;barcode=…;cdr3=…;size=…;`
      (no `cdr3` field when reads are not grouped by CDR3) and the sequence.
      `kind` records which counter the cluster was counted in. */
  datatype Emitted = Emitted(kind: Kind, name: string, barcode: string, cdr3: Option<string>, size: nat, sequence: string)

  /** How the loop ended: normally, with `sys.exit(1)` on a bucket holding
      two reads of the same name, or with the `IndexError` of a chosen name
      that has no token. */
  datatype Status = Completed | DuplicateNames(barcode: string) | NameWithoutToken(barcode: string)

  /** The records printed before the loop ended, the counters as of the last
      printed record, and how the loop ended. */
  datatype GroupRun = GroupRun(records: seq<Emitted>, counters: Counters, status: Status)

  /** `len(sequences) == len(set(s.name for s in sequences))`. */
  predicate DistinctNames(bucket: seq<Read>) {
    forall i, j :: 0 <= i < j < |bucket| ==> bucket[i].name != bucket[j].name
  }

  /** The reads of a cluster given by indices into its bucket. */
  function Members(bucket: seq<Read>, cluster: seq<nat>): (r: seq<Read>)
    requires forall k :: 0 <= k < |cluster| ==> cluster[k] < |bucket|
    ensures |r| == |cluster|
    ensures forall k :: 0 <= k < |r| ==> r[k] == bucket[cluster[k]]
  {
    seq(|cluster|, k requires 0 <= k < |cluster| => bucket[cluster[k]])
  }

  /** `[0, 1, …, n - 1]`: a bucket taken whole as one cluster. */
  function Range(n: nat): (r: seq<nat>)
    ensures |r| == n
    ensures forall k :: 0 <= k < n ==> r[k] == k
  {
    seq(n, k requires 0 <= k < n => k)
  }

  function CountKind(out: seq<Emitted>, kind: Kind): nat {
    if |out| == 0 then 0
    else CountKind(out[..|out| - 1], kind) + (if out[|out| - 1].kind == kind then 1 else 0)
  }

  function CountSingles(out: seq<Emitted>): nat {
    if |out| == 0 then 0
    else CountSingles(out[..|out| - 1]) + (if out[|out| - 1].size == 1 then 1 else 0)
  }

  /** Total of the `size` fields. */
  function TotalSize(out: seq<Emitted>): nat {
    if |out| == 0 then 0 else TotalSize(out[..|out| - 1]) + out[|out| - 1].size
  }

  /** The counters agree with the records printed: each counts the records
      of its kind, and singletons are clusters of one read. */
  ghost predicate Tally(out: seq<Emitted>, c: Counters) {
    && CountKind(out, TooFew) == c.tooFew
    && CountKind(out, Ambiguous) == c.nAmbiguous
    && CountKind(out, Consensus) == c.nConsensus
    && CountSingles(out) == c.nSingletons
    && (forall k :: 0 <= k < |out| && out[k].size == 1 ==> out[k].kind == TooFew)
  }

  /** The `k`-th consensus record printed is named `consensus{k}`. */
  ghost predicate ConsensusNumbered(out: seq<Emitted>) {
    forall k :: 0 <= k < |out| && out[k].kind == Consensus ==>
      out[k].name == ConsensusName(CountKind(out[..k + 1], Consensus))
  }

  lemma {:induction false} TallyBalanced(out: seq<Emitted>, c: Counters)
    requires Tally(out, c)
    ensures c.tooFew + c.nConsensus + c.nAmbiguous == |out|
    ensures c.nSingletons <= c.tooFew
    decreases |out|
  {
    if |out| > 0 {
      var init := out[..|out| - 1];
      var last := out[|out| - 1];
      var c0 := Counters(CountKind(init, TooFew), 0, CountSingles(init), CountKind(init, Consensus), CountKind(init, Ambiguous));
      assert Tally(init, c0) by {
        forall k | 0 <= k < |init| && init[k].size == 1
          ensures init[k].kind == TooFew
        {
          assert init[k] == out[k];
        }
      }
      TallyBalanced(init, c0);
    }
  }

  /** Appending one record keeps the counters in step. */
  lemma EmitStep(out: seq<Emitted>, c: Counters, e: Emitted, d: Counters)
    requires Tally(out, c) && ConsensusNumbered(out)
    requires d.tooFew == c.tooFew + (if e.kind == TooFew then 1 else 0)
    requires d.nAmbiguous == c.nAmbiguous + (if e.kind == Ambiguous then 1 else 0)
    requires d.nConsensus == c.nConsensus + (if e.kind == Consensus then 1 else 0)
    requires d.nSingletons == c.nSingletons + (if e.size == 1 then 1 else 0)
    requires e.size == 1 ==> e.kind == TooFew
    requires e.kind == Consensus ==> e.name == ConsensusName(d.nConsensus)
    ensures Tally(out + [e], d) && ConsensusNumbered(out + [e])
  {
    var o := out + [e];
    assert o[..|o| - 1] == out;
    forall k | 0 <= k < |o| && o[k].kind == Consensus
      ensures o[k].name == ConsensusName(CountKind(o[..k + 1], Consensus))
    {
      if k < |out| {
        assert o[..k + 1] == out[..k + 1];
      } else {
        assert o[..k + 1] == o;
      }
    }
  }

  lemma {:induction false} SumOverPrefix(xs: seq<string>, m: map<string, seq<Read>>, i: nat)
    requires i < |xs| && forall x :: x in xs ==> x in m
    ensures SumOver(xs[..i + 1], m) == SumOver(xs[..i], m) + |m[xs[i]]|
    decreases i
  {
    if i > 0 {
      assert xs[..i + 1][1..] == xs[1..][..i];
      assert xs[..i][1..] == xs[1..][..i - 1];
      SumOverPrefix(xs[1..], m, i - 1);
    }
  }

  lemma TotalSizeAppend(out: seq<Emitted>, e: Emitted)
    ensures TotalSize(out + [e]) == TotalSize(out) + e.size
  {
    assert (out + [e])[..|out|] == out;
  }

  /** Every barcode has its bucket. */
  ghost predicate Filed(g: Ingested) {
    forall b :: b in g.barcodes ==> b in g.buckets
  }

  /** What the outer loop keeps after `i` buckets: the counters agree with
      the records, every counted cluster printed one record, the sizes add up
      to the reads of those buckets, records come bucket by bucket in sorted
      barcode order and all had distinct read names. */
  ghost predicate Outer(g: Ingested, byCdr3: bool, out: seq<Emitted>, c: Counters, pos: seq<nat>, i: nat) {
    && Filed(g) && i <= |g.barcodes|
    && Tally(out, c) && ConsensusNumbered(out) && |out| == c.nClusters
    && TotalSize(out) == SumOver(g.barcodes[..i], g.buckets)
    && Placed(g, out, pos, i)
    && (!byCdr3 ==> |out| == i && forall k :: 0 <= k < |out| ==> pos[k] == k)
    && (forall k :: 0 <= k < |out| ==> NoSpace(out[k].name))
    && (forall j :: 0 <= j < i ==> DistinctNames(g.buckets[g.barcodes[j]]))
  }

  /** Record `k` comes from bucket `pos[k] < i`, and buckets are visited in
      order. */
  ghost predicate Placed(g: Ingested, out: seq<Emitted>, pos: seq<nat>, i: nat) {
    && |pos| == |out| && i <= |g.barcodes|
    && (forall k :: 0 <= k < |out| ==> pos[k] < i && out[k].barcode == g.barcodes[pos[k]])
    && (forall k, k' :: 0 <= k < k' < |out| ==> pos[k] <= pos[k'])
  }

  /** What the inner loop keeps after `j` of the clusters of bucket `i`. */
  ghost predicate Inner(g: Ingested, byCdr3: bool, clusters: seq<seq<nat>>, out0: seq<Emitted>, out: seq<Emitted>, c: Counters, pos: seq<nat>, i: nat, j: nat) {
    && Filed(g) && i < |g.barcodes| && j <= |clusters|
    && Tally(out, c) && ConsensusNumbered(out) && |out| + |clusters| - j == c.nClusters
    && TotalSize(out) == SumOver(g.barcodes[..i], g.buckets) + SumSizes(clusters[..j])
    && |out| == |out0| + j && out[..|out0|] == out0
    && Placed(g, out, pos, i + 1)
    && (forall k :: |out0| <= k < |out| ==> pos[k] == i)
    && (forall k :: 0 <= k < |out| ==> NoSpace(out[k].name))
    && (!byCdr3 ==> |clusters| == 1 && |out0| == i && forall k :: 0 <= k < |out0| ==> pos[k] == k)
    && (forall j' :: 0 <= j' <= i ==> DistinctNames(g.buckets[g.barcodes[j']]))
  }

  /** The clusters of one bucket: `cluster_sequences` when grouping by CDR3,
      otherwise the whole bucket as one cluster. */
  method ClustersOf(bucket: seq<Read>, byCdr3: bool) returns (clusters: seq<seq<nat>>)
    requires |bucket| > 0
    ensures forall c :: 0 <= c < |clusters| ==> |clusters[c]| > 0
    ensures forall c, k :: 0 <= c < |clusters| && 0 <= k < |clusters[c]| ==> clusters[c][k] < |bucket|
    ensures SumSizes(clusters) == |bucket|
    ensures !byCdr3 ==> clusters == [Range(|bucket|)]
    ensures byCdr3 ==> IsPartition(clusters, |bucket|)
    ensures forall c :: 0 <= c < |clusters| ==> IsClusterOf(bucket, clusters[c], byCdr3)
  {
    if byCdr3 {
      clusters := ClusterSequences(bucket);
      assert forall c, k :: 0 <= c < |clusters| && 0 <= k < |clusters[c]| ==> clusters[c][k] in clusters[c];
    } else {
      clusters := [Range(|bucket|)];
      assert clusters[..0] == [];
    }
  }

  /** What holds of every run, however it ended: each printed record was
      counted once in the counter of its kind, singletons are among the too
      small clusters, names are single tokens, records come in sorted barcode
      order from existing buckets, and the `k`-th consensus record is named
      `consensus{k}`. */
  ghost predicate Sound(g: Ingested, run: GroupRun) {
    var (out, c) := (run.records, run.counters);
    && c.tooFew + c.nConsensus + c.nAmbiguous == |out|
    && c.nSingletons <= c.tooFew
    && Tally(out, c)
    && (forall k :: 0 <= k < |out| ==> NoSpace(out[k].name))
    && (forall k :: 0 <= k < |out| ==> out[k].barcode in g.buckets)
    && (forall k, k' :: 0 <= k < k' < |out| ==>
          out[k].barcode == out[k'].barcode || Less(out[k].barcode, out[k'].barcode))
    && ConsensusNumbered(out)
  }

  lemma SoundFrom(g: Ingested, run: GroupRun, pos: seq<nat>, i: nat)
    requires Valid(g) && Tally(run.records, run.counters) && ConsensusNumbered(run.records)
    requires Placed(g, run.records, pos, i)
    requires forall k :: 0 <= k < |run.records| ==> NoSpace(run.records[k].name)
    ensures Sound(g, run)
  {
    TallyBalanced(run.records, run.counters);
    PlacedSorted(g, run.records, pos, i);
  }

  /** The loop of lines 249-296 over the buckets in sorted barcode order.
      A completed run printed one record per counted cluster, with sizes
      adding up to the reads filed, after checking every bucket for
      duplicate names; without CDR3 grouping that is one record per barcode.
      A stopped run names the bucket it stopped in: one with two reads of
      the same name, or one with a read whose name has no token; every
      bucket of a smaller barcode had distinct names. With distinct names
      in every bucket and a token in every name the run completes.
      `groupsOut` is whether a groups table is written. */
  method GroupBuckets(g: Ingested, byCdr3: bool, consensus: Consensus, groupsOut: bool) returns (run: GroupRun)
    requires Valid(g)
    ensures Sound(g, run)
    ensures run.status.Completed? ==>
      && run.counters.nClusters == |run.records|
      && TotalSize(run.records) == g.n
      && (forall b :: b in g.buckets ==> DistinctNames(g.buckets[b]))
    ensures run.status.Completed? && !byCdr3 ==>
      |run.records| == |g.barcodes| && forall k :: 0 <= k < |run.records| ==> run.records[k].barcode == g.barcodes[k]
    ensures run.status.DuplicateNames? ==>
      run.status.barcode in g.buckets && !DistinctNames(g.buckets[run.status.barcode])
    ensures run.status.NameWithoutToken? ==>
      run.status.barcode in g.buckets && DistinctNames(g.buckets[run.status.barcode])
      && Tokenless(g.buckets[run.status.barcode])
    ensures !run.status.Completed? ==>
      forall b :: b in g.buckets && Less(b, run.status.barcode) ==> DistinctNames(g.buckets[b])
    ensures (forall b :: b in g.buckets ==> DistinctNames(g.buckets[b]) && !Tokenless(g.buckets[b])) ==>
      run.status.Completed?
    ensures FromClusters(g, run.records, consensus, byCdr3)
  {
    var out: seq<Emitted> := [];
    var c := NoCounts;
    ghost var pos: seq<nat> := [];
    for i := 0 to |g.barcodes|
      invariant Outer(g, byCdr3, out, c, pos, i)
      invariant FromClusters(g, out, consensus, byCdr3)
    {
      var b := g.barcodes[i];
      var bucket := g.buckets[b];
      if !DistinctNames(bucket) {
        run := GroupRun(out, c, DuplicateNames(b));
        SoundFrom(g, run, pos, i);
        StopExplained(g, i, run.status);
        return;
      }
      var clusters := ClustersOf(bucket, byCdr3);
      InnerStart(g, byCdr3, clusters, out, c, pos, i);
      var done;
      ghost var out0 := out;
      out, c, pos, done := EmitBucket(g, byCdr3, consensus, groupsOut, clusters, out, c.(nClusters := c.nClusters + |clusters|), pos, i);
      if !done {
        run := GroupRun(out, c, NameWithoutToken(b));
        SoundFrom(g, run, pos, i + 1);
        StopsTokenless(bucket, clusters, consensus, groupsOut);
        StopExplained(g, i, run.status);
        return;
      }
      InnerEnd(g, byCdr3, clusters, out0, out, c, pos, i);
    }
    run := GroupRun(out, c, Completed);
    SoundFrom(g, run, pos, |g.barcodes|);
    Conclude(g, byCdr3, out, c, pos);
  }

  /** The inner loop over the clusters of bucket `i`, from its first
      cluster; `done` is false when a name without a token stopped it,
      which is exactly when one of its clusters stops the run. */
  method EmitBucket(g: Ingested, byCdr3: bool, consensus: Consensus, groupsOut: bool, clusters: seq<seq<nat>>,
                    out0: seq<Emitted>, c0: Counters, ghost pos0: seq<nat>, i: nat)
    returns (out: seq<Emitted>, c: Counters, ghost pos: seq<nat>, done: bool)
    requires Inner(g, byCdr3, clusters, out0, out0, c0, pos0, i, 0)
    requires forall j, k :: 0 <= j < |clusters| && 0 <= k < |clusters[j]| ==> clusters[j][k] < |g.buckets[g.barcodes[i]]|
    requires forall j :: 0 <= j < |clusters| ==> |clusters[j]| > 0
    requires forall j :: 0 <= j < |clusters| ==> IsClusterOf(g.buckets[g.barcodes[i]], clusters[j], byCdr3)
    requires FromClusters(g, out0, consensus, byCdr3)
    ensures FromClusters(g, out, consensus, byCdr3)
    ensures done ==> RepresentsEach(g.buckets[g.barcodes[i]], clusters, out0, out, consensus, byCdr3, |clusters|)
    ensures done ==> Inner(g, byCdr3, clusters, out0, out, c, pos, i, |clusters|)
    ensures done ==> |out| == |out0| + |clusters| && c.nClusters == |out|
    ensures !done ==> Tally(out, c) && ConsensusNumbered(out) && Placed(g, out, pos, i + 1)
    ensures !done ==> forall k :: 0 <= k < |out| ==> NoSpace(out[k].name)
    ensures done <==> Clear(g.buckets[g.barcodes[i]], clusters, consensus, groupsOut, |clusters|)
  {
    var b := g.barcodes[i];
    var bucket := g.buckets[b];
    out, c, pos := out0, c0, pos0;
    for j := 0 to |clusters|
      invariant Inner(g, byCdr3, clusters, out0, out, c, pos, i, j)
      invariant Clear(bucket, clusters, consensus, groupsOut, j)
      invariant FromClusters(g, out, consensus, byCdr3)
      invariant RepresentsEach(bucket, clusters, out0, out, consensus, byCdr3, j)
    {
      var r := EmitCluster(Members(bucket, clusters[j]), b, consensus, byCdr3, groupsOut, c);
      if r.None? {
        return out, c, pos, false;
      }
      ClearStep(bucket, clusters, consensus, groupsOut, j);
      var (e, d) := r.value;
      InnerStep(g, byCdr3, clusters, out0, out, c, pos, i, j, e, d);
      EmittedFromCluster(g, i, clusters, j, e, consensus, byCdr3);
      FromClustersAppend(g, out, e, consensus, byCdr3);
      RepresentsAppend(bucket, clusters, out0, out, e, consensus, byCdr3, j);
      out := out + [e];
      pos := pos + [i];
      c := d;
    }
    done := true;
  }

  /** `cl` is a cluster of `bucket` as lines 256-258 make them: with CDR3
      grouping a connected component of the similarity graph, each read
      once and led by its smallest read; otherwise the whole bucket in
      order. */
  ghost predicate IsClusterOf(bucket: seq<Read>, cl: seq<nat>, byCdr3: bool) {
    && |cl| > 0 && (forall k :: 0 <= k < |cl| ==> cl[k] < |bucket|)
    && (byCdr3 ==>
          && NoDup(cl) && ClosedUnderLinks(bucket, cl) && ReachableSet(SimilarityGraph(bucket), cl)
          && forall x :: x in cl ==> cl[0] <= x)
    && (!byCdr3 ==> cl == Range(|bucket|))
  }

  /** `e` is the record lines 264-296 print for `cluster`: the kind follows
      the cluster's size and whether its consensus has an `N`; a consensus
      record carries the consensus and the most common CDR3, any other the
      first read's normalised name, sequence and CDR3. The number in a
      consensus name depends on the records before, see `ConsensusNumbered`. */
  predicate Represents(e: Emitted, cluster: seq<Read>, consensus: Consensus, byCdr3: bool) {
    && |cluster| > 0 && e.size == |cluster|
    && (e.kind == TooFew <==> |cluster| < MinConsensusSequences)
    && (e.kind == Ambiguous <==>
          |cluster| >= MinConsensusSequences && 'N' in consensus(NamedSequences(cluster)))
    && (e.kind == Consensus ==>
          && e.sequence == consensus(NamedSequences(cluster))
          && e.cdr3 == (if byCdr3 then Some(MostCommon(Keys(cluster))) else None))
    && (e.kind != Consensus ==>
          && Some(e.name) == NormalizeName(cluster[0].name)
          && e.sequence == cluster[0].sequence
          && e.cdr3 == (if byCdr3 then Some(cluster[0].cdr3) else None))
  }

  /** `e` was printed for some cluster of the bucket of its barcode. */
  ghost predicate FromCluster(g: Ingested, e: Emitted, consensus: Consensus, byCdr3: bool) {
    && e.barcode in g.buckets
    && exists cl :: IsClusterOf(g.buckets[e.barcode], cl, byCdr3)
         && Represents(e, Members(g.buckets[e.barcode], cl), consensus, byCdr3)
  }

  /** Every record printed represents a cluster of its bucket. */
  ghost predicate FromClusters(g: Ingested, out: seq<Emitted>, consensus: Consensus, byCdr3: bool) {
    forall k :: 0 <= k < |out| ==> FromCluster(g, out[k], consensus, byCdr3)
  }

  lemma FromClustersAppend(g: Ingested, out: seq<Emitted>, e: Emitted, consensus: Consensus, byCdr3: bool)
    requires FromClusters(g, out, consensus, byCdr3) && FromCluster(g, e, consensus, byCdr3)
    ensures FromClusters(g, out + [e], consensus, byCdr3)
  {
    var o := out + [e];
    forall k | 0 <= k < |o|
      ensures FromCluster(g, o[k], consensus, byCdr3)
    {
      if k < |out| {
        assert o[k] == out[k];
      }
    }
  }

  /** The records from `|out0|` on are those of the first `n` clusters of
      the bucket, one each and in cluster order. */
  ghost predicate RepresentsEach(bucket: seq<Read>, clusters: seq<seq<nat>>, out0: seq<Emitted>, out: seq<Emitted>,
                                 consensus: Consensus, byCdr3: bool, n: nat)
    requires forall j, k :: 0 <= j < |clusters| && 0 <= k < |clusters[j]| ==> clusters[j][k] < |bucket|
  {
    && n <= |clusters| && |out| == |out0| + n
    && forall j :: 0 <= j < n ==> Represents(out[|out0| + j], Members(bucket, clusters[j]), consensus, byCdr3)
  }

  lemma RepresentsAppend(bucket: seq<Read>, clusters: seq<seq<nat>>, out0: seq<Emitted>, out: seq<Emitted>, e: Emitted,
                         consensus: Consensus, byCdr3: bool, j: nat)
    requires j < |clusters|
    requires forall j', k :: 0 <= j' < |clusters| && 0 <= k < |clusters[j']| ==> clusters[j'][k] < |bucket|
    requires RepresentsEach(bucket, clusters, out0, out, consensus, byCdr3, j)
    requires Represents(e, Members(bucket, clusters[j]), consensus, byCdr3)
    ensures RepresentsEach(bucket, clusters, out0, out + [e], consensus, byCdr3, j + 1)
  {
    var o := out + [e];
    forall j' | 0 <= j' < j + 1
      ensures Represents(o[|out0| + j'], Members(bucket, clusters[j']), consensus, byCdr3)
    {
      if j' < j {
        assert o[|out0| + j'] == out[|out0| + j'];
      }
    }
  }

  /** The record printed for cluster `j` of bucket `i` represents it. */
  lemma EmittedFromCluster(g: Ingested, i: nat, clusters: seq<seq<nat>>, j: nat, e: Emitted, consensus: Consensus, byCdr3: bool)
    requires Filed(g) && i < |g.barcodes| && j < |clusters|
    requires IsClusterOf(g.buckets[g.barcodes[i]], clusters[j], byCdr3)
    requires e.barcode == g.barcodes[i]
    requires Represents(e, Members(g.buckets[g.barcodes[i]], clusters[j]), consensus, byCdr3)
    ensures FromCluster(g, e, consensus, byCdr3)
  {
  }

  /** Some read has a name without any token. */
  predicate Tokenless(rs: seq<Read>) {
    exists r :: r in rs && AllSpace(r.name)
  }

  /** When one cluster ends the run with an `IndexError`: writing its rows
      to the groups table takes the first token of every read's name
      (line 171), and a representative that is not a consensus has the
      first token of its name taken (line 288). */
  predicate Stops(cluster: seq<Read>, consensus: Consensus, groupsOut: bool) {
    || (groupsOut && Tokenless(cluster))
    || (&& |cluster| > 0 && AllSpace(cluster[0].name)
        && !(|cluster| >= MinConsensusSequences && 'N' !in consensus(NamedSequences(cluster))))
  }

  /** Lines 259-296 for one cluster of bucket `barcode`: the groups table
      rows are written when asked for, then the representative is chosen
      and its name normalised. `None` is an `IndexError`. The record's kind
      moves exactly its counter, and a consensus record carries the new
      consensus number in its name. */
  function EmitCluster(cluster: seq<Read>, barcode: string, consensus: Consensus, byCdr3: bool, groupsOut: bool, c: Counters)
    : (r: Option<(Emitted, Counters)>)
    requires |cluster| > 0
    ensures r.None? <==> Stops(cluster, consensus, groupsOut)
    ensures r.Some? ==> var (e, d) := r.value;
      && e.barcode == barcode && e.size == |cluster| && NoSpace(e.name)
      && d.nClusters == c.nClusters
      && d.tooFew == c.tooFew + (if e.kind == TooFew then 1 else 0)
      && d.nAmbiguous == c.nAmbiguous + (if e.kind == Ambiguous then 1 else 0)
      && d.nConsensus == c.nConsensus + (if e.kind == Consensus then 1 else 0)
      && d.nSingletons == c.nSingletons + (if e.size == 1 then 1 else 0)
      && (e.size == 1 ==> e.kind == TooFew)
      && (e.kind == Consensus ==> e.name == ConsensusName(d.nConsensus))
      && (e.kind != Consensus ==> Some(e.name) == NormalizeName(cluster[0].name) && e.sequence == cluster[0].sequence)
    ensures r.Some? ==> Represents(r.value.0, cluster, consensus, byCdr3)
  {
    if groupsOut && Tokenless(cluster) then None
    else
      var (choice, d) := SelectRepresentative(cluster, consensus, byCdr3, c);
      ConsensusNameNormal(d.nConsensus);
      var name :- NormalizeName(choice.name);
      Some((Emitted(choice.kind, name, barcode, choice.cdr3, |cluster|, choice.sequence), d))
  }

  /** A bucket with a stopping cluster has a read whose name has no token. */
  lemma StopsTokenless(bucket: seq<Read>, clusters: seq<seq<nat>>, consensus: Consensus, groupsOut: bool)
    requires forall j, k :: 0 <= j < |clusters| && 0 <= k < |clusters[j]| ==> clusters[j][k] < |bucket|
    requires !Clear(bucket, clusters, consensus, groupsOut, |clusters|)
    ensures Tokenless(bucket)
  {
    var j :| 0 <= j < |clusters| && Stops(Members(bucket, clusters[j]), consensus, groupsOut);
    var cluster := clusters[j];
    var m := Members(bucket, cluster);
    var r :| r in m && AllSpace(r.name);
    var k :| 0 <= k < |m| && m[k] == r;
    assert bucket[cluster[k]] in bucket;
  }

  /** None of the first `n` clusters of a bucket stops the run. */
  ghost predicate Clear(bucket: seq<Read>, clusters: seq<seq<nat>>, consensus: Consensus, groupsOut: bool, n: nat)
    requires n <= |clusters|
    requires forall j, k :: 0 <= j < |clusters| && 0 <= k < |clusters[j]| ==> clusters[j][k] < |bucket|
  {
    forall j :: 0 <= j < n ==> !Stops(Members(bucket, clusters[j]), consensus, groupsOut)
  }

  lemma ClearStep(bucket: seq<Read>, clusters: seq<seq<nat>>, consensus: Consensus, groupsOut: bool, n: nat)
    requires n < |clusters|
    requires forall j, k :: 0 <= j < |clusters| && 0 <= k < |clusters[j]| ==> clusters[j][k] < |bucket|
    requires Clear(bucket, clusters, consensus, groupsOut, n)
    requires !Stops(Members(bucket, clusters[n]), consensus, groupsOut)
    ensures Clear(bucket, clusters, consensus, groupsOut, n + 1)
  {
  }

  /** A run stopped in bucket `i`: buckets are visited in sorted order, so
      every barcode below the one of bucket `i` was visited before it, and
      the stopping bucket breaks one of the conditions for completion. */
  lemma StopExplained(g: Ingested, i: nat, st: Status)
    requires Valid(g) && i < |g.barcodes|
    requires forall j :: 0 <= j < i ==> DistinctNames(g.buckets[g.barcodes[j]])
    requires !st.Completed? && st.barcode == g.barcodes[i]
    requires st.DuplicateNames? ==> !DistinctNames(g.buckets[st.barcode])
    requires st.NameWithoutToken? ==> Tokenless(g.buckets[st.barcode])
    ensures st.barcode in g.buckets
    ensures forall b :: b in g.buckets && Less(b, st.barcode) ==> DistinctNames(g.buckets[b])
    ensures !forall b :: b in g.buckets ==> DistinctNames(g.buckets[b]) && !Tokenless(g.buckets[b])
  {
    forall b | b in g.buckets && Less(b, g.barcodes[i])
      ensures DistinctNames(g.buckets[b])
    {
      var m :| 0 <= m < |g.barcodes| && g.barcodes[m] == b;
      if m == i {
        LessIrreflexive(b);
      } else if m > i {
        LessAsymmetric(b, g.barcodes[i]);
      }
    }
  }

  lemma InnerStart(g: Ingested, byCdr3: bool, clusters: seq<seq<nat>>, out: seq<Emitted>, c: Counters, pos: seq<nat>, i: nat)
    requires Outer(g, byCdr3, out, c, pos, i) && i < |g.barcodes|
    requires DistinctNames(g.buckets[g.barcodes[i]])
    requires SumSizes(clusters) == |g.buckets[g.barcodes[i]]|
    requires !byCdr3 ==> |clusters| == 1
    ensures Inner(g, byCdr3, clusters, out, out, c.(nClusters := c.nClusters + |clusters|), pos, i, 0)
  {
    assert clusters[..0] == [];
    assert out[..|out|] == out;
    PlacedNext(g, out, pos, i);
    TallyClusters(out, c, c.nClusters + |clusters|);
    forall j' | 0 <= j' <= i
      ensures DistinctNames(g.buckets[g.barcodes[j']])
    {
    }
  }

  /** The counters of clusters still to come do not enter the tally. */
  lemma TallyClusters(out: seq<Emitted>, c: Counters, n: nat)
    requires Tally(out, c)
    ensures Tally(out, c.(nClusters := n))
  {
  }

  lemma InnerStep(g: Ingested, byCdr3: bool, clusters: seq<seq<nat>>, out0: seq<Emitted>, out: seq<Emitted>,
                  c: Counters, pos: seq<nat>, i: nat, j: nat, e: Emitted, d: Counters)
    requires Inner(g, byCdr3, clusters, out0, out, c, pos, i, j) && j < |clusters|
    requires d.nClusters == c.nClusters
    requires d.tooFew == c.tooFew + (if e.kind == TooFew then 1 else 0)
    requires d.nAmbiguous == c.nAmbiguous + (if e.kind == Ambiguous then 1 else 0)
    requires d.nConsensus == c.nConsensus + (if e.kind == Consensus then 1 else 0)
    requires d.nSingletons == c.nSingletons + (if e.size == 1 then 1 else 0)
    requires e.size == |clusters[j]| && (e.size == 1 ==> e.kind == TooFew)
    requires e.kind == Consensus ==> e.name == ConsensusName(d.nConsensus)
    requires e.barcode == g.barcodes[i] && NoSpace(e.name)
    ensures Inner(g, byCdr3, clusters, out0, out + [e], d, pos + [i], i, j + 1)
  {
    EmitStep(out, c, e, d);
    StepSizes(g, clusters, out, e, i, j);
    StepPlaced(g, out0, out, pos, e, i);
    StepNames(out, e);
    var o := out + [e];
    assert o[..|out0|] == out[..|out0|];
  }

  lemma StepSizes(g: Ingested, clusters: seq<seq<nat>>, out: seq<Emitted>, e: Emitted, i: nat, j: nat)
    requires Filed(g) && i < |g.barcodes| && j < |clusters| && e.size == |clusters[j]|
    requires TotalSize(out) == SumOver(g.barcodes[..i], g.buckets) + SumSizes(clusters[..j])
    ensures TotalSize(out + [e]) == SumOver(g.barcodes[..i], g.buckets) + SumSizes(clusters[..j + 1])
  {
    TotalSizeAppend(out, e);
    SumSizesAppend(clusters[..j], clusters[j]);
    assert clusters[..j + 1] == clusters[..j] + [clusters[j]];
  }

  lemma StepPlaced(g: Ingested, out0: seq<Emitted>, out: seq<Emitted>, pos: seq<nat>, e: Emitted, i: nat)
    requires Placed(g, out, pos, i + 1) && i < |g.barcodes| && |out0| <= |out|
    requires e.barcode == g.barcodes[i]
    requires forall k :: |out0| <= k < |out| ==> pos[k] == i
    ensures Placed(g, out + [e], pos + [i], i + 1)
    ensures forall k :: |out0| <= k < |out| + 1 ==> (pos + [i])[k] == i
    ensures forall k :: 0 <= k < |out| ==> (pos + [i])[k] == pos[k]
  {
    PlacedAppend(g, out, pos, e, i);
  }

  lemma StepNames(out: seq<Emitted>, e: Emitted)
    requires forall k :: 0 <= k < |out| ==> NoSpace(out[k].name)
    requires NoSpace(e.name)
    ensures forall k :: 0 <= k < |out + [e]| ==> NoSpace((out + [e])[k].name)
  {
    var o := out + [e];
    forall k | 0 <= k < |o|
      ensures NoSpace(o[k].name)
    {
      if k < |out| {
        assert o[k] == out[k];
      }
    }
  }

  lemma InnerEnd(g: Ingested, byCdr3: bool, clusters: seq<seq<nat>>, out0: seq<Emitted>, out: seq<Emitted>,
                 c: Counters, pos: seq<nat>, i: nat)
    requires Inner(g, byCdr3, clusters, out0, out, c, pos, i, |clusters|)
    requires SumSizes(clusters) == |g.buckets[g.barcodes[i]]|
    ensures Outer(g, byCdr3, out, c, pos, i + 1)
  {
    assert clusters[..|clusters|] == clusters;
    SumOverPrefix(g.barcodes, g.buckets, i);
    if !byCdr3 {
      forall k | 0 <= k < |out|
        ensures pos[k] == k
      {
        if k < |out0| {
          assert pos[k] == k;
        }
      }
    }
  }

  lemma Conclude(g: Ingested, byCdr3: bool, out: seq<Emitted>, c: Counters, pos: seq<nat>)
    requires Valid(g) && Outer(g, byCdr3, out, c, pos, |g.barcodes|)
    ensures c.nClusters == |out| && TotalSize(out) == g.n
    ensures forall b :: b in g.buckets ==> DistinctNames(g.buckets[b])
    ensures !byCdr3 ==> |out| == |g.barcodes| && forall k :: 0 <= k < |out| ==> out[k].barcode == g.barcodes[k]
  {
    assert g.barcodes[..|g.barcodes|] == g.barcodes;
    forall b | b in g.buckets
      ensures DistinctNames(g.buckets[b])
    {
      var j :| 0 <= j < |g.barcodes| && g.barcodes[j] == b;
    }
  }

  lemma PlacedNext(g: Ingested, out: seq<Emitted>, pos: seq<nat>, i: nat)
    requires Placed(g, out, pos, i) && i < |g.barcodes|
    ensures Placed(g, out, pos, i + 1)
  {
  }

  lemma PlacedAppend(g: Ingested, out: seq<Emitted>, pos: seq<nat>, e: Emitted, i: nat)
    requires Placed(g, out, pos, i + 1) && i < |g.barcodes|
    requires forall k :: 0 <= k < |out| ==> pos[k] <= i
    requires e.barcode == g.barcodes[i]
    ensures Placed(g, out + [e], pos + [i], i + 1)
  {
  }

  /** Records placed bucket by bucket come in barcode order. */
  lemma PlacedSorted(g: Ingested, out: seq<Emitted>, pos: seq<nat>, i: nat)
    requires Valid(g) && Placed(g, out, pos, i)
    ensures forall k :: 0 <= k < |out| ==> out[k].barcode in g.buckets
    ensures forall k, k' :: 0 <= k < k' < |out| ==> out[k].barcode == out[k'].barcode || Less(out[k].barcode, out[k'].barcode)
  {
  }

  /** `main` from the reads to the printed records. */
  method GroupReads(recs: seq<FastxRecord>, opts: Options, consensus: Consensus) returns (r: Result<GroupRun, IngestError>)
    ensures r.Failure? <==> opts.barcodeLength == 0 || (opts.limit.Some? && opts.limit.value < 0)
    ensures r.Success? && r.value.status.Completed? ==>
      && TotalSize(r.value.records) == BucketReads(recs, opts).value.n
      && Balanced(r.value.counters)
    ensures r.Success? && r.value.status.NameWithoutToken? ==>
      var buckets := BucketReads(recs, opts).value.buckets;
      r.value.status.barcode in buckets && Tokenless(buckets[r.value.status.barcode])
    ensures r.Success? ==>
      var buckets := BucketReads(recs, opts).value.buckets;
      (forall b :: b in buckets ==> DistinctNames(buckets[b]) && !Tokenless(buckets[b])) ==>
      r.value.status.Completed?
    ensures r.Success? ==> FromClusters(BucketReads(recs, opts).value, r.value.records, consensus, GroupByCdr3(opts))
  {
    var g := BucketReads(recs, opts);
    if g.Failure? {
      return Failure(g.error);
    }
    var run := GroupBuckets(g.value, GroupByCdr3(opts), consensus, opts.groupsOutput);
    return Success(run);
  }
}

=== FILE: hamming.dfy ===
/** The one-substitution neighbourhood of a CDR3 key (`hamming_neighbors`). */
module Hamming {

  const Bases: string := "ACGT"

  /** `t` is `s` with exactly position `i` changed, to a different base. */
  ghost predicate SubstitutedAt(s: string, t: string, i: int) {
    && 0 <= i < |s| == |t|
    && t[i] != s[i] && t[i] in Bases
    && forall j :: 0 <= j < |s| && j != i ==> t[j] == s[j]
  }

  /** `t` differs from `s` at exactly one position, where `t` holds a base. */
  ghost predicate OneSubstitution(s: string, t: string) {
    exists i :: SubstitutedAt(s, t, i)
  }

  predicate Distinct(xs: seq<string>) {
    forall a, b :: 0 <= a < b < |xs| ==> xs[a] != xs[b]
  }

  /** For each base `c` of `cs` in order, `s` with position `i` set to `c`,
      skipping the base already there. */
  function VariantsAt(s: string, i: nat, cs: string): (r: seq<string>)
    requires i < |s|
    ensures forall k :: 0 <= k < |r| ==> |r[k]| == |s|
  {
    if |cs| == 0 then []
    else (if s[i] != cs[0] then [s[i := cs[0]]] else []) + VariantsAt(s, i, cs[1..])
  }

  /** The variants at positions `i`, `i + 1`, ... of `s`. */
  function VariantsFrom(s: string, i: nat): (r: seq<string>)
    requires i <= |s|
    ensures forall k :: 0 <= k < |r| ==> |r[k]| == |s|
    decreases |s| - i
  {
    if i == |s| then [] else VariantsAt(s, i, Bases) + VariantsFrom(s, i + 1)
  }

  /** `hamming_neighbors(s)`: the one-position substitutions of `s`, position
      by position and base by base in ACGT order, then `s` itself. */
  function HammingNeighbors(s: string): (r: seq<string>)
    ensures |r| > 0 && r[|r| - 1] == s
    ensures forall k :: 0 <= k < |r| ==> |r[k]| == |s|
  {
    VariantsFrom(s, 0) + [s]
  }

  lemma {:induction false} VariantsAtMembers(s: string, i: nat, cs: string, t: string)
    requires i < |s|
    ensures t in VariantsAt(s, i, cs) <==>
      |t| == |s| && t[i] in cs && t[i] != s[i] && t == s[i := t[i]]
    decreases |cs|
  {
    if |cs| > 0 {
      VariantsAtMembers(s, i, cs[1..], t);
      assert cs == [cs[0]] + cs[1..];
      if t == s[i := cs[0]] && s[i] != cs[0] {
        assert t in VariantsAt(s, i, cs);
      }
    }
  }

  lemma {:induction false} VariantsFromMembers(s: string, i: nat, t: string)
    requires i <= |s|
    ensures t in VariantsFrom(s, i) <==> exists j :: i <= j && SubstitutedAt(s, t, j)
    decreases |s| - i
  {
    if i < |s| {
      VariantsFromMembers(s, i + 1, t);
      VariantsAtMembers(s, i, Bases, t);
      if t in VariantsAt(s, i, Bases) {
        assert SubstitutedAt(s, t, i);
      }
      if SubstitutedAt(s, t, i) {
        assert t == s[i := t[i]];
      }
      if exists j :: i <= j && SubstitutedAt(s, t, j) {
        var j :| i <= j && SubstitutedAt(s, t, j);
        if j == i {
          assert t == s[i := t[i]];
          assert t in VariantsAt(s, i, Bases);
        }
      }
    }
  }

  /** Membership: the neighbourhood holds `s` and exactly its one-position
      substitutions by a base. */
  lemma NeighborsMembers(s: string, t: string)
    ensures t in HammingNeighbors(s) <==> t == s || OneSubstitution(s, t)
  {
    VariantsFromMembers(s, 0, t);
  }

  /** A string is a substitution of `s` at one position only. */
  lemma SubstitutedAtUnique(s: string, t: string, i: int, j: int)
    requires SubstitutedAt(s, t, i) && SubstitutedAt(s, t, j)
    ensures i == j
  {
  }

  lemma {:induction false} VariantsAtCount(s: string, i: nat)
    requires i < |s| && s[i] in Bases
    ensures |VariantsAt(s, i, Bases)| == 3
    ensures Distinct(VariantsAt(s, i, Bases))
  {
    assert Bases[1..] == "CGT" && "CGT"[1..] == "GT" && "GT"[1..] == "T" && "T"[1..] == "";
    var c := s[i];
    assert |VariantsAt(s, i, "T")| == (if c == 'T' then 0 else 1);
    assert |VariantsAt(s, i, "GT")| == (if c == 'G' || c == 'T' then 1 else 2);
    assert |VariantsAt(s, i, "CGT")| == (if c == 'A' then 3 else 2);
    VariantsAtDistinct(s, i, Bases);
  }

  lemma {:induction false} VariantsAtDistinct(s: string, i: nat, cs: string)
    requires i < |s|
    requires forall a, b :: 0 <= a < b < |cs| ==> cs[a] != cs[b]
    ensures Distinct(VariantsAt(s, i, cs))
    decreases |cs|
  {
    if |cs| > 0 {
      VariantsAtDistinct(s, i, cs[1..]);
      var w := VariantsAt(s, i, cs[1..]);
      if s[i] != cs[0] {
        var h := s[i := cs[0]];
        forall k | 0 <= k < |w|
          ensures h != w[k]
        {
          assert w[k] in w;
          VariantsAtMembers(s, i, cs[1..], w[k]);
        }
      }
    }
  }

  lemma {:induction false} VariantsFromCount(s: string, i: nat)
    requires i <= |s|
    requires forall k :: 0 <= k < |s| ==> s[k] in Bases
    ensures |VariantsFrom(s, i)| == 3 * (|s| - i)
    ensures Distinct(VariantsFrom(s, i))
    decreases |s| - i
  {
    if i < |s| {
      VariantsFromCount(s, i + 1);
      VariantsAtCount(s, i);
      var v := VariantsAt(s, i, Bases);
      var w := VariantsFrom(s, i + 1);
      var r := v + w;
      forall a, b | 0 <= a < |v| <= b < |r|
        ensures r[a] != r[b]
      {
        assert r[a] in v && r[b] in w;
        VariantsAtMembers(s, i, Bases, r[a]);
        VariantsFromMembers(s, i + 1, r[b]);
        var j :| i + 1 <= j && SubstitutedAt(s, r[b], j);
        assert r[a] == s[i := r[a][i]];
        assert r[a][j] != r[b][j];
      }
    }
  }

  /** Over the alphabet ACGT the neighbourhood has exactly 3·|s| + 1 members,
      all different: each position contributes its three other bases. */
  lemma NeighborsCount(s: string)
    requires forall k :: 0 <= k < |s| ==> s[k] in Bases
    ensures |HammingNeighbors(s)| == 3 * |s| + 1
    ensures Distinct(HammingNeighbors(s))
  {
    VariantsFromCount(s, 0);
    var v := VariantsFrom(s, 0);
    forall a | 0 <= a < |v|
      ensures v[a] != s
    {
      assert v[a] in v;
      VariantsFromMembers(s, 0, v[a]);
    }
  }
}

=== FILE: igblast.dfy ===
/** `parse_igblast_record` and `parse_igblast` of blastiger.py: the reader of
    IgBLAST's tabular output (`-outfmt 7`), one record per query. */
module Igblast {
  import opened Wrappers
  import opened Text
  import opened Numerals
  import opened Sections

  datatype Gene = V | D | J

  /** One line of the hit table; both starts are 0-based. */
  datatype Hit = Hit(queryId: string, queryStart: int, querySequence: string, subjectStart: int, subjectSequence: string)

  /** What one record says about its query. Every field is optional because
      every section is; `hits` holds at most one hit per gene. */
  datatype IgblastRecord = IgblastRecord(
    queryName: Option<string>,
    cdr3Start: Option<int>,
    hits: map<Gene, Hit>,
    vGene: Option<string>,
    dGene: Option<string>,
    jGene: Option<string>,
    chain: Option<string>,
    hasStop: Option<bool>,
    inFrame: Option<bool>,
    isProductive: Option<bool>,
    strand: Option<string>)

  /** The defaults a record starts from before any section is read. */
  const Unset := IgblastRecord(None, None, map[], None, None, None, None, None, None, None, None)

  /** The exceptions the parser can raise, by what causes them. */
  datatype IgblastError =
    | NoHeader(line: string)           // ParseError (a NameError) from split_by_section
    | NoSummaryLine                    // IndexError: the rearrangement summary has no line
    | FieldCount(line: string)         // ValueError: a line has the wrong number of fields
    | NotAnInteger(field: string)      // ValueError from int()
    | NoCdr3Field(line: string)        // IndexError: the CDR3 line has no second field
    | UnknownValue(value: string)      // KeyError from BOOL or FRAME
    | ChainUnavailable                 // AssertionError: chain is N/A
    | UnknownGene(name: string)        // AssertionError: gene is not V, D or J
    | DuplicateHit(gene: Gene)         // AssertionError: two hits for the same gene
    | NoQueryName                      // AttributeError: hits but no query name
    | InconsistentHit                  // AssertionError in the consistency check
    | WrongVersion(header: string)     // AssertionError: unexpected IgBLAST version line

  const QueryStart := "# Query:"
  const SummaryStart := "# V-(D)-J rearrangement summary"
  const AlignmentStart := "# Alignment summary"
  const HitTableStart := "# Hit table"

  /** The section headers of a record. The source keeps them in a set; only
      membership matters, since a line is a header if it starts with any. */
  const Starts := [QueryStart, SummaryStart, AlignmentStart, HitTableStart]

  /** Only a query header with a space after the colon names the query. */
  const QueryPrefix := "# Query: "
  const Cdr3Label := "CDR3-IMGT (germline)"
  const Reversed := "reversed|"
  const NotAvailable := "N/A"

  /** The header line of every record, and the one version accepted. */
  const RecordStart := "# IGBLASTN"
  const Version := "# IGBLASTN 2.2.29+"

  /** The `BOOL` and `FRAME` tables. */
  const Bool: map<string, Option<bool>> := map["Yes" := Some(true), "No" := Some(false), "N/A" := None]
  const Frame: map<string, Option<bool>> := map["In-frame" := Some(true), "Out-of-frame" := Some(false), "N/A" := None]

  /** The word IgBLAST writes for a yes/no/unknown value. */
  function EncodeBool(b: Option<bool>): string {
    match b
    case Some(true) => "Yes"
    case Some(false) => "No"
    case None => NotAvailable
  }

  /** The word IgBLAST writes for the V-J frame. */
  function EncodeFrame(b: Option<bool>): string {
    match b
    case Some(true) => "In-frame"
    case Some(false) => "Out-of-frame"
    case None => NotAvailable
  }

  /** `BOOL[s]`: exactly the three words IgBLAST writes are accepted, and
      each decodes to the value it encodes. */
  function DecodeBool(s: string): (r: Result<Option<bool>, IgblastError>)
    ensures r.Success? <==> s == "Yes" || s == "No" || s == NotAvailable
    ensures r.Success? ==> EncodeBool(r.value) == s
    ensures r.Failure? ==> r.error == UnknownValue(s)
  {
    if s in Bool then Success(Bool[s]) else Failure(UnknownValue(s))
  }

  /** `FRAME[s]`, in the same way. */
  function DecodeFrame(s: string): (r: Result<Option<bool>, IgblastError>)
    ensures r.Success? <==> s == "In-frame" || s == "Out-of-frame" || s == NotAvailable
    ensures r.Success? ==> EncodeFrame(r.value) == s
    ensures r.Failure? ==> r.error == UnknownValue(s)
  {
    if s in Frame then Success(Frame[s]) else Failure(UnknownValue(s))
  }

  /** The converse direction: every value survives encoding. */
  lemma DecodeEncode(b: Option<bool>)
    ensures DecodeBool(EncodeBool(b)) == Success(b)
    ensures DecodeFrame(EncodeFrame(b)) == Success(b)
  {
  }

  /** `None if s == 'N/A' else s`. */
  function Available(s: string): (r: Option<string>)
    ensures r.None? <==> s == NotAvailable
    ensures r.Some? ==> r.value == s
  {
    if s == NotAvailable then None else Some(s)
  }

  /** `int(field)`. */
  function Int(field: string): (r: Result<int, IgblastError>)
    ensures r.Success? <==> ParseInt(field).Some?
    ensures r.Success? ==> ParseInt(field) == Some(r.value)
    ensures r.Failure? ==> r.error == NotAnInteger(field)
  {
    match ParseInt(field)
    case None => Failure(NotAnInteger(field))
    case Some(n) => Success(n)
  }

  /** The strands `strand in '+-'` lets through: the substrings of `+-`. */
  predicate StrandKept(s: string) {
    s == "" || s == "+" || s == "-" || s == "+-"
  }

  lemma StrandKeptIff(s: string)
    ensures Contains("+-", s) <==> StrandKept(s)
  {
    ContainsIff("+-", s);
    if StrandKept(s) {
      var k: nat := if s == "-" then 1 else 0;
      assert OccursAt("+-", s, k);
    }
    if Contains("+-", s) {
      var k: nat :| OccursAt("+-", s, k);
      assert s == "+-"[k..k + |s|];
      assert k + |s| <= 2;
      if |s| == 1 {
        assert s == ["+-"[k]];
      }
    }
  }

  /** What every parsed record satisfies whatever the input: the chain is
      never `N/A`, and the strand is one of those the filter keeps. */
  predicate Decoded(rec: IgblastRecord) {
    && rec.chain != Some(NotAvailable)
    && (rec.strand.Some? ==> StrandKept(rec.strand.value))
  }

  /** The rearrangement summary line: V, an optional D, J, chain, stop
      codon, frame, productive, strand, separated by tabs. Seven fields mean
      no D column. Only the summary fields of `rec` change. */
  function ParseSummaryLine(line: string, rec: IgblastRecord): (r: Result<IgblastRecord, IgblastError>)
    ensures var f := Split(line, "\t");
      |f| != 7 && |f| != 8 ==> r == Failure(FieldCount(line))
    ensures var f := Split(line, "\t");
      (|f| == 7 || |f| == 8) && f[|f| - 5] == NotAvailable ==> r == Failure(ChainUnavailable)
    ensures var f := Split(line, "\t");
      (|f| == 7 || |f| == 8) && f[|f| - 5] != NotAvailable ==>
        (r.Success? <==> DecodeBool(f[|f| - 4]).Success? && DecodeFrame(f[|f| - 3]).Success? && DecodeBool(f[|f| - 2]).Success?)
    ensures r.Failure? ==> !r.error.NoHeader?
    ensures r.Success? ==>
      && r.value.queryName == rec.queryName
      && r.value.cdr3Start == rec.cdr3Start
      && r.value.hits == rec.hits
    ensures r.Success? ==> Decoded(r.value)
    ensures r.Success? ==> var f := Split(line, "\t");
      && r.value.vGene == Available(f[0])
      && r.value.dGene == (if |f| == 8 then Available(f[1]) else None)
      && r.value.jGene == Available(f[|f| - 6])
      && r.value.chain == Some(f[|f| - 5])
      && EncodeBool(r.value.hasStop) == f[|f| - 4]
      && EncodeFrame(r.value.inFrame) == f[|f| - 3]
      && EncodeBool(r.value.isProductive) == f[|f| - 2]
      && (r.value.strand.Some? <==> StrandKept(f[|f| - 1]))
      && (r.value.strand.Some? ==> r.value.strand.value == f[|f| - 1])
  {
    var f := Split(line, "\t");
    if |f| != 7 && |f| != 8 then Failure(FieldCount(line))
    else ReadSummary(f, rec)
  }

  /** The seven or eight columns of a summary line read into `rec`. */
  function ReadSummary(f: seq<string>, rec: IgblastRecord): (r: Result<IgblastRecord, IgblastError>)
    requires |f| == 7 || |f| == 8
    ensures f[|f| - 5] == NotAvailable ==> r == Failure(ChainUnavailable)
    ensures f[|f| - 5] != NotAvailable ==>
      (r.Success? <==> DecodeBool(f[|f| - 4]).Success? && DecodeFrame(f[|f| - 3]).Success? && DecodeBool(f[|f| - 2]).Success?)
    ensures r.Failure? ==> !r.error.NoHeader?
    ensures r.Success? ==>
      && r.value.queryName == rec.queryName
      && r.value.cdr3Start == rec.cdr3Start
      && r.value.hits == rec.hits
    ensures r.Success? ==> Decoded(r.value)
    ensures r.Success? ==>
      && r.value.vGene == Available(f[0])
      && r.value.dGene == (if |f| == 8 then Available(f[1]) else None)
      && r.value.jGene == Available(f[|f| - 6])
      && r.value.chain == Some(f[|f| - 5])
      && EncodeBool(r.value.hasStop) == f[|f| - 4]
      && EncodeFrame(r.value.inFrame) == f[|f| - 3]
      && EncodeBool(r.value.isProductive) == f[|f| - 2]
      && (r.value.strand.Some? <==> StrandKept(f[|f| - 1]))
      && (r.value.strand.Some? ==> r.value.strand.value == f[|f| - 1])
  {
    var o := |f| - 7;
    var chain := f[2 + o];
    if chain == NotAvailable then Failure(ChainUnavailable)
    else
      var hasStop :- DecodeBool(f[3 + o]);
      var inFrame :- DecodeFrame(f[4 + o]);
      var productive :- DecodeBool(f[5 + o]);
      var strand := f[6 + o];
      StrandKeptIff(strand);
      Success(rec.(
        vGene := Available(f[0]),
        dGene := if o == 1 then Available(f[1]) else None,
        jGene := Available(f[1 + o]),
        chain := Some(chain),
        hasStop := hasStop,
        inFrame := inFrame,
        isProductive := productive,
        strand := if Contains("+-", strand) then Some(strand) else None))
  }

  /** The rearrangement summary section: its first line is the summary. */
  function ApplySummary(lines: seq<string>, rec: IgblastRecord): (r: Result<IgblastRecord, IgblastError>)
    ensures |lines| == 0 <==> r == Failure(NoSummaryLine)
    ensures |lines| > 0 ==> r == ParseSummaryLine(lines[0], rec)
  {
    if |lines| == 0 then Failure(NoSummaryLine) else ParseSummaryLine(lines[0], rec)
  }

  /** The first line giving the germline CDR3 position. */
  function FindCdr3(lines: seq<string>): (r: Option<nat>)
    ensures r.Some? ==> r.value < |lines| && StartsWith(lines[r.value], Cdr3Label)
    ensures r.Some? ==> forall k :: 0 <= k < r.value ==> !StartsWith(lines[k], Cdr3Label)
    ensures r.None? ==> forall k :: 0 <= k < |lines| ==> !StartsWith(lines[k], Cdr3Label)
  {
    if |lines| == 0 then None
    else if StartsWith(lines[0], Cdr3Label) then Some(0)
    else
      match FindCdr3(lines[1..])
      case None => None
      case Some(i) => Some(i + 1)
  }

  /** The alignment summary section: the first `CDR3-IMGT (germline)` line,
      if any, is read by `ReadCdr3`; nothing but the CDR3 start changes. */
  function ApplyAlignment(lines: seq<string>, rec: IgblastRecord): (r: Result<IgblastRecord, IgblastError>)
    ensures FindCdr3(lines).None? ==> r == Success(rec)
    ensures FindCdr3(lines).Some? ==> r == ReadCdr3(lines[FindCdr3(lines).value], rec)
    ensures r.Success? ==> r.value == rec.(cdr3Start := r.value.cdr3Start)
    ensures r.Failure? ==> !r.error.NoHeader?
  {
    match FindCdr3(lines)
    case None => Success(rec)
    case Some(i) => ReadCdr3(lines[i], rec)
  }

  /** The CDR3 line: its second tab-separated field, 1-based, is the CDR3
      start. A line without a second field is an `IndexError`, one whose
      second field `int()` rejects a `ValueError`; nothing else changes. */
  function ReadCdr3(line: string, rec: IgblastRecord): (r: Result<IgblastRecord, IgblastError>)
    ensures var f := Split(line, "\t");
      && (|f| < 2 ==> r == Failure(NoCdr3Field(line)))
      && (|f| >= 2 ==> (r.Failure? <==> ParseInt(f[1]).None?))
      && (|f| >= 2 && r.Failure? ==> r.error == NotAnInteger(f[1]))
      && (r.Success? ==>
            && |f| >= 2 && r.value == rec.(cdr3Start := r.value.cdr3Start)
            && r.value.cdr3Start.Some? && ParseInt(f[1]) == Some(r.value.cdr3Start.value + 1))
    ensures r.Failure? ==> !r.error.NoHeader?
  {
    var f := Split(line, "\t");
    if |f| < 2 then Failure(NoCdr3Field(line)) else Cdr3Field(ParseInt(f[1]), f[1], rec)
  }

  /** The second field of the CDR3 line, 1-based, as the CDR3 start, given
      what `int()` makes of it (`None` being its `ValueError`). */
  function Cdr3Field(n: Option<int>, field: string, rec: IgblastRecord): (r: Result<IgblastRecord, IgblastError>)
    ensures n.None? <==> r == Failure(NotAnInteger(field))
    ensures r.Success? ==>
      && r.value == rec.(cdr3Start := r.value.cdr3Start)
      && r.value.cdr3Start.Some? && n == Some(r.value.cdr3Start.value + 1)
    ensures r.Failure? ==> !r.error.NoHeader?
  {
    match n
    case None => Failure(NotAnInteger(field))
    case Some(v) => Success(rec.(cdr3Start := Some(v - 1)))
  }

  /** `gene in ('V', 'D', 'J')`. */
  function GeneOf(s: string): (r: Result<Gene, IgblastError>)
    ensures r.Success? <==> s == "V" || s == "D" || s == "J"
    ensures r.Success? ==> GeneName(r.value) == s
    ensures r.Failure? ==> r.error == UnknownGene(s)
  {
    if s == "V" then Success(V)
    else if s == "D" then Success(D)
    else if s == "J" then Success(J)
    else Failure(UnknownGene(s))
  }

  function GeneName(g: Gene): string {
    match g
    case V => "V"
    case D => "D"
    case J => "J"
  }

  lemma GeneOfName(g: Gene)
    ensures GeneOf(GeneName(g)) == Success(g)
  {
  }

  /** Empty lines and comment lines of the hit table are passed over. */
  predicate Skipped(line: string) {
    line == "" || StartsWith(line, "#")
  }

  /** The number of hit table lines that are not passed over. */
  function DataLines(lines: seq<string>): nat {
    if |lines| == 0 then 0 else (if Skipped(lines[0]) then 0 else 1) + DataLines(lines[1..])
  }

  /** The hit a six-field line describes, its starts made 0-based. */
  function HitOf(f: seq<string>): (r: Result<Hit, IgblastError>)
    requires |f| == 6
    ensures r.Success? <==> ParseInt(f[2]).Some? && ParseInt(f[4]).Some?
    ensures r.Success? ==>
      && r.value.queryId == f[1] && r.value.querySequence == f[3] && r.value.subjectSequence == f[5]
      && ParseInt(f[2]) == Some(r.value.queryStart + 1)
      && ParseInt(f[4]) == Some(r.value.subjectStart + 1)
  {
    var queryStart :- Int(f[2]);
    var subjectStart :- Int(f[4]);
    Success(Hit(f[1], queryStart - 1, f[3], subjectStart - 1, f[5]))
  }

  /** One line of the hit table: gene, query id, query start, query
      sequence, subject start, subject sequence. A line adds a hit for a
      gene not seen before and keeps every earlier hit. */
  function ApplyHitLine(line: string, hits: map<Gene, Hit>): (r: Result<map<Gene, Hit>, IgblastError>)
    ensures Skipped(line) ==> r == Success(hits)
    ensures !Skipped(line) && |Split(line, "\t")| != 6 ==> r == Failure(FieldCount(line))
    ensures r.Success? && !Skipped(line) ==>
      var f := Split(line, "\t");
      var gene := GeneOf(f[0]);
      && |f| == 6 && gene.Success? && gene.value !in hits && HitOf(f).Success?
      && r.value == hits[gene.value := HitOf(f).value]
    ensures r.Success? ==> forall g :: g in hits ==> g in r.value && r.value[g] == hits[g]
    ensures r.Success? ==> |r.value| == |hits| + (if Skipped(line) then 0 else 1)
    ensures r.Failure? ==> !r.error.NoHeader?
  {
    if Skipped(line) then Success(hits)
    else
      var f := Split(line, "\t");
      if |f| != 6 then Failure(FieldCount(line))
      else NewHit(f, hits)
  }

  /** The six fields of a hit table line, added to the hits so far. */
  function NewHit(f: seq<string>, hits: map<Gene, Hit>): (r: Result<map<Gene, Hit>, IgblastError>)
    requires |f| == 6
    ensures r.Success? <==> GeneOf(f[0]).Success? && GeneOf(f[0]).value !in hits && HitOf(f).Success?
    ensures r.Success? ==> r.value == hits[GeneOf(f[0]).value := HitOf(f).value]
    ensures r.Success? ==> forall g :: g in hits ==> g in r.value && r.value[g] == hits[g]
    ensures r.Success? ==> |r.value| == |hits| + 1
    ensures r.Failure? ==> !r.error.NoHeader?
  {
    var hit :- HitOf(f);
    var gene :- GeneOf(f[0]);
    if gene in hits then Failure(DuplicateHit(gene))
    else
      AddHit(hits, gene, hit);
      Success(hits[gene := hit])
  }

  /** The lines of a hit table section, in order. Hits are never replaced:
      every line that is not passed over adds one. */
  function ApplyHits(lines: seq<string>, hits: map<Gene, Hit>): (r: Result<map<Gene, Hit>, IgblastError>)
    ensures r.Success? ==> forall g :: g in hits ==> g in r.value && r.value[g] == hits[g]
    ensures r.Success? ==> |r.value| == |hits| + DataLines(lines)
    ensures r.Failure? ==> !r.error.NoHeader?
  {
    if |lines| == 0 then Success(hits)
    else
      match ApplyHitLine(lines[0], hits)
      case Failure(e) => Failure(e)
      case Success(next) => ApplyHits(lines[1..], next)
  }

  /** `line` is a hit table line that describes hit `h` for gene `g`. */
  predicate HitLine(line: string, g: Gene, h: Hit) {
    && !Skipped(line)
    && var f := Split(line, "\t");
    && |f| == 6 && GeneOf(f[0]) == Success(g) && HitOf(f) == Success(h)
  }

  /** A hit table line that is not passed over adds exactly the hit it
      describes, for gene `g`. */
  lemma LineAdds(line: string, hits: map<Gene, Hit>) returns (g: Gene)
    requires ApplyHitLine(line, hits).Success?
    ensures Skipped(line) ==> ApplyHitLine(line, hits).value == hits
    ensures !Skipped(line) ==> var next := ApplyHitLine(line, hits).value;
      g !in hits && g in next && next == hits[g := next[g]] && HitLine(line, g, next[g])
  {
    g := V;
    if !Skipped(line) {
      var f := Split(line, "\t");
      g := GeneOf(f[0]).value;
    }
  }

  /** Every hit of `out` not in `hits` is the one some line describes
      (`P` being `HitLine`). */
  ghost predicate FromLines(P: (string, Gene, Hit) -> bool, lines: seq<string>, hits: map<Gene, Hit>, out: map<Gene, Hit>) {
    forall g :: g in out && g !in hits ==> exists k :: 0 <= k < |lines| && P(lines[k], g, out[g])
  }

  /** Every line that is not passed over describes a hit of `out` not in
      `hits`. */
  ghost predicate ToHits(P: (string, Gene, Hit) -> bool, lines: seq<string>, hits: map<Gene, Hit>, out: map<Gene, Hit>) {
    forall k :: 0 <= k < |lines| && !Skipped(lines[k]) ==> exists g :: g in out && g !in hits && P(lines[k], g, out[g])
  }

  /** What a hit table adds, line by line: every new gene's hit is the one
      a line of the table describes, and every line that is not passed over
      describes one of the new hits. */
  lemma {:induction false} HitsFromLines(lines: seq<string>, hits: map<Gene, Hit>)
    requires ApplyHits(lines, hits).Success?
    ensures FromLines(HitLine, lines, hits, ApplyHits(lines, hits).value)
    ensures ToHits(HitLine, lines, hits, ApplyHits(lines, hits).value)
    decreases |lines|
  {
    if |lines| > 0 {
      HitsFirst(lines, hits);
      var next := ApplyHitLine(lines[0], hits).value;
      var out := ApplyHits(lines, hits).value;
      HitsFromLines(lines[1..], next);
      var g := LineAdds(lines[0], hits);
      FromStep(HitLine, lines, hits, next, out, g);
      ToStep(HitLine, lines, hits, next, out, g);
    }
  }

  lemma HitsFirst(lines: seq<string>, hits: map<Gene, Hit>)
    requires |lines| > 0 && ApplyHits(lines, hits).Success?
    ensures ApplyHitLine(lines[0], hits).Success?
    ensures ApplyHits(lines, hits) == ApplyHits(lines[1..], ApplyHitLine(lines[0], hits).value)
  {
  }

  /** The step of `HitsFromLines` for its first ensures, for any relation
      `P` between lines and hits. */
  lemma FromStep(P: (string, Gene, Hit) -> bool, lines: seq<string>,
                 hits: map<Gene, Hit>, next: map<Gene, Hit>, out: map<Gene, Hit>, g0: Gene)
    requires |lines| > 0
    requires Skipped(lines[0]) ==> next == hits
    requires !Skipped(lines[0]) ==> g0 !in hits && g0 in next && next == hits[g0 := next[g0]] && P(lines[0], g0, next[g0])
    requires forall g :: g in next ==> g in out && out[g] == next[g]
    requires FromLines(P, lines[1..], next, out)
    ensures FromLines(P, lines, hits, out)
  {
    var rest := lines[1..];
    forall g | g in out && g !in hits
      ensures exists k :: 0 <= k < |lines| && P(lines[k], g, out[g])
    {
      if g in next {
        assert g == g0 && P(lines[0], g, out[g]);
      } else {
        var k :| 0 <= k < |rest| && P(rest[k], g, out[g]);
        assert lines[k + 1] == rest[k];
      }
    }
  }

  /** The step of `HitsFromLines` for its second ensures. */
  lemma ToStep(P: (string, Gene, Hit) -> bool, lines: seq<string>,
               hits: map<Gene, Hit>, next: map<Gene, Hit>, out: map<Gene, Hit>, g0: Gene)
    requires |lines| > 0
    requires Skipped(lines[0]) ==> next == hits
    requires !Skipped(lines[0]) ==> g0 !in hits && g0 in next && next == hits[g0 := next[g0]] && P(lines[0], g0, next[g0])
    requires forall g :: g in next ==> g in out && out[g] == next[g]
    requires ToHits(P, lines[1..], next, out)
    ensures ToHits(P, lines, hits, out)
  {
    var rest := lines[1..];
    forall k | 0 <= k < |lines| && !Skipped(lines[k])
      ensures exists g :: g in out && g !in hits && P(lines[k], g, out[g])
    {
      if k == 0 {
        assert P(lines[k], g0, out[g0]);
      } else {
        assert lines[k] == rest[k - 1];
        var g :| g in out && g !in next && P(rest[k - 1], g, out[g]);
      }
    }
  }

  lemma AddHit(hits: map<Gene, Hit>, g: Gene, h: Hit)
    requires g !in hits
    ensures |hits[g := h]| == |hits| + 1
  {
    assert hits[g := h].Keys == hits.Keys + {g};
  }

  /** The rearrangement summary fields of two records agree. */
  predicate SameSummary(a: IgblastRecord, b: IgblastRecord) {
    && a.vGene == b.vGene && a.dGene == b.dGene && a.jGene == b.jGene && a.chain == b.chain
    && a.hasStop == b.hasStop && a.inFrame == b.inFrame && a.isProductive == b.isProductive
    && a.strand == b.strand
  }

  /** The query name a `# Query: ` header gives: the text after the first
      `: `, up to the next `: ` if any. */
  function QueryName(header: string): string
    requires StartsWith(header, QueryPrefix)
  {
    assert OccursAt(header, ": ", 7) by {
      assert header[7..9] == QueryPrefix[7..9];
    }
    SplitHasTwo(header, ": ", 7);
    Split(header, ": ")[1]
  }

  /** A header `# Query: ` followed by a name without `: ` gives that name. */
  lemma QueryNameOf(name: string)
    requires !Contains(name, ": ")
    ensures StartsWith(QueryPrefix + name, QueryPrefix)
    ensures QueryName(QueryPrefix + name) == name
  {
    assert QueryPrefix + name == "# Query" + ": " + name;
    SplitPair("# Query", ": ", name);
  }

  /** The kinds of section, by the start of the header, tried in this
      order. */
  datatype SectionKind = QuerySection | SummarySection | AlignmentSection | HitTableSection | OtherSection

  function KindOf(header: string): (k: SectionKind)
    ensures k == QuerySection <==> StartsWith(header, QueryPrefix)
    ensures k == SummarySection <==> !StartsWith(header, QueryPrefix) && StartsWith(header, SummaryStart)
    ensures k == AlignmentSection <==>
      !StartsWith(header, QueryPrefix) && !StartsWith(header, SummaryStart) && StartsWith(header, AlignmentStart)
    ensures k == HitTableSection <==>
      && !StartsWith(header, QueryPrefix) && !StartsWith(header, SummaryStart) && !StartsWith(header, AlignmentStart)
      && StartsWith(header, HitTableStart)
  {
    if StartsWith(header, QueryPrefix) then QuerySection
    else if StartsWith(header, SummaryStart) then SummarySection
    else if StartsWith(header, AlignmentStart) then AlignmentSection
    else if StartsWith(header, HitTableStart) then HitTableSection
    else OtherSection
  }

  /** One section of a record, by the start of its header: a query header
      sets the query name, a summary or alignment section is read as such,
      a hit table adds its hits, and a section of any other kind changes
      nothing. Each section touches only its own fields. */
  function ApplySection(sec: Section, rec: IgblastRecord): (r: Result<IgblastRecord, IgblastError>)
    requires Decoded(rec)
    ensures r.Success? ==> Decoded(r.value)
    ensures KindOf(sec.header) == QuerySection ==> r == Success(rec.(queryName := Some(QueryName(sec.header))))
    ensures KindOf(sec.header) == SummarySection ==> r == ApplySummary(sec.lines, rec)
    ensures KindOf(sec.header) == AlignmentSection ==> r == ApplyAlignment(sec.lines, rec)
    ensures KindOf(sec.header) == HitTableSection ==>
      && (r.Success? <==> ApplyHits(sec.lines, rec.hits).Success?)
      && (r.Success? ==> r.value == rec.(hits := ApplyHits(sec.lines, rec.hits).value))
    ensures KindOf(sec.header) == OtherSection ==> r == Success(rec)
    ensures r.Success? && !StartsWith(sec.header, QueryPrefix) ==> r.value.queryName == rec.queryName
    ensures r.Success? && !StartsWith(sec.header, SummaryStart) ==> SameSummary(r.value, rec)
    ensures r.Success? && !StartsWith(sec.header, AlignmentStart) ==> r.value.cdr3Start == rec.cdr3Start
    ensures r.Success? && !StartsWith(sec.header, HitTableStart) ==> r.value.hits == rec.hits
    ensures r.Failure? ==> !r.error.NoHeader?
  {
    if StartsWith(sec.header, QueryPrefix) then
      Success(rec.(queryName := Some(QueryName(sec.header))))
    else if StartsWith(sec.header, SummaryStart) then ApplySummary(sec.lines, rec)
    else if StartsWith(sec.header, AlignmentStart) then ApplyAlignment(sec.lines, rec)
    else if StartsWith(sec.header, HitTableStart) then
      var hits :- ApplyHits(sec.lines, rec.hits);
      Success(rec.(hits := hits))
    else Success(rec)
  }

  /** The query name the last `# Query: ` header of `secs` gives, or `q`
      when there is none. */
  function LastQuery(secs: seq<Section>, q: Option<string>): Option<string> {
    if |secs| == 0 then q
    else if StartsWith(secs[|secs| - 1].header, QueryPrefix) then Some(QueryName(secs[|secs| - 1].header))
    else LastQuery(secs[..|secs| - 1], q)
  }

  /** Looking for the last query header from the front: after the first
      section, the answer so far is the default for the rest. */
  lemma {:induction false} LastQueryFront(secs: seq<Section>, q: Option<string>)
    requires |secs| > 0
    ensures LastQuery(secs, q) == LastQuery(secs[1..], LastQuery(secs[..1], q))
    decreases |secs|
  {
    if |secs| > 1 {
      var init := secs[..|secs| - 1];
      assert init[1..] == secs[1..][..|secs| - 2];
      assert init[..1] == secs[..1];
      LastQueryFront(init, q);
    } else {
      assert secs[1..] == [];
    }
  }

  /** No section header of `secs` starts with `start`. */
  predicate Absent(secs: seq<Section>, start: string) {
    forall k :: 0 <= k < |secs| ==> !StartsWith(secs[k].header, start)
  }

  /** The sections of a record in order, each one overriding what earlier
      ones set: the query name is the one of the last query header, and
      the fields of a kind of section that does not occur keep their
      values. */
  function ApplySections(secs: seq<Section>, rec: IgblastRecord): (r: Result<IgblastRecord, IgblastError>)
    requires Decoded(rec)
    ensures r.Success? ==> Decoded(r.value)
    ensures r.Success? ==> r.value.queryName == LastQuery(secs, rec.queryName)
    ensures r.Success? && Absent(secs, SummaryStart) ==> SameSummary(r.value, rec)
    ensures r.Success? && Absent(secs, AlignmentStart) ==> r.value.cdr3Start == rec.cdr3Start
    ensures r.Success? && Absent(secs, HitTableStart) ==> r.value.hits == rec.hits
    ensures r.Failure? ==> !r.error.NoHeader?
  {
    if |secs| == 0 then Success(rec)
    else
      var next :- ApplySection(secs[0], rec);
      LastQueryFront(secs, rec.queryName);
      assert secs[..1][..0] == [];
      ApplySections(secs[1..], next)
  }

  /** A summary header is never a query header: they differ in their
      third character. */
  lemma SummaryNotQuery(header: string)
    requires StartsWith(header, SummaryStart)
    ensures KindOf(header) == SummarySection
  {
    assert header[2] == SummaryStart[2];
  }

  /** The summary fields a summary line sets do not depend on the record
      it is read into. */
  lemma SummaryIndependent(line: string, a: IgblastRecord, b: IgblastRecord)
    ensures ParseSummaryLine(line, a).Success? <==> ParseSummaryLine(line, b).Success?
    ensures ParseSummaryLine(line, a).Success? ==>
      SameSummary(ParseSummaryLine(line, a).value, ParseSummaryLine(line, b).value)
  {
  }

  /** Each summary section overrides every summary field, so after all the
      sections the summary fields are those read from the first line of the
      last summary section, whatever came before it. */
  lemma {:induction false} LastSummaryWins(secs: seq<Section>, rec: IgblastRecord, k: nat)
    requires Decoded(rec) && ApplySections(secs, rec).Success?
    requires k < |secs| && StartsWith(secs[k].header, SummaryStart)
    requires forall m :: k < m < |secs| ==> !StartsWith(secs[m].header, SummaryStart)
    ensures |secs[k].lines| > 0 && ParseSummaryLine(secs[k].lines[0], Unset).Success?
    ensures SameSummary(ApplySections(secs, rec).value, ParseSummaryLine(secs[k].lines[0], Unset).value)
    decreases k
  {
    var next := ApplySection(secs[0], rec).value;
    assert ApplySections(secs, rec) == ApplySections(secs[1..], next);
    if k == 0 {
      SummaryNotQuery(secs[0].header);
      assert Absent(secs[1..], SummaryStart) by {
        forall m | 0 <= m < |secs[1..]|
          ensures !StartsWith(secs[1..][m].header, SummaryStart)
        {
          assert secs[1..][m] == secs[m + 1];
        }
      }
      SummaryIndependent(secs[0].lines[0], rec, Unset);
    } else {
      forall m | k - 1 < m < |secs[1..]|
        ensures !StartsWith(secs[1..][m].header, SummaryStart)
      {
        assert secs[1..][m] == secs[m + 1];
      }
      LastSummaryWins(secs[1..], next, k - 1);
    }
  }

  /** The consistency a hit must have with its record: its query id is the
      query name without one trailing `;`, prefixed with `reversed|` exactly
      when the strand is `-`, and the chain is one IgBLAST reports. */
  predicate Consistent(hit: Hit, name: string, strand: Option<string>, chain: Option<string>) {
    var reversed := StartsWith(hit.queryId, Reversed);
    var qid := if reversed then hit.queryId[|Reversed|..] else hit.queryId;
    var qname := if EndsWith(name, ";") then name[..|name| - 1] else name;
    && reversed == (strand == Some("-"))
    && qid == qname
    && chain in {None, Some("VL"), Some("VH"), Some("VK"), Some("NON")}
  }

  /** A record whose hits all agree with it. */
  predicate Checked(rec: IgblastRecord) {
    && (|rec.hits| > 0 ==> rec.queryName.Some?)
    && forall g :: g in rec.hits ==> Consistent(rec.hits[g], rec.queryName.value, rec.strand, rec.chain)
  }

  /** The check run on every record unless Python runs with `-O`. */
  function Check(rec: IgblastRecord): (r: Result<IgblastRecord, IgblastError>)
    ensures r.Success? <==> Checked(rec)
    ensures r.Success? ==> r.value == rec
    ensures |rec.hits| > 0 && rec.queryName.None? ==> r == Failure(NoQueryName)
    ensures r.Failure? ==> r.error == NoQueryName || r.error == InconsistentHit
  {
    if |rec.hits| > 0 && rec.queryName.None? then Failure(NoQueryName)
    else if forall g :: g in rec.hits ==> Consistent(rec.hits[g], rec.queryName.value, rec.strand, rec.chain) then Success(rec)
    else Failure(InconsistentHit)
  }

  /** `parse_igblast_record`. Lines before the first section header are an
      error; an empty record has every field unset; a parsed record has a
      chain other than `N/A`, a strand the filter keeps, and hits that agree
      with it. Its query name is the one of the last query header, and the
      fields of a kind of section the record lacks stay unset. */
  function ParseIgblastRecord(lines: seq<string>): (r: Result<IgblastRecord, IgblastError>)
    ensures r.Failure? && r.error.NoHeader? <==> |lines| > 0 && !IsHeader(Strip(lines[0]), Starts)
    ensures |lines| == 0 ==> r == Success(Unset)
    ensures r.Success? ==> Decoded(r.value) && Checked(r.value)
    ensures r.Success? ==> SplitBySection(lines, Starts).Success?
    ensures r.Success? && SplitBySection(lines, Starts).Success? ==>
      var secs := SplitBySection(lines, Starts).value;
      && r.value.queryName == LastQuery(secs, None)
      && (Absent(secs, SummaryStart) ==> SameSummary(r.value, Unset))
      && (Absent(secs, AlignmentStart) ==> r.value.cdr3Start == None)
      && (Absent(secs, HitTableStart) ==> r.value.hits == map[])
  {
    match SplitBySection(lines, Starts)
    case Failure(ExpectedHeader(line)) => Failure(NoHeader(line))
    case Success(secs) =>
      match ApplySections(secs, Unset)
      case Failure(e) => Failure(e)
      case Success(rec) => Check(rec)
  }

  /** A parsed record's V, D and J genes, chain, stop codon, frame,
      productivity and strand are those read from the first line of its last
      summary section. */
  lemma RecordSummary(lines: seq<string>, k: nat)
    requires ParseIgblastRecord(lines).Success?
    requires var secs := SplitBySection(lines, Starts).value;
      k < |secs| && StartsWith(secs[k].header, SummaryStart)
      && forall m :: k < m < |secs| ==> !StartsWith(secs[m].header, SummaryStart)
    ensures var secs := SplitBySection(lines, Starts).value;
      && |secs[k].lines| > 0 && ParseSummaryLine(secs[k].lines[0], Unset).Success?
      && SameSummary(ParseIgblastRecord(lines).value, ParseSummaryLine(secs[k].lines[0], Unset).value)
  {
    LastSummaryWins(SplitBySection(lines, Starts).value, Unset, k);
  }

  /** The records read before the first error, and that error if any. */
  datatype IgblastRun = IgblastRun(records: seq<IgblastRecord>, error: Option<IgblastError>)

  /** One section of a file: a record under the version line. */
  function RecordIn(sec: Section): Result<IgblastRecord, IgblastError> {
    if sec.header != Version then Failure(WrongVersion(sec.header)) else ParseIgblastRecord(sec.lines)
  }

  /** The records of a generator that stops at the first exception: the
      values before the first failure, and that failure. */
  function Collect(rs: seq<Result<IgblastRecord, IgblastError>>): (r: IgblastRun)
    ensures |r.records| <= |rs|
    ensures r.error.None? ==> |r.records| == |rs|
    ensures forall k :: 0 <= k < |r.records| ==> rs[k] == Success(r.records[k])
    ensures r.error.Some? ==> |r.records| < |rs| && rs[|r.records|] == Failure(r.error.value)
  {
    if |rs| == 0 then IgblastRun([], None)
    else
      match rs[0]
      case Failure(e) => IgblastRun([], Some(e))
      case Success(rec) =>
        var rest := Collect(rs[1..]);
        var recs := [rec] + rest.records;
        assert forall k :: 1 <= k < |recs| ==> recs[k] == rest.records[k - 1] && rs[k] == rs[1..][k - 1];
        IgblastRun(recs, rest.error)
  }

  /** The converse of `Collect`'s contract: when every value is a success,
      all of them are collected and there is no error. */
  lemma {:induction false} CollectAll(rs: seq<Result<IgblastRecord, IgblastError>>, recs: seq<IgblastRecord>)
    requires |rs| == |recs|
    requires forall k :: 0 <= k < |rs| ==> rs[k] == Success(recs[k])
    ensures Collect(rs) == IgblastRun(recs, None)
    decreases |rs|
  {
    if |rs| > 0 {
      assert rs[0] == Success(recs[0]);
      CollectAll(rs[1..], recs[1..]);
      assert recs == [recs[0]] + recs[1..];
    }
  }

  /** The records of a file, split at the `# IGBLASTN` lines: the records
      of the sections, in order, up to the first section that is not a
      record under the version line, whose error ends the run. */
  function ParseRecords(secs: seq<Section>): (r: IgblastRun)
    ensures |r.records| <= |secs|
    ensures r.error.None? ==> |r.records| == |secs|
    ensures forall k :: 0 <= k < |r.records| ==> RecordIn(secs[k]) == Success(r.records[k])
    ensures r.error.Some? ==> |r.records| < |secs| && RecordIn(secs[|r.records|]) == Failure(r.error.value)
  {
    var rs := seq(|secs|, k requires 0 <= k < |secs| => RecordIn(secs[k]));
    var r := Collect(rs);
    assert forall k :: 0 <= k < |secs| ==> rs[k] == RecordIn(secs[k]);
    r
  }

  /** `parse_igblast` over the lines of a file: the records it yields, in
      order, up to the first one that fails, and the exception that ends
      the iteration early. */
  function ParseIgblast(lines: seq<string>): (r: IgblastRun)
    ensures |lines| > 0 && !IsHeader(Strip(lines[0]), [RecordStart]) ==>
      r == IgblastRun([], Some(NoHeader(Strip(lines[0]))))
    ensures SplitBySection(lines, [RecordStart]).Success? ==>
      r == ParseRecords(SplitBySection(lines, [RecordStart]).value)
  {
    match SplitBySection(lines, [RecordStart])
    case Failure(ExpectedHeader(line)) => IgblastRun([], Some(NoHeader(line)))
    case Success(secs) => ParseRecords(secs)
  }
}

=== FILE: ingest.dfy ===
/** The first half of `main` in group.py: each input read loses its barcode
    (and optionally its leading run of G), gets a CDR3 key, and is filed
    under its barcode. */
module Ingest {
  import opened Wrappers
  import opened Text
  import opened Cluster
  import opened Ordering

  /** One FASTA/FASTQ record; qualities are not part of this model. */
  datatype FastxRecord = FastxRecord(name: string, sequence: string)

  /** Python's normalisation of one slice bound for a sequence of length
      `n`: a negative bound counts from the end, and the result is clamped
      to `0..n`. */
  function SliceBound(i: int, n: nat): (r: nat)
    ensures r <= n
  {
    if i < 0 then (if i + n < 0 then 0 else i + n)
    else if i > n then n
    else i
  }

  /** Python's `s[start:stop]`. */
  function Slice(s: string, start: int, stop: int): (r: string)
    ensures |r| <= |s|
  {
    var a := SliceBound(start, |s|);
    var b := SliceBound(stop, |s|);
    if a < b then s[a..b] else ""
  }

  /** `s[:k] + s[k:] == s` for every integer `k`, negative ones included. */
  lemma SliceSplit(s: string, k: int)
    ensures Slice(s, 0, k) + Slice(s, k, |s|) == s
  {
    var b := SliceBound(k, |s|);
    assert s[..b] + s[b..] == s;
  }

  /** For bounds inside the sequence, slicing is plain subsequence taking,
      and a negative bound `-k` stands for `|s| - k`. */
  lemma SliceInside(s: string, start: int, stop: int)
    requires -|s| <= start <= stop <= |s|
    requires (start < 0) == (stop < 0)
    ensures start >= 0 ==> Slice(s, start, stop) == s[start..stop]
    ensures start < 0 ==> Slice(s, start, stop) == s[|s| + start..|s| + stop]
  {
  }

  /** `s.lstrip('G')`: the run of G at the start of `s` removed. */
  function TrimG(s: string): (r: string)
    ensures |r| <= |s| && r == s[|s| - |r|..]
    ensures forall i :: 0 <= i < |s| - |r| ==> s[i] == 'G'
    ensures |r| == 0 || r[0] != 'G'
  {
    if |s| > 0 && s[0] == 'G' then TrimG(s[1..]) else s
  }

  /** `r` is what the optional G trimming leaves of `s`. */
  ghost predicate Trimmed(s: string, r: string, trimG: bool) {
    if trimG then r == TrimG(s) else r == s
  }

  /** How the CDR3 key of a read is found: not at all, as a fixed slice of
      the sequence (`--pseudo-cdr3 START:END`), or with the regular expression
      search of `find_cdr3`, which is a parameter of the model. */
  datatype Cdr3Mode =
    | NoCdr3
    | PseudoCdr3(start: int, stop: int)
    | RealCdr3(find: string -> Option<(int, int)>)

  /** `--pseudo-cdr3` without an argument: bases 80 to 61 from the 3' end. */
  const DefaultPseudoCdr3 := PseudoCdr3(-80, -60)

  /** The command line settings that steer `main`; `groupsOutput` is whether
      a groups table is written (`--groups-output`). */
  datatype Options = Options(barcodeLength: int, minimumLength: int, trimG: bool, cdr3: Cdr3Mode, limit: Option<int>, groupsOutput: bool)

  predicate GroupByCdr3(opts: Options) {
    !opts.cdr3.NoCdr3?
  }

  function Min(a: nat, b: nat): nat {
    if a <= b then a else b
  }

  /** The barcode of `s` and what is left of `s` after the barcode is cut
      off and the optional G trimming: a positive length takes the barcode
      from the 5' end, a negative one from the 3' end; a read shorter than
      the barcode is all barcode. */
  function Unbarcode(s: string, barcodeLength: int, trimG: bool): (r: (string, string))
    requires barcodeLength != 0
    ensures barcodeLength > 0 ==>
      && |r.0| == Min(barcodeLength, |s|) && StartsWith(s, r.0)
      && Trimmed(s[|r.0|..], r.1, trimG)
    ensures barcodeLength < 0 ==>
      && |r.0| == Min(-barcodeLength, |s|) && EndsWith(s, r.0)
      && Trimmed(s[..|s| - |r.0|], r.1, trimG)
  {
    var (barcode, rest) :=
      if barcodeLength > 0 then (Slice(s, 0, barcodeLength), Slice(s, barcodeLength, |s|))
      else (Slice(s, barcodeLength, |s|), Slice(s, 0, barcodeLength));
    SliceSplit(s, barcodeLength);
    assert barcodeLength > 0 ==> s == barcode + rest;
    assert barcodeLength < 0 ==> s == rest + barcode;
    (barcode, if trimG then TrimG(rest) else rest)
  }

  /** What happens to one record of the input. */
  datatype Outcome = TooShort | RegexFail | Kept(barcode: string, read: Read)

  /** The body of the reading loop for one record (lines 190-219). */
  function Classify(rec: FastxRecord, opts: Options): (o: Outcome)
    requires opts.barcodeLength != 0
    ensures o.TooShort? <==> |rec.sequence| < opts.minimumLength
    ensures o.RegexFail? <==>
      && |rec.sequence| >= opts.minimumLength
      && opts.cdr3.RealCdr3?
      && opts.cdr3.find(Unbarcode(rec.sequence, opts.barcodeLength, opts.trimG).1).None?
    ensures o.Kept? ==>
      && (o.barcode, o.read.sequence) == Unbarcode(rec.sequence, opts.barcodeLength, opts.trimG)
      && o.read.name == rec.name
      && (opts.cdr3.NoCdr3? ==> o.read.cdr3 == "")
      && (opts.cdr3.PseudoCdr3? ==> o.read.cdr3 == Slice(o.read.sequence, opts.cdr3.start, opts.cdr3.stop))
      && (opts.cdr3.RealCdr3? ==> exists m :: opts.cdr3.find(o.read.sequence) == Some(m) && o.read.cdr3 == Slice(o.read.sequence, m.0, m.1))
  {
    if |rec.sequence| < opts.minimumLength then TooShort
    else
      var (barcode, s) := Unbarcode(rec.sequence, opts.barcodeLength, opts.trimG);
      match opts.cdr3
      case NoCdr3 => Kept(barcode, Read(rec.name, s, ""))
      case PseudoCdr3(start, stop) => Kept(barcode, Read(rec.name, s, Slice(s, start, stop)))
      case RealCdr3(find) =>
        match find(s)
        case None => RegexFail
        case Some(m) => Kept(barcode, Read(rec.name, s, Slice(s, m.0, m.1)))
  }

  function Outcomes(recs: seq<FastxRecord>, opts: Options): (os: seq<Outcome>)
    requires opts.barcodeLength != 0
    ensures |os| == |recs|
    ensures forall k :: 0 <= k < |os| ==> os[k] == Classify(recs[k], opts)
  {
    seq(|recs|, k requires 0 <= k < |recs| => Classify(recs[k], opts))
  }

  /** The reads kept under barcode `b`, in input order: the reference for
      what `barcodes[b]` ends up holding. */
  function Collect(os: seq<Outcome>, b: string): seq<Read> {
    if |os| == 0 then []
    else
      var last := os[|os| - 1];
      Collect(os[..|os| - 1], b) + (if last.Kept? && last.barcode == b then [last.read] else [])
  }

  /** How many outcomes satisfy `p`. */
  function CountIf(os: seq<Outcome>, p: Outcome -> bool): nat {
    if |os| == 0 then 0 else CountIf(os[..|os| - 1], p) + (if p(os[|os| - 1]) then 1 else 0)
  }

  /** The reading loop's state: the barcode dict, its keys in sorted order,
      and the three counters `n`, `too_short` and `regex_fail`. */
  datatype Ingested = Ingested(buckets: map<string, seq<Read>>, barcodes: seq<string>, n: nat, tooShort: nat, regexFail: nat)

  /** Total number of reads filed under the barcodes `xs`. */
  function SumOver(xs: seq<string>, m: map<string, seq<Read>>): nat
    requires forall x :: x in xs ==> x in m
  {
    if |xs| == 0 then 0 else |m[xs[0]]| + SumOver(xs[1..], m)
  }

  /** `barcodes` is `sorted(buckets)`, no bucket is empty, and the buckets
      hold `n` reads in all. */
  ghost predicate Valid(g: Ingested) {
    && StrictlySorted(g.barcodes)
    && (forall b :: b in g.buckets <==> b in g.barcodes)
    && (forall b :: b in g.buckets ==> |g.buckets[b]| > 0)
    && SumOver(g.barcodes, g.buckets) == g.n
  }

  const Start := Ingested(map[], [], 0, 0, 0)

  /** One record's effect on the loop state. */
  function Add(g: Ingested, o: Outcome): (h: Ingested)
    requires Valid(g)
    ensures Valid(h)
    ensures forall b :: b in h.buckets <==> b in g.buckets || (o.Kept? && o.barcode == b)
    ensures forall b :: b in h.buckets ==>
      h.buckets[b] == (if b in g.buckets then g.buckets[b] else []) + (if o.Kept? && o.barcode == b then [o.read] else [])
  {
    match o
    case TooShort => g.(tooShort := g.tooShort + 1)
    case RegexFail => g.(regexFail := g.regexFail + 1)
    case Kept(b, r) =>
      if b in g.buckets then
        var m := g.buckets[b := g.buckets[b] + [r]];
        SumOverUpdate(g.barcodes, g.buckets, b, g.buckets[b] + [r]);
        g.(buckets := m, n := g.n + 1)
      else
        var m := g.buckets[b := [r]];
        SumOverUnchanged(g.barcodes, g.buckets, b, [r]);
        SumOverInsert(g.barcodes, m, b);
        g.(buckets := m, barcodes := Insert(g.barcodes, b), n := g.n + 1)
  }

  lemma {:induction false} SumOverUnchanged(xs: seq<string>, m: map<string, seq<Read>>, b: string, v: seq<Read>)
    requires forall x :: x in xs ==> x in m
    requires b !in xs
    ensures SumOver(xs, m[b := v]) == SumOver(xs, m)
    decreases |xs|
  {
    if |xs| > 0 {
      SumOverUnchanged(xs[1..], m, b, v);
    }
  }

  lemma {:induction false} SumOverUpdate(xs: seq<string>, m: map<string, seq<Read>>, b: string, v: seq<Read>)
    requires forall x :: x in xs ==> x in m
    requires StrictlySorted(xs) && b in xs
    ensures SumOver(xs, m[b := v]) + |m[b]| == SumOver(xs, m) + |v|
    decreases |xs|
  {
    if xs[0] == b {
      assert b !in xs[1..] by {
        if b in xs[1..] {
          var k :| 0 <= k < |xs[1..]| && xs[1..][k] == b;
          assert Less(xs[0], xs[k + 1]);
          LessIrreflexive(b);
        }
      }
      SumOverUnchanged(xs[1..], m, b, v);
    } else {
      SumOverUpdate(xs[1..], m, b, v);
    }
  }

  lemma {:induction false} SumOverInsert(xs: seq<string>, m: map<string, seq<Read>>, b: string)
    requires forall x :: x in xs ==> x in m
    requires StrictlySorted(xs) && b !in xs && b in m
    ensures SumOver(Insert(xs, b), m) == SumOver(xs, m) + |m[b]|
    decreases |xs|
  {
    if |xs| > 0 && !Less(b, xs[0]) {
      SumOverInsert(xs[1..], m, b);
    }
  }

  /** `g` files the kept reads of `os` under their barcodes, in order. */
  ghost predicate Files(g: Ingested, os: seq<Outcome>) {
    && (forall b :: b in g.buckets <==> |Collect(os, b)| > 0)
    && (forall b :: b in g.buckets ==> g.buckets[b] == Collect(os, b))
  }

  /** `g`'s counters count the outcomes of `os` by kind. */
  ghost predicate Counts(g: Ingested, os: seq<Outcome>) {
    && g.n == CountIf(os, (o: Outcome) => o.Kept?)
    && g.tooShort == CountIf(os, (o: Outcome) => o.TooShort?)
    && g.regexFail == CountIf(os, (o: Outcome) => o.RegexFail?)
    && g.n + g.tooShort + g.regexFail == |os|
  }

  lemma AddFiles(g: Ingested, os: seq<Outcome>)
    requires |os| > 0 && Valid(g) && Files(g, os[..|os| - 1])
    ensures Files(Add(g, os[|os| - 1]), os)
  {
    var o := os[|os| - 1];
    var h := Add(g, o);
    forall b
      ensures b in h.buckets <==> |Collect(os, b)| > 0
      ensures b in h.buckets ==> h.buckets[b] == Collect(os, b)
    {
      CollectLast(os, b);
    }
  }

  lemma CollectLast(os: seq<Outcome>, b: string)
    requires |os| > 0
    ensures var o := os[|os| - 1];
      Collect(os, b) == Collect(os[..|os| - 1], b) + (if o.Kept? && o.barcode == b then [o.read] else [])
  {
  }

  lemma AddCounts(g: Ingested, os: seq<Outcome>)
    requires |os| > 0 && Valid(g) && Counts(g, os[..|os| - 1])
    ensures Counts(Add(g, os[|os| - 1]), os)
  {
  }

  /** The reading loop over all outcomes. The counters add up to the number
      of records read, `n` counts the kept reads and every kept read is in
      exactly the bucket of its barcode, in input order. */
  function IngestAll(os: seq<Outcome>): (g: Ingested)
    ensures Valid(g)
    ensures Counts(g, os)
    ensures Files(g, os)
  {
    if |os| == 0 then Start
    else
      var g := IngestAll(os[..|os| - 1]);
      AddFiles(g, os);
      AddCounts(g, os);
      Add(g, os[|os| - 1])
  }

  /** `islice(records, 0, limit)`. */
  function Take(recs: seq<FastxRecord>, limit: Option<int>): (r: seq<FastxRecord>)
    requires limit.Some? ==> limit.value >= 0
    ensures limit.None? ==> r == recs
    ensures limit.Some? ==> r == recs[..Min(limit.value, |recs|)]
  {
    if limit.None? || limit.value >= |recs| then recs else recs[..limit.value]
  }

  /** Why `main` stops before reading: a zero barcode length ends it with a
      message, and a negative `--limit` makes `islice` raise `ValueError`. */
  datatype IngestError = ZeroBarcodeLength | NegativeLimit

  /** Lines 177-219 of `main`. */
  function BucketReads(recs: seq<FastxRecord>, opts: Options): (r: Result<Ingested, IngestError>)
    ensures r == Failure(ZeroBarcodeLength) <==> opts.barcodeLength == 0
    ensures r == Failure(NegativeLimit) <==> opts.barcodeLength != 0 && opts.limit.Some? && opts.limit.value < 0
    ensures r.Success? ==> Valid(r.value)
    ensures r.Success? ==>
      var os := Outcomes(Take(recs, opts.limit), opts);
      && r.value.n + r.value.tooShort + r.value.regexFail == |Take(recs, opts.limit)|
      && (forall b :: b in r.value.buckets <==> |Collect(os, b)| > 0)
      && (forall b :: b in r.value.buckets ==> r.value.buckets[b] == Collect(os, b))
  {
    if opts.barcodeLength == 0 then Failure(ZeroBarcodeLength)
    else if opts.limit.Some? && opts.limit.value < 0 then Failure(NegativeLimit)
    else Success(IngestAll(Outcomes(Take(recs, opts.limit), opts)))
  }
}

=== FILE: numerals.dfy ===
/** Decimal rendering of integers (`str(n)`, `'{}'.format(n)`) and Python's
    `int(s)` for base-10 strings. */
module Numerals {
  import opened Wrappers
  import opened Text

  predicate IsDigit(c: char) {
    '0' <= c <= '9'
  }

  predicate AllDigits(s: string) {
    forall i :: 0 <= i < |s| ==> IsDigit(s[i])
  }

  function DigitChar(d: nat): (c: char)
    requires d < 10
    ensures IsDigit(c) && (c as int) - ('0' as int) == d
  {
    "0123456789"[d]
  }

  function DigitValue(c: char): nat
    requires IsDigit(c)
  {
    (c as int) - ('0' as int)
  }

  /** Value of a string of decimal digits, most significant digit first. */
  function DigitsValue(ds: string): nat
    requires AllDigits(ds)
  {
    if |ds| == 0 then 0 else DigitsValue(ds[..|ds| - 1]) * 10 + DigitValue(ds[|ds| - 1])
  }

  /** Canonical decimal form of a natural number: digits only, no leading
      zero except for `0` itself, and reading it back gives `n`. */
  function NatToString(n: nat): (s: string)
    ensures |s| > 0 && AllDigits(s)
    ensures |s| == 1 || s[0] != '0'
    ensures DigitsValue(s) == n
  {
    if n < 10 then [DigitChar(n)]
    else
      var s := NatToString(n / 10) + [DigitChar(n % 10)];
      assert s[..|s| - 1] == NatToString(n / 10);
      s
  }

  /** Python's `str(n)` for an integer. */
  function IntToString(n: int): string {
    if n < 0 then "-" + NatToString(-n) else NatToString(n)
  }

  /** The body Python's `int()` accepts after the sign: ASCII digits, with
      single underscores allowed between two digits. */
  predicate DigitGroups(b: string) {
    && |b| > 0
    && IsDigit(b[0]) && IsDigit(b[|b| - 1])
    && (forall i :: 0 <= i < |b| ==> IsDigit(b[i]) || b[i] == '_')
    && (forall i, j :: 0 <= i < |b| && j == i + 1 && j < |b| ==> !(b[i] == '_' && b[j] == '_'))
  }

  function DropUnderscores(b: string): (d: string)
    requires forall i :: 0 <= i < |b| ==> IsDigit(b[i]) || b[i] == '_'
    ensures AllDigits(d)
    ensures AllDigits(b) ==> d == b
  {
    if |b| == 0 then ""
    else if b[0] == '_' then DropUnderscores(b[1..])
    else [b[0]] + DropUnderscores(b[1..])
  }

  function ParseDigits(b: string): (r: Option<nat>)
    ensures r.Some? <==> DigitGroups(b)
  {
    if DigitGroups(b) then Some(DigitsValue(DropUnderscores(b))) else None
  }

  /** Python's `int(s)` in base 10: surrounding whitespace is ignored, an
      optional sign, then digit groups. `None` is Python's `ValueError`. */
  function ParseInt(s: string): (r: Option<int>)
    ensures var t := Strip(s);
      r.Some? <==> |t| > 0 && (DigitGroups(t) || ((t[0] == '+' || t[0] == '-') && DigitGroups(t[1..])))
  {
    var t := Strip(s);
    if |t| > 0 && (t[0] == '+' || t[0] == '-') then
      var m :- ParseDigits(t[1..]);
      Some(if t[0] == '-' then -(m as int) else m as int)
    else
      var m :- ParseDigits(t);
      Some(m)
  }

  /** `int(str(n)) == n`. */
  lemma ParseIntToString(n: int)
    ensures ParseInt(IntToString(n)) == Some(n)
  {
    var s := IntToString(n);
    var d := NatToString(if n < 0 then -n else n);
    assert NoEdgeSpace(s) by {
      assert IsDigit(d[|d| - 1]);
      assert s[|s| - 1] == d[|d| - 1];
    }
    StripFixed(s);
    if n < 0 {
      assert s[1..] == d;
    }
  }
}

=== FILE: ordering.dfy ===
/** Python's ordering of `str` values (code point by code point, a proper
    prefix first) and the sorted, duplicate-free sequence `sorted(d)` gives
    for the keys of a dict. */
module Ordering {

  /** `a < b` on Python strings. */
  predicate Less(a: string, b: string) {
    if |a| == 0 then |b| > 0
    else if |b| == 0 then false
    else if a[0] == b[0] then Less(a[1..], b[1..])
    else a[0] < b[0]
  }

  lemma {:induction false} LessIrreflexive(a: string)
    ensures !Less(a, a)
    decreases |a|
  {
    if |a| > 0 {
      LessIrreflexive(a[1..]);
    }
  }

  lemma {:induction false} LessAsymmetric(a: string, b: string)
    requires Less(a, b)
    ensures !Less(b, a)
    decreases |a|
  {
    if |a| > 0 && |b| > 0 && a[0] == b[0] {
      LessAsymmetric(a[1..], b[1..]);
    }
  }

  lemma {:induction false} LessTransitive(a: string, b: string, c: string)
    requires Less(a, b) && Less(b, c)
    ensures Less(a, c)
    decreases |a|
  {
    if |a| > 0 && a[0] == b[0] && b[0] == c[0] {
      LessTransitive(a[1..], b[1..], c[1..]);
    }
  }

  /** Any two different strings are ordered one way or the other. */
  lemma {:induction false} LessTotal(a: string, b: string)
    requires a != b
    ensures Less(a, b) || Less(b, a)
    decreases |a|
  {
    if |a| > 0 && |b| > 0 && a[0] == b[0] {
      assert a == [a[0]] + a[1..] && b == [b[0]] + b[1..];
      LessTotal(a[1..], b[1..]);
    }
  }

  predicate StrictlySorted(xs: seq<string>) {
    forall i, j :: 0 <= i < j < |xs| ==> Less(xs[i], xs[j])
  }

  /** `xs` with `x` put in its place; `x` must not be there already. */
  function Insert(xs: seq<string>, x: string): (r: seq<string>)
    requires StrictlySorted(xs) && x !in xs
    ensures StrictlySorted(r)
    ensures |r| == |xs| + 1
    ensures forall y :: y in r <==> y == x || y in xs
  {
    if |xs| == 0 then [x]
    else if Less(x, xs[0]) then
      InsertFront(xs, x);
      [x] + xs
    else
      var rest := Insert(xs[1..], x);
      InsertBehind(xs, x, rest);
      [xs[0]] + rest
  }

  lemma InsertFront(xs: seq<string>, x: string)
    requires StrictlySorted(xs) && |xs| > 0 && Less(x, xs[0])
    ensures StrictlySorted([x] + xs)
  {
    var r := [x] + xs;
    forall i, j | 0 <= i < j < |r|
      ensures Less(r[i], r[j])
    {
      if i == 0 && j > 1 {
        LessTransitive(x, xs[0], xs[j - 1]);
      }
    }
  }

  lemma InsertBehind(xs: seq<string>, x: string, rest: seq<string>)
    requires StrictlySorted(xs) && |xs| > 0 && x != xs[0] && !Less(x, xs[0])
    requires StrictlySorted(rest)
    requires forall y :: y in rest <==> y == x || y in xs[1..]
    ensures StrictlySorted([xs[0]] + rest)
  {
    LessTotal(x, xs[0]);
    var r := [xs[0]] + rest;
    forall j | 0 < j < |r|
      ensures Less(xs[0], r[j])
    {
      assert r[j] in rest;
      if r[j] != x {
        var k :| 0 <= k < |xs[1..]| && xs[1..][k] == r[j];
        assert xs[k + 1] == r[j];
      }
    }
  }

  /** Sorting is determined by the members: two strictly sorted sequences
      with the same members are the same sequence, so a sequence built by
      `Insert` is `sorted()` of its members whatever the insertion order. */
  lemma {:induction false} SortedUnique(xs: seq<string>, ys: seq<string>)
    requires StrictlySorted(xs) && StrictlySorted(ys)
    requires forall y :: y in xs <==> y in ys
    ensures xs == ys
    decreases |xs|
  {
    if |xs| > 0 {
      assert xs[0] in ys;
    }
    if |ys| > 0 {
      assert ys[0] in xs;
    }
    if |xs| > 0 {
      assert xs == [xs[0]] + xs[1..] && ys == [ys[0]] + ys[1..];
      assert xs[0] == ys[0] by {
        if xs[0] != ys[0] {
          var i :| 0 <= i < |xs| && xs[i] == ys[0];
          var j :| 0 <= j < |ys| && ys[j] == xs[0];
          assert Less(xs[0], ys[0]) && Less(ys[0], xs[0]);
          LessAsymmetric(xs[0], ys[0]);
        }
      }
      forall y
        ensures y in xs[1..] <==> y in ys[1..]
      {
        if y in xs[1..] {
          var i :| 1 <= i < |xs| && xs[i] == y;
          if y == ys[0] {
            LessIrreflexive(y);
          }
          assert y in ys;
        }
        if y in ys[1..] {
          var j :| 1 <= j < |ys| && ys[j] == y;
          if y == xs[0] {
            LessIrreflexive(y);
          }
          assert y in xs;
        }
      }
      SortedUnique(xs[1..], ys[1..]);
    }
  }
}

=== FILE: render.dfy ===
/** The lines IgBLAST writes for a record, as far as the reader looks at
    them, and the proof that reading them back gives the record: the partner
    of `Igblast.ParseIgblastRecord` and `Igblast.ParseIgblast`. */
module IgblastRender {
  import opened Wrappers
  import opened Text
  import opened Numerals
  import opened Sections
  import opened Igblast

  /** A value written as one tab-separated column at the start of a line:
      non-empty, free of whitespace, not a comment. */
  predicate Field(s: string) {
    |s| > 0 && NoSpace(s) && s[0] != '#'
  }

  /** A gene call or chain that reads back as itself. */
  predicate Call(o: Option<string>) {
    o.Some? ==> Field(o.value) && o.value != NotAvailable
  }

  /** A hit whose columns survive the round trip; the subject sequence ends
      the line, so it must not be empty. */
  predicate HitWritable(h: Hit) {
    NoSpace(h.queryId) && NoSpace(h.querySequence) && |h.subjectSequence| > 0 && NoSpace(h.subjectSequence)
  }

  /** The records the writer can express. A record without a chain has no
      rearrangement summary at all; the strand `""` is never written, since a
      stripped line cannot end in an empty column. */
  predicate Writable(rec: IgblastRecord) {
    && (rec.queryName.Some? ==> |rec.queryName.value| > 0 && NoSpace(rec.queryName.value))
    && (rec.chain.None? ==>
          && rec.vGene.None? && rec.dGene.None? && rec.jGene.None?
          && rec.hasStop.None? && rec.inFrame.None? && rec.isProductive.None? && rec.strand.None?)
    && Call(rec.chain) && Call(rec.vGene) && Call(rec.dGene) && Call(rec.jGene)
    && (rec.strand.Some? ==> StrandKept(rec.strand.value) && rec.strand.value != "")
    && (forall g :: g in rec.hits ==> HitWritable(rec.hits[g]))
    && Checked(rec)
  }

  /** An optional column: the value, or `N/A`. */
  function Column(o: Option<string>): string {
    if o.Some? then o.value else NotAvailable
  }

  /** The columns of the rearrangement summary; the D column is left out
      when there is no D call. */
  function SummaryFields(rec: IgblastRecord): seq<string>
    requires rec.chain.Some?
  {
    (if rec.dGene.Some? then [Column(rec.vGene), rec.dGene.value, Column(rec.jGene)]
     else [Column(rec.vGene), Column(rec.jGene)])
    + [rec.chain.value, EncodeBool(rec.hasStop), EncodeFrame(rec.inFrame), EncodeBool(rec.isProductive), Column(rec.strand)]
  }

  function SummaryLine(rec: IgblastRecord): string
    requires rec.chain.Some?
  {
    Join(SummaryFields(rec), "\t")
  }

  function Cdr3Fields(start: int): seq<string> {
    [Cdr3Label, IntToString(start + 1)]
  }

  function Cdr3Line(start: int): string {
    Join(Cdr3Fields(start), "\t")
  }

  function HitFields(g: Gene, h: Hit): seq<string> {
    [GeneName(g), h.queryId, IntToString(h.queryStart + 1), h.querySequence, IntToString(h.subjectStart + 1), h.subjectSequence]
  }

  function HitLine(g: Gene, h: Hit): string {
    Join(HitFields(g, h), "\t")
  }

  /** The hit line of gene `g`, if there is a hit for it. */
  function HitLineOf(hits: map<Gene, Hit>, g: Gene): seq<string> {
    if g in hits then [HitLine(g, hits[g])] else []
  }

  function HitLines(hits: map<Gene, Hit>): seq<string> {
    HitLineOf(hits, V) + HitLineOf(hits, D) + HitLineOf(hits, J)
  }

  /** The sections written for a record, each only when it has something
      to say. */
  function Render(rec: IgblastRecord): seq<Section> {
    (if rec.queryName.Some? then [Section(QueryPrefix + rec.queryName.value, [])] else [])
    + (if rec.chain.Some? then [Section(SummaryStart, [SummaryLine(rec)])] else [])
    + (if rec.cdr3Start.Some? then [Section(AlignmentStart, [Cdr3Line(rec.cdr3Start.value)])] else [])
    + (if |rec.hits| > 0 then [Section(HitTableStart, HitLines(rec.hits))] else [])
  }

  function RenderLines(rec: IgblastRecord): seq<string> {
    Flatten(Render(rec))
  }

  /** A file: each record under the version line. */
  function RecordSections(recs: seq<IgblastRecord>): (r: seq<Section>)
    ensures |r| == |recs|
    ensures forall k :: 0 <= k < |r| ==> r[k] == Section(Version, RenderLines(recs[k]))
  {
    seq(|recs|, k requires 0 <= k < |recs| => Section(Version, RenderLines(recs[k])))
  }

  function RenderFile(recs: seq<IgblastRecord>): seq<string> {
    Flatten(RecordSections(recs))
  }

  // Shapes of the written lines.

  lemma IntToStringShape(n: int)
    ensures Field(IntToString(n))
    ensures !IsSpace(IntToString(n)[|IntToString(n)| - 1])
  {
    var d := NatToString(if n < 0 then -n else n);
    var s := IntToString(n);
    forall i | 0 <= i < |s|
      ensures !IsSpace(s[i])
    {
      if n < 0 && i > 0 {
        assert s[i] == d[i - 1];
      } else if n >= 0 {
        assert s[i] == d[i];
      }
    }
  }

  /** The last character of a join is that of its last part. */
  lemma {:induction false} JoinLast(parts: seq<string>, sep: string)
    requires |parts| >= 1 && |parts[|parts| - 1]| > 0
    ensures var s := Join(parts, sep);
      |s| > 0 && s[|s| - 1] == parts[|parts| - 1][|parts[|parts| - 1]| - 1]
    decreases |parts|
  {
    if |parts| > 1 {
      JoinLast(parts[1..], sep);
    }
  }

  /** The first and last characters of a join are those of its first and
      last parts. */
  lemma JoinEnds(parts: seq<string>, sep: string)
    requires |parts| >= 1 && |parts[0]| > 0 && |parts[|parts| - 1]| > 0
    ensures var s := Join(parts, sep);
      |s| > 0 && s[0] == parts[0][0] && s[|s| - 1] == parts[|parts| - 1][|parts[|parts| - 1]| - 1]
  {
    JoinLast(parts, sep);
  }

  /** A line that starts with something other than `#` is no header, of a
      record or of a file. */
  lemma DataLine(l: string)
    requires |l| > 0 && l[0] != '#'
    ensures !IsHeader(l, Starts) && !IsHeader(l, [RecordStart])
  {
    forall k | 0 <= k < |Starts|
      ensures !StartsWith(l, Starts[k])
    {
      DiffersAt(l, Starts[k], 0);
    }
    DiffersAt(l, RecordStart, 0);
  }

  lemma TabFree(s: string)
    requires NoSpace(s)
    ensures '\t' !in s
  {
  }

  /** Whitespace-free columns, the first not a comment and the last not
      empty, joined by tabs: a data line that splits back into them. */
  lemma JoinedLine(f: seq<string>)
    requires |f| >= 1 && forall k :: 0 <= k < |f| ==> NoSpace(f[k])
    requires |f[0]| > 0 && f[0][0] != '#' && |f[|f| - 1]| > 0
    ensures Split(Join(f, "\t"), "\t") == f
    ensures var l := Join(f, "\t"); |l| > 0 && l[0] != '#' && NoEdgeSpace(l)
  {
    forall k | 0 <= k < |f|
      ensures '\t' !in f[k]
    {
      TabFree(f[k]);
    }
    SplitJoin(f, '\t');
    JoinEnds(f, "\t");
  }

  lemma EncodingsNoSpace(b: Option<bool>)
    ensures NoSpace(EncodeBool(b)) && NoSpace(EncodeFrame(b))
  {
  }

  lemma SummaryLineShape(rec: IgblastRecord)
    requires Writable(rec) && rec.chain.Some?
    ensures Split(SummaryLine(rec), "\t") == SummaryFields(rec)
    ensures var l := SummaryLine(rec); |l| > 0 && l[0] != '#' && NoEdgeSpace(l)
  {
    var v := Column(rec.vGene);
    var j := Column(rec.jGene);
    var tail := [rec.chain.value, EncodeBool(rec.hasStop), EncodeFrame(rec.inFrame), EncodeBool(rec.isProductive), Column(rec.strand)];
    EncodingsNoSpace(rec.hasStop);
    EncodingsNoSpace(rec.inFrame);
    EncodingsNoSpace(rec.isProductive);
    assert NoSpace(v) && NoSpace(j) && NoSpace(Column(rec.strand));
    assert forall k :: 0 <= k < |tail| ==> NoSpace(tail[k]);
    var f := SummaryFields(rec);
    if rec.dGene.Some? {
      assert f == [v, rec.dGene.value, j] + tail;
    } else {
      assert f == [v, j] + tail;
    }
    assert forall k :: 0 <= k < |f| ==> NoSpace(f[k]);
    JoinedLine(f);
  }

  lemma Cdr3LineShape(start: int)
    ensures Split(Cdr3Line(start), "\t") == Cdr3Fields(start)
    ensures StartsWith(Cdr3Line(start), Cdr3Label)
    ensures var l := Cdr3Line(start); |l| > 0 && l[0] != '#' && NoEdgeSpace(l)
  {
    var f := Cdr3Fields(start);
    IntToStringShape(start + 1);
    Cdr3Split(f[1]);
    Cdr3Edges(f[1]);
  }

  lemma Cdr3Split(n: string)
    requires NoSpace(n)
    ensures Split(Join([Cdr3Label, n], "\t"), "\t") == [Cdr3Label, n]
  {
    TabFree(n);
    assert '\t' !in Cdr3Label;
    SplitJoin([Cdr3Label, n], '\t');
  }

  lemma Cdr3Edges(n: string)
    requires |n| > 0 && !IsSpace(n[|n| - 1])
    ensures var l := Join([Cdr3Label, n], "\t");
      |l| > 0 && l[0] != '#' && NoEdgeSpace(l) && StartsWith(l, Cdr3Label)
  {
    var l := Join([Cdr3Label, n], "\t");
    assert l == Cdr3Label + "\t" + n;
    assert l[..|Cdr3Label|] == Cdr3Label;
    assert l[|l| - 1] == n[|n| - 1];
  }

  lemma HitLineShape(g: Gene, h: Hit)
    requires HitWritable(h)
    ensures Split(HitLine(g, h), "\t") == HitFields(g, h)
    ensures var l := HitLine(g, h); |l| > 0 && l[0] != '#' && NoEdgeSpace(l)
  {
    IntToStringShape(h.queryStart + 1);
    IntToStringShape(h.subjectStart + 1);
    assert NoSpace(GeneName(g)) && GeneName(g)[0] != '#';
    JoinedLine(HitFields(g, h));
  }

  // Each section read back.

  lemma QuerySectionOf(name: string, acc: IgblastRecord)
    requires Decoded(acc) && |name| > 0 && NoSpace(name)
    ensures ApplySection(Section(QueryPrefix + name, []), acc) == Success(acc.(queryName := Some(name)))
  {
    var h := QueryPrefix + name;
    assert h[..|QueryPrefix|] == QueryPrefix;
    assert h == "# Query" + ": " + name;
    NoSpaceLacks(name, ": ", 1);
    SplitPair("# Query", ": ", name);
  }

  /** The record with the summary fields of `rec`. */
  function WithSummary(acc: IgblastRecord, rec: IgblastRecord): IgblastRecord {
    acc.(vGene := rec.vGene, dGene := rec.dGene, jGene := rec.jGene, chain := rec.chain,
      hasStop := rec.hasStop, inFrame := rec.inFrame, isProductive := rec.isProductive, strand := rec.strand)
  }

  lemma SummaryRead(line: string, rec: IgblastRecord, acc: IgblastRecord)
    requires Writable(rec) && rec.chain.Some? && Decoded(acc)
    requires Split(line, "\t") == SummaryFields(rec)
    ensures ParseSummaryLine(line, acc) == Success(WithSummary(acc, rec))
  {
    SummaryColumnsRead(rec, acc);
    SummaryLineIs(line, acc);
  }

  lemma SummaryLineIs(line: string, acc: IgblastRecord)
    requires |Split(line, "\t")| == 7 || |Split(line, "\t")| == 8
    ensures ParseSummaryLine(line, acc) == ReadSummary(Split(line, "\t"), acc)
  {
  }

  /** The columns of a summary line decode to the summary fields. */
  lemma SummaryColumnsRead(rec: IgblastRecord, acc: IgblastRecord)
    requires Writable(rec) && rec.chain.Some? && Decoded(acc)
    ensures ReadSummary(SummaryFields(rec), acc) == Success(WithSummary(acc, rec))
  {
    var f := SummaryFields(rec);
    SummaryColumns(rec);
    DecodeEncode(rec.hasStop);
    DecodeEncode(rec.inFrame);
    DecodeEncode(rec.isProductive);
    StrandKeptIff(f[|f| - 1]);
    ReadColumns(f, acc, rec);
  }

  /** Where each summary field sits among the columns. */
  lemma SummaryColumns(rec: IgblastRecord)
    requires Writable(rec) && rec.chain.Some?
    ensures var f := SummaryFields(rec);
      && |f| == (if rec.dGene.Some? then 8 else 7)
      && f[|f| - 5] == rec.chain.value
      && f[|f| - 4] == EncodeBool(rec.hasStop)
      && f[|f| - 3] == EncodeFrame(rec.inFrame)
      && f[|f| - 2] == EncodeBool(rec.isProductive)
      && f[|f| - 1] == Column(rec.strand)
      && Available(f[0]) == rec.vGene
      && Available(f[|f| - 6]) == rec.jGene
      && (if |f| == 8 then Available(f[1]) else None) == rec.dGene
  {
  }

  /** Columns that decode to the summary fields of `rec` put them in. */
  lemma ReadColumns(f: seq<string>, acc: IgblastRecord, rec: IgblastRecord)
    requires |f| == 7 || |f| == 8
    requires rec.chain == Some(f[|f| - 5]) && f[|f| - 5] != NotAvailable
    requires DecodeBool(f[|f| - 4]) == Success(rec.hasStop)
    requires DecodeFrame(f[|f| - 3]) == Success(rec.inFrame)
    requires DecodeBool(f[|f| - 2]) == Success(rec.isProductive)
    requires (if Contains("+-", f[|f| - 1]) then Some(f[|f| - 1]) else None) == rec.strand
    requires Available(f[0]) == rec.vGene && Available(f[|f| - 6]) == rec.jGene
    requires (if |f| == 8 then Available(f[1]) else None) == rec.dGene
    ensures ReadSummary(f, acc) == Success(WithSummary(acc, rec))
  {
  }

  lemma SummarySectionOf(rec: IgblastRecord, acc: IgblastRecord)
    requires Writable(rec) && rec.chain.Some? && Decoded(acc)
    ensures ApplySection(Section(SummaryStart, [SummaryLine(rec)]), acc) == Success(WithSummary(acc, rec))
  {
    DiffersAt(SummaryStart, QueryPrefix, 2);
    assert SummaryStart[..|SummaryStart|] == SummaryStart;
    var line := SummaryLine(rec);
    SummaryLineShape(rec);
    SummaryRead(line, rec, acc);
    assert ApplySummary([line], acc) == ParseSummaryLine(line, acc);
  }

  lemma AlignmentSectionOf(start: int, acc: IgblastRecord)
    requires Decoded(acc)
    ensures ApplySection(Section(AlignmentStart, [Cdr3Line(start)]), acc) == Success(acc.(cdr3Start := Some(start)))
  {
    DiffersAt(AlignmentStart, QueryPrefix, 2);
    DiffersAt(AlignmentStart, SummaryStart, 2);
    assert AlignmentStart[..|AlignmentStart|] == AlignmentStart;
    Cdr3LineShape(start);
    Cdr3Read(Cdr3Line(start), start, acc);
    assert FindCdr3([Cdr3Line(start)]) == Some(0);
  }

  lemma Cdr3Read(line: string, start: int, acc: IgblastRecord)
    requires Split(line, "\t") == Cdr3Fields(start)
    ensures ReadCdr3(line, acc) == Success(acc.(cdr3Start := Some(start)))
  {
    IntColumn(Cdr3Fields(start)[1], start + 1);
  }

  lemma HitLineRead(g: Gene, h: Hit, m: map<Gene, Hit>)
    requires HitWritable(h) && g !in m
    ensures ApplyHitLine(HitLine(g, h), m) == Success(m[g := h])
  {
    var l := HitLine(g, h);
    HitLineShape(g, h);
    DiffersAt(l, "#", 0);
    HitFieldsRead(l, g, h, m);
  }

  /** A line of the hit table with the columns of `h`, whatever its text. */
  lemma HitFieldsRead(l: string, g: Gene, h: Hit, m: map<Gene, Hit>)
    requires g !in m && !Skipped(l) && Split(l, "\t") == HitFields(g, h)
    ensures ApplyHitLine(l, m) == Success(m[g := h])
  {
    HitColumnsRead(g, h, m);
    HitLineIs(l, m);
  }

  lemma HitOfFields(f: seq<string>, h: Hit)
    requires |f| == 6 && f[1] == h.queryId && f[3] == h.querySequence && f[5] == h.subjectSequence
    requires ParseInt(f[2]) == Some(h.queryStart + 1) && ParseInt(f[4]) == Some(h.subjectStart + 1)
    ensures HitOf(f) == Success(h)
  {
  }

  lemma HitColumnsRead(g: Gene, h: Hit, m: map<Gene, Hit>)
    requires g !in m
    ensures NewHit(HitFields(g, h), m) == Success(m[g := h])
  {
    assert HitFields(g, h)[0] == GeneName(g);
    GeneOfName(g);
    HitColumnsParse(g, h);
  }

  /** The columns of a hit line decode to its gene and its hit. */
  lemma HitColumnsParse(g: Gene, h: Hit)
    ensures HitOf(HitFields(g, h)) == Success(h)
  {
    IntColumn(HitFields(g, h)[2], h.queryStart + 1);
    IntColumn(HitFields(g, h)[4], h.subjectStart + 1);
    HitOfFields(HitFields(g, h), h);
  }

  lemma IntColumn(s: string, n: int)
    requires s == IntToString(n)
    ensures ParseInt(s) == Some(n)
  {
    ParseIntToString(n);
  }

  lemma HitLineIs(l: string, m: map<Gene, Hit>)
    requires !Skipped(l) && |Split(l, "\t")| == 6
    ensures ApplyHitLine(l, m) == NewHit(Split(l, "\t"), m)
  {
  }

  /** Reading hit lines one after the other. */
  lemma {:induction false} ApplyHitsAppend(x: seq<string>, y: seq<string>, m: map<Gene, Hit>)
    ensures ApplyHits(x + y, m) ==
      match ApplyHits(x, m)
      case Failure(e) => Failure(e)
      case Success(n) => ApplyHits(y, n)
    decreases |x|
  {
    if |x| > 0 {
      assert (x + y)[1..] == x[1..] + y;
      match ApplyHitLine(x[0], m)
      case Failure(e) =>
      case Success(n) => ApplyHitsAppend(x[1..], y, n);
    } else {
      assert x + y == y;
    }
  }

  /** `m` with the hit of gene `g`, if `hits` has one. */
  function AddIf(m: map<Gene, Hit>, hits: map<Gene, Hit>, g: Gene): map<Gene, Hit> {
    if g in hits then m[g := hits[g]] else m
  }

  lemma HitLineOfRead(hits: map<Gene, Hit>, g: Gene, m: map<Gene, Hit>)
    requires forall k :: k in hits ==> HitWritable(hits[k])
    requires g !in m
    ensures ApplyHits(HitLineOf(hits, g), m) == Success(AddIf(m, hits, g))
  {
    if g in hits {
      HitLineRead(g, hits[g], m);
    }
  }

  /** The three genes put back one by one give the map back. */
  lemma ThreeGenes(hits: map<Gene, Hit>)
    ensures AddIf(AddIf(AddIf(map[], hits, V), hits, D), hits, J) == hits
  {
    var m3 := AddIf(AddIf(AddIf(map[], hits, V), hits, D), hits, J);
    forall g
      ensures (g in m3 <==> g in hits) && (g in hits ==> m3[g] == hits[g])
    {
      match g
      case V =>
      case D =>
      case J =>
    }
  }

  lemma HitLinesRead(hits: map<Gene, Hit>)
    requires forall g :: g in hits ==> HitWritable(hits[g])
    ensures ApplyHits(HitLines(hits), map[]) == Success(hits)
  {
    var m1 := AddIf(map[], hits, V);
    var m2 := AddIf(m1, hits, D);
    assert m1.Keys <= {V};
    assert m2.Keys <= {V, D};
    HitLineOfRead(hits, V, map[]);
    HitLineOfRead(hits, D, m1);
    HitLineOfRead(hits, J, m2);
    ApplyHitsThree(HitLineOf(hits, V), HitLineOf(hits, D), HitLineOf(hits, J), map[], m1, m2, AddIf(m2, hits, J));
    ThreeGenes(hits);
  }

  lemma ApplyHitsThree(a: seq<string>, b: seq<string>, c: seq<string>,
                       m0: map<Gene, Hit>, m1: map<Gene, Hit>, m2: map<Gene, Hit>, m3: map<Gene, Hit>)
    requires ApplyHits(a, m0) == Success(m1) && ApplyHits(b, m1) == Success(m2) && ApplyHits(c, m2) == Success(m3)
    ensures ApplyHits(a + b + c, m0) == Success(m3)
  {
    ApplyHitsAppend(a, b, m0);
    ApplyHitsAppend(a + b, c, m0);
  }

  lemma HitSectionOf(hits: map<Gene, Hit>, acc: IgblastRecord)
    requires Decoded(acc) && acc.hits == map[]
    requires forall g :: g in hits ==> HitWritable(hits[g])
    ensures ApplySection(Section(HitTableStart, HitLines(hits)), acc) == Success(acc.(hits := hits))
  {
    DiffersAt(HitTableStart, QueryPrefix, 2);
    DiffersAt(HitTableStart, SummaryStart, 2);
    DiffersAt(HitTableStart, AlignmentStart, 2);
    assert HitTableStart[..|HitTableStart|] == HitTableStart;
    HitLinesRead(hits);
  }

  // Whole records.

  /** Reading sections one after the other. */
  lemma {:induction false} ApplySectionsAppend(x: seq<Section>, y: seq<Section>, rec: IgblastRecord)
    requires Decoded(rec)
    ensures ApplySections(x + y, rec) ==
      match ApplySections(x, rec)
      case Failure(e) => Failure(e)
      case Success(n) => ApplySections(y, n)
    decreases |x|
  {
    if |x| > 0 {
      assert (x + y)[1..] == x[1..] + y;
      match ApplySection(x[0], rec)
      case Failure(e) =>
      case Success(n) => ApplySectionsAppend(x[1..], y, n);
    } else {
      assert x + y == y;
    }
  }

  /** A header of a record: a header `strip` leaves alone, told apart from
      the version line by its third character. */
  predicate HeaderOk(h: string) {
    IsHeader(h, Starts) && NoEdgeSpace(h) && |h| > 2 && h[2] != RecordStart[2]
  }

  /** Data lines: non-empty, not comments, nothing for `strip` to remove. */
  predicate LinesOk(ls: seq<string>) {
    forall m :: 0 <= m < |ls| ==> |ls[m]| > 0 && ls[m][0] != '#' && NoEdgeSpace(ls[m])
  }

  predicate AllOk(secs: seq<Section>) {
    forall k :: 0 <= k < |secs| ==> HeaderOk(secs[k].header) && LinesOk(secs[k].lines)
  }

  lemma LinesOkAppend(x: seq<string>, y: seq<string>)
    requires LinesOk(x) && LinesOk(y)
    ensures LinesOk(x + y)
  {
    forall m | 0 <= m < |x + y|
      ensures |(x + y)[m]| > 0 && (x + y)[m][0] != '#' && NoEdgeSpace((x + y)[m])
    {
      if m < |x| {
        assert (x + y)[m] == x[m];
      } else {
        assert (x + y)[m] == y[m - |x|];
      }
    }
  }

  lemma AllOkAppend(x: seq<Section>, y: seq<Section>)
    requires AllOk(x) && AllOk(y)
    ensures AllOk(x + y)
  {
    forall k | 0 <= k < |x + y|
      ensures HeaderOk((x + y)[k].header) && LinesOk((x + y)[k].lines)
    {
      if k < |x| {
        assert (x + y)[k] == x[k];
      } else {
        assert (x + y)[k] == y[k - |x|];
      }
    }
  }

  lemma AllOkWellFormed(secs: seq<Section>)
    requires AllOk(secs)
    ensures WellFormed(secs, Starts)
  {
    forall k, m | 0 <= k < |secs| && 0 <= m < |secs[k].lines|
      ensures !IsHeader(secs[k].lines[m], Starts)
    {
      DataLine(secs[k].lines[m]);
    }
  }

  lemma QueryHeaderOk(name: string)
    requires |name| > 0 && NoSpace(name)
    ensures HeaderOk(QueryPrefix + name)
  {
    var h := QueryPrefix + name;
    assert h[..|QueryStart|] == QueryStart;
    assert StartsWith(h, Starts[0]);
    assert h[|h| - 1] == name[|name| - 1];
  }

  lemma FixedHeadersOk()
    ensures HeaderOk(SummaryStart) && HeaderOk(AlignmentStart) && HeaderOk(HitTableStart)
  {
    assert StartsWith(SummaryStart, Starts[1]) by { assert SummaryStart[..|SummaryStart|] == SummaryStart; }
    assert StartsWith(AlignmentStart, Starts[2]) by { assert AlignmentStart[..|AlignmentStart|] == AlignmentStart; }
    assert StartsWith(HitTableStart, Starts[3]) by { assert HitTableStart[..|HitTableStart|] == HitTableStart; }
  }

  lemma HitLineOfOk(hits: map<Gene, Hit>, g: Gene)
    requires forall k :: k in hits ==> HitWritable(hits[k])
    ensures LinesOk(HitLineOf(hits, g))
  {
    if g in hits {
      HitLineShape(g, hits[g]);
    }
  }

  lemma HitLinesOk(hits: map<Gene, Hit>)
    requires forall g :: g in hits ==> HitWritable(hits[g])
    ensures LinesOk(HitLines(hits))
  {
    HitLineOfOk(hits, V);
    HitLineOfOk(hits, D);
    HitLineOfOk(hits, J);
    LinesOkAppend(HitLineOf(hits, V), HitLineOf(hits, D));
    LinesOkAppend(HitLineOf(hits, V) + HitLineOf(hits, D), HitLineOf(hits, J));
  }

  // The four optional parts of a record, in the order they are written.

  function QueryPart(rec: IgblastRecord): seq<Section> {
    if rec.queryName.Some? then [Section(QueryPrefix + rec.queryName.value, [])] else []
  }

  function SummaryPart(rec: IgblastRecord): seq<Section> {
    if rec.chain.Some? then [Section(SummaryStart, [SummaryLine(rec)])] else []
  }

  function AlignmentPart(rec: IgblastRecord): seq<Section> {
    if rec.cdr3Start.Some? then [Section(AlignmentStart, [Cdr3Line(rec.cdr3Start.value)])] else []
  }

  function HitPart(rec: IgblastRecord): seq<Section> {
    if |rec.hits| > 0 then [Section(HitTableStart, HitLines(rec.hits))] else []
  }

  lemma RenderParts(rec: IgblastRecord)
    ensures Render(rec) == QueryPart(rec) + (SummaryPart(rec) + (AlignmentPart(rec) + HitPart(rec)))
    ensures Render(rec) == QueryPart(rec) + SummaryPart(rec) + AlignmentPart(rec) + HitPart(rec)
  {
  }

  lemma QueryPartOk(rec: IgblastRecord)
    requires Writable(rec)
    ensures AllOk(QueryPart(rec))
  {
    if rec.queryName.Some? {
      QueryHeaderOk(rec.queryName.value);
    }
  }

  lemma SummaryPartOk(rec: IgblastRecord)
    requires Writable(rec)
    ensures AllOk(SummaryPart(rec))
  {
    if rec.chain.Some? {
      FixedHeadersOk();
      SummaryLineShape(rec);
    }
  }

  lemma AlignmentPartOk(rec: IgblastRecord)
    ensures AllOk(AlignmentPart(rec))
  {
    if rec.cdr3Start.Some? {
      FixedHeadersOk();
      Cdr3LineShape(rec.cdr3Start.value);
    }
  }

  lemma HitPartOk(rec: IgblastRecord)
    requires Writable(rec)
    ensures AllOk(HitPart(rec))
  {
    if |rec.hits| > 0 {
      FixedHeadersOk();
      HitLinesOk(rec.hits);
    }
  }

  lemma RenderOk(rec: IgblastRecord)
    requires Writable(rec)
    ensures AllOk(Render(rec))
  {
    QueryPartOk(rec);
    SummaryPartOk(rec);
    AlignmentPartOk(rec);
    HitPartOk(rec);
    RenderParts(rec);
    AllOkAppend(QueryPart(rec), SummaryPart(rec));
    AllOkAppend(QueryPart(rec) + SummaryPart(rec), AlignmentPart(rec));
    AllOkAppend(QueryPart(rec) + SummaryPart(rec) + AlignmentPart(rec), HitPart(rec));
  }

  lemma QueryPartRead(rec: IgblastRecord)
    requires Writable(rec)
    ensures ApplySections(QueryPart(rec), Unset) == Success(Unset.(queryName := rec.queryName))
  {
    if rec.queryName.Some? {
      QuerySectionOf(rec.queryName.value, Unset);
    }
  }

  lemma SummaryPartRead(rec: IgblastRecord, acc: IgblastRecord)
    requires Writable(rec) && Decoded(acc)
    requires rec.chain.None? ==> WithSummary(acc, rec) == acc
    ensures ApplySections(SummaryPart(rec), acc) == Success(WithSummary(acc, rec))
  {
    if rec.chain.Some? {
      SummarySectionOf(rec, acc);
    }
  }

  lemma AlignmentPartRead(rec: IgblastRecord, acc: IgblastRecord)
    requires Decoded(acc)
    requires rec.cdr3Start.None? ==> acc.cdr3Start.None?
    ensures ApplySections(AlignmentPart(rec), acc) == Success(acc.(cdr3Start := rec.cdr3Start))
  {
    if rec.cdr3Start.Some? {
      AlignmentSectionOf(rec.cdr3Start.value, acc);
    }
  }

  lemma HitPartRead(rec: IgblastRecord, acc: IgblastRecord)
    requires Writable(rec) && Decoded(acc) && acc.hits == map[]
    ensures ApplySections(HitPart(rec), acc) == Success(acc.(hits := rec.hits))
  {
    if |rec.hits| > 0 {
      HitSectionOf(rec.hits, acc);
    } else {
      assert rec.hits == map[];
    }
  }

  /** The sections of a record, read in order from the unset record, give
      the record. */
  lemma ReadSections(rec: IgblastRecord)
    requires Writable(rec)
    ensures ApplySections(Render(rec), Unset) == Success(rec)
  {
    var q, s, a, h := QueryPart(rec), SummaryPart(rec), AlignmentPart(rec), HitPart(rec);
    RenderParts(rec);
    var r1 := Unset.(queryName := rec.queryName);
    var r2 := WithSummary(r1, rec);
    var r3 := r2.(cdr3Start := rec.cdr3Start);
    QueryPartRead(rec);
    SummaryPartRead(rec, r1);
    AlignmentPartRead(rec, r2);
    HitPartRead(rec, r3);
    ApplySectionsAppend(a, h, r2);
    ApplySectionsAppend(s, a + h, r1);
    ApplySectionsAppend(q, s + (a + h), Unset);
    assert r3.(hits := rec.hits) == rec;
  }

  /** Reading what is written for a record gives the record back: the
      converse of `ParseIgblastRecord`'s contract. */
  lemma ParseRender(rec: IgblastRecord)
    requires Writable(rec)
    ensures ParseIgblastRecord(RenderLines(rec)) == Success(rec)
  {
    RenderOk(rec);
    AllOkWellFormed(Render(rec));
    SplitFlatten(Render(rec), Starts);
    ReadSections(rec);
    RecordOf(RenderLines(rec), Render(rec), rec);
  }

  lemma RecordOf(lines: seq<string>, secs: seq<Section>, rec: IgblastRecord)
    requires SplitBySection(lines, Starts) == Success(secs)
    requires ApplySections(secs, Unset) == Success(rec) && Checked(rec)
    ensures ParseIgblastRecord(lines) == Success(rec)
  {
  }

  /** No line written for a record looks like the start of a new record. */
  lemma RecordLinesOk(rec: IgblastRecord)
    requires Writable(rec)
    ensures forall i :: 0 <= i < |RenderLines(rec)| ==>
      NoEdgeSpace(RenderLines(rec)[i]) && !IsHeader(RenderLines(rec)[i], [RecordStart])
  {
    var rs := Render(rec);
    var p := (l: string) => NoEdgeSpace(l) && !IsHeader(l, [RecordStart]);
    RenderOk(rec);
    forall j | 0 <= j < |rs|
      ensures p(rs[j].header)
    {
      DiffersAt(rs[j].header, RecordStart, 2);
    }
    forall j, n | 0 <= j < |rs| && 0 <= n < |rs[j].lines|
      ensures p(rs[j].lines[n])
    {
      DataLine(rs[j].lines[n]);
    }
    FlattenAll(rs, p);
  }

  /** The version line of a file is a header that `strip` leaves alone. */
  lemma VersionHeader()
    ensures IsHeader(Version, [RecordStart]) && NoEdgeSpace(Version)
  {
    assert Version[..|RecordStart|] == RecordStart;
    assert StartsWith(Version, [RecordStart][0]);
  }

  /** Reading a written file gives every record back, in order, and no
      error: the converse of `ParseIgblast`'s contract. */
  lemma ParseRenderFile(recs: seq<IgblastRecord>)
    requires forall k :: 0 <= k < |recs| ==> Writable(recs[k])
    ensures ParseIgblast(RenderFile(recs)) == IgblastRun(recs, None)
  {
    var secs := RecordSections(recs);
    VersionHeader();
    forall k, m | 0 <= k < |secs| && 0 <= m < |secs[k].lines|
      ensures !IsHeader(secs[k].lines[m], [RecordStart]) && NoEdgeSpace(secs[k].lines[m])
    {
      RecordLinesOk(recs[k]);
    }
    SplitFlatten(secs, [RecordStart]);
    RecordsRead(recs);
  }

  lemma RecordsRead(recs: seq<IgblastRecord>)
    requires forall k :: 0 <= k < |recs| ==> Writable(recs[k])
    ensures ParseRecords(RecordSections(recs)) == IgblastRun(recs, None)
  {
    var secs := RecordSections(recs);
    forall k | 0 <= k < |recs|
      ensures ParseIgblastRecord(secs[k].lines) == Success(recs[k])
    {
      ParseRender(recs[k]);
    }
    RecordsOf(secs, recs);
  }

  /** Sections under the version line that each parse to the next record
      give all the records and no error. */
  lemma RecordsOf(secs: seq<Section>, recs: seq<IgblastRecord>)
    requires |secs| == |recs|
    requires forall k :: 0 <= k < |secs| ==> secs[k].header == Version && ParseIgblastRecord(secs[k].lines) == Success(recs[k])
    ensures ParseRecords(secs) == IgblastRun(recs, None)
  {
    var rs := seq(|secs|, k requires 0 <= k < |secs| => RecordIn(secs[k]));
    assert forall k :: 0 <= k < |rs| ==> rs[k] == Success(recs[k]);
    CollectAll(rs, recs);
  }
}

=== FILE: sections.dfy ===
/** `split_by_section` of blastiger.py: a stream of lines cut into sections
    at the lines that start with one of the given header prefixes, much as
    `str.split` cuts a string at a separator. */
module Sections {
  import opened Wrappers
  import opened Text

  /** A header line and the lines after it, up to the next header. */
  datatype Section = Section(header: string, lines: seq<string>)

  /** Raised for a line before the first header. The source raises
      `ParseError`, a name blastiger.py never defines, so what Python really
      raises is `NameError`; either way the stream is rejected there. */
  datatype SectionError = ExpectedHeader(line: string)

  /** `line` starts with one of `starts`. */
  predicate IsHeader(line: string, starts: seq<string>) {
    exists k :: 0 <= k < |starts| && StartsWith(line, starts[k])
  }

  /** Every line stripped, as the loop does before looking at it. */
  function StripAll(lines: seq<string>): (r: seq<string>)
    ensures |r| == |lines|
    ensures forall k :: 0 <= k < |r| ==> r[k] == Strip(lines[k])
  {
    seq(|lines|, k requires 0 <= k < |lines| => Strip(lines[k]))
  }

  /** The lines of the sections, each header followed by its lines. */
  function Flatten(secs: seq<Section>): seq<string> {
    if |secs| == 0 then [] else [secs[0].header] + secs[0].lines + Flatten(secs[1..])
  }

  /** The index of the first header at or after `i`, or `|ls|`. */
  function NextHeader(ls: seq<string>, starts: seq<string>, i: nat): (r: nat)
    requires i <= |ls|
    ensures i <= r <= |ls|
    ensures forall k :: i <= k < r ==> !IsHeader(ls[k], starts)
    ensures r < |ls| ==> IsHeader(ls[r], starts)
    decreases |ls| - i
  {
    if i == |ls| || IsHeader(ls[i], starts) then i else NextHeader(ls, starts, i + 1)
  }

  /** Sections of stripped lines that start with a header. */
  function Group(ls: seq<string>, starts: seq<string>): (secs: seq<Section>)
    requires |ls| == 0 || IsHeader(ls[0], starts)
    ensures Flatten(secs) == ls
    ensures forall k :: 0 <= k < |secs| ==> IsHeader(secs[k].header, starts)
    ensures forall k, m :: 0 <= k < |secs| && 0 <= m < |secs[k].lines| ==> !IsHeader(secs[k].lines[m], starts)
    decreases |ls|
  {
    if |ls| == 0 then []
    else
      var e := NextHeader(ls, starts, 1);
      var rest := Group(ls[e..], starts);
      var secs := [Section(ls[0], ls[1..e])] + rest;
      assert secs[1..] == rest;
      assert ls == [ls[0]] + ls[1..e] + ls[e..];
      secs
  }

  /** `list(split_by_section(lines, starts))`. A stream whose first stripped
      line is not a header is rejected; otherwise the headers and lines of
      the sections, in order, are the stripped input, every header starts
      with one of `starts`, and no other line does. */
  function SplitBySection(lines: seq<string>, starts: seq<string>): (r: Result<seq<Section>, SectionError>)
    ensures r.Failure? <==> |lines| > 0 && !IsHeader(Strip(lines[0]), starts)
    ensures r.Failure? ==> r.error == ExpectedHeader(Strip(lines[0]))
    ensures |lines| == 0 ==> r == Success([])
    ensures r.Success? ==> Flatten(r.value) == StripAll(lines)
    ensures r.Success? ==> forall k :: 0 <= k < |r.value| ==> IsHeader(r.value[k].header, starts)
    ensures r.Success? ==> forall k, m :: 0 <= k < |r.value| && 0 <= m < |r.value[k].lines| ==>
      !IsHeader(r.value[k].lines[m], starts)
  {
    var ls := StripAll(lines);
    if |ls| > 0 && !IsHeader(ls[0], starts) then Failure(ExpectedHeader(ls[0]))
    else Success(Group(ls, starts))
  }

  /** The sections one would write: headers are headers, body lines are not,
      and no line has whitespace at either end. */
  ghost predicate WellFormed(secs: seq<Section>, starts: seq<string>) {
    && (forall k :: 0 <= k < |secs| ==> IsHeader(secs[k].header, starts) && NoEdgeSpace(secs[k].header))
    && (forall k, m :: 0 <= k < |secs| && 0 <= m < |secs[k].lines| ==>
          !IsHeader(secs[k].lines[m], starts) && NoEdgeSpace(secs[k].lines[m]))
  }

  lemma StripAllFixed(ls: seq<string>)
    requires forall k :: 0 <= k < |ls| ==> NoEdgeSpace(ls[k])
    ensures StripAll(ls) == ls
  {
    forall k | 0 <= k < |ls|
      ensures StripAll(ls)[k] == ls[k]
    {
      StripFixed(ls[k]);
    }
  }

  lemma WellFormedTail(secs: seq<Section>, starts: seq<string>)
    requires |secs| > 0 && WellFormed(secs, starts)
    ensures WellFormed(secs[1..], starts)
  {
    forall k, m | 0 <= k < |secs[1..]| && 0 <= m < |secs[1..][k].lines|
      ensures !IsHeader(secs[1..][k].lines[m], starts) && NoEdgeSpace(secs[1..][k].lines[m])
    {
      assert secs[1..][k] == secs[k + 1];
    }
  }

  /** Every line of well-formed sections is free of edge whitespace, and the
      first one is a header. */
  lemma {:induction false} FlattenEdgeFree(secs: seq<Section>, starts: seq<string>)
    requires WellFormed(secs, starts)
    ensures forall k :: 0 <= k < |Flatten(secs)| ==> NoEdgeSpace(Flatten(secs)[k])
    ensures |secs| > 0 ==> IsHeader(Flatten(secs)[0], starts)
    decreases |secs|
  {
    if |secs| > 0 {
      WellFormedTail(secs, starts);
      FlattenEdgeFree(secs[1..], starts);
      var f := Flatten(secs);
      var h := [secs[0].header] + secs[0].lines;
      var t := Flatten(secs[1..]);
      assert f == h + t;
      forall k | 0 <= k < |f|
        ensures NoEdgeSpace(f[k])
      {
        if k == 0 {
        } else if k < |h| {
          assert f[k] == secs[0].lines[k - 1];
        } else {
          assert f[k] == t[k - |h|];
        }
      }
    }
  }

  lemma {:induction false} GroupFlatten(secs: seq<Section>, starts: seq<string>)
    requires WellFormed(secs, starts)
    ensures |Flatten(secs)| == 0 || IsHeader(Flatten(secs)[0], starts)
    ensures Group(Flatten(secs), starts) == secs
    decreases |secs|
  {
    FlattenEdgeFree(secs, starts);
    if |secs| > 0 {
      WellFormedTail(secs, starts);
      var f := Flatten(secs);
      var t := Flatten(secs[1..]);
      var n := |secs[0].lines|;
      assert f == [secs[0].header] + secs[0].lines + t;
      FlattenEdgeFree(secs[1..], starts);
      HeaderAfterLines(f, secs[0].header, secs[0].lines, t, starts);
      assert f[1 + n..] == t;
      assert f[1..1 + n] == secs[0].lines;
      GroupFlatten(secs[1..], starts);
      GroupCons(f, starts, 1 + n);
      assert secs == [secs[0]] + secs[1..];
    }
  }

  /** The first section runs from the first line to the next header. */
  lemma GroupCons(ls: seq<string>, starts: seq<string>, e: nat)
    requires |ls| > 0 && IsHeader(ls[0], starts)
    requires 1 <= e <= |ls| && NextHeader(ls, starts, 1) == e
    ensures Group(ls, starts) == [Section(ls[0], ls[1..e])] + Group(ls[e..], starts)
  {
  }

  /** In a header, its lines and then sections, the next header after the
      first line is the one just past the lines. */
  lemma HeaderAfterLines(f: seq<string>, header: string, lines: seq<string>, t: seq<string>, starts: seq<string>)
    requires f == [header] + lines + t
    requires forall m :: 0 <= m < |lines| ==> !IsHeader(lines[m], starts)
    requires |t| == 0 || IsHeader(t[0], starts)
    ensures NextHeader(f, starts, 1) == 1 + |lines|
  {
    var n := |lines|;
    forall k | 1 <= k < 1 + n
      ensures !IsHeader(f[k], starts)
    {
      assert f[k] == lines[k - 1];
    }
    if 1 + n < |f| {
      assert f[1 + n] == t[0];
    }
    NextHeaderIs(f, starts, 1, 1 + n);
  }

  lemma NextHeaderIs(ls: seq<string>, starts: seq<string>, i: nat, e: nat)
    requires i <= e <= |ls|
    requires forall k :: i <= k < e ==> !IsHeader(ls[k], starts)
    requires e < |ls| ==> IsHeader(ls[e], starts)
    ensures NextHeader(ls, starts, i) == e
  {
  }

  /** A property of every header and every line of the sections holds of
      every line of their flattening. */
  lemma {:induction false} FlattenAll(secs: seq<Section>, p: string -> bool)
    requires forall k :: 0 <= k < |secs| ==> p(secs[k].header)
    requires forall k, m :: 0 <= k < |secs| && 0 <= m < |secs[k].lines| ==> p(secs[k].lines[m])
    ensures forall i :: 0 <= i < |Flatten(secs)| ==> p(Flatten(secs)[i])
    decreases |secs|
  {
    if |secs| > 0 {
      var f := Flatten(secs);
      var h := [secs[0].header] + secs[0].lines;
      var t := Flatten(secs[1..]);
      assert f == h + t;
      forall k, m | 0 <= k < |secs[1..]| && 0 <= m < |secs[1..][k].lines|
        ensures p(secs[1..][k].lines[m])
      {
        assert secs[1..][k] == secs[k + 1];
      }
      FlattenAll(secs[1..], p);
      forall i | 0 <= i < |f|
        ensures p(f[i])
      {
        if i == 0 {
        } else if i < |h| {
          assert f[i] == secs[0].lines[i - 1];
        } else {
          assert f[i] == t[i - |h|];
        }
      }
    }
  }

  /** The converse of `SplitBySection`'s contract: splitting the lines of
      well-formed sections gives those sections back. */
  lemma SplitFlatten(secs: seq<Section>, starts: seq<string>)
    requires WellFormed(secs, starts)
    ensures SplitBySection(Flatten(secs), starts) == Success(secs)
  {
    FlattenEdgeFree(secs, starts);
    StripAllFixed(Flatten(secs));
    GroupFlatten(secs, starts);
  }
}

=== FILE: select.dfy ===
/** What `main` in group.py emits for one cluster: the representative read or
    the consensus, the counters it bumps, and the normalised name. */
module Representative {
  import opened Wrappers
  import opened Text
  import opened Numerals
  import opened Cluster

  /** Clusters with fewer reads than this keep their first read. */
  const MinConsensusSequences: nat := 3

  /** Position of the first occurrence of `x` in `xs`. */
  function FirstIndex(xs: seq<string>, x: string): (r: nat)
    requires x in xs
    ensures r < |xs| && xs[r] == x
    ensures forall k :: 0 <= k < r ==> xs[k] != x
  {
    if xs[0] == x then 0
    else
      var r := 1 + FirstIndex(xs[1..], x);
      assert forall k :: 1 <= k < r ==> xs[k] == xs[1..][k - 1];
      r
  }

  /** After the first `i` elements of `xs` have been looked at, `best` has
      the highest count among them and, among those with that count, the
      earliest first occurrence. */
  ghost predicate Leading(xs: seq<string>, i: nat, best: string) {
    && 0 < i <= |xs| && best in xs[..i]
    && (forall k :: 0 <= k < i ==> multiset(xs)[xs[k]] <= multiset(xs)[best])
    && (forall k :: 0 <= k < i && multiset(xs)[xs[k]] == multiset(xs)[best] ==>
          FirstIndex(xs, best) <= FirstIndex(xs, xs[k]))
  }

  lemma LeadingStep(xs: seq<string>, i: nat, best: string)
    requires Leading(xs, i, best) && i < |xs|
    ensures Leading(xs, i + 1, if multiset(xs)[xs[i]] > multiset(xs)[best] then xs[i] else best)
  {
    assert xs[..i + 1] == xs[..i] + [xs[i]];
    if multiset(xs)[xs[i]] > multiset(xs)[best] {
      LeadingOvertaken(xs, i, best);
    } else {
      LeadingKept(xs, i, best);
    }
  }

  /** A more frequent element takes the lead. */
  lemma LeadingOvertaken(xs: seq<string>, i: nat, best: string)
    requires Leading(xs, i, best) && i < |xs|
    requires multiset(xs)[xs[i]] > multiset(xs)[best]
    ensures Leading(xs, i + 1, xs[i])
  {
    var x := xs[i];
    assert x == xs[..i + 1][i];
    forall k | 0 <= k < i + 1
      ensures multiset(xs)[xs[k]] <= multiset(xs)[x]
      ensures multiset(xs)[xs[k]] == multiset(xs)[x] ==> FirstIndex(xs, x) <= FirstIndex(xs, xs[k])
    {
      if k < i {
        assert multiset(xs)[xs[k]] <= multiset(xs)[best];
      }
    }
  }

  /** An element no more frequent than the leader leaves it in the lead:
      on a tie the leader was seen first. */
  lemma LeadingKept(xs: seq<string>, i: nat, best: string)
    requires Leading(xs, i, best) && i < |xs|
    requires multiset(xs)[xs[i]] <= multiset(xs)[best]
    ensures Leading(xs, i + 1, best)
  {
    var x := xs[i];
    assert xs[..i + 1] == xs[..i] + [x];
    var j :| 0 <= j < i && xs[..i][j] == best;
    assert xs[j] == best;
    assert FirstIndex(xs, best) <= j;
    if multiset(xs)[x] == multiset(xs)[best] {
      if x in xs[..i] {
        var m :| 0 <= m < i && xs[..i][m] == x;
        assert xs[m] == x;
        assert FirstIndex(xs, best) <= FirstIndex(xs, xs[m]);
      } else {
        assert forall k :: 0 <= k < i ==> xs[k] != x by {
          forall k | 0 <= k < i
            ensures xs[k] != x
          {
            assert xs[k] == xs[..i][k];
          }
        }
        assert FirstIndex(xs, x) == i;
      }
    }
  }

  /** The scan of `max` over the counter's keys, from element `i` on. */
  function MostCommonFrom(xs: seq<string>, i: nat, best: string): (r: string)
    requires Leading(xs, i, best)
    ensures Leading(xs, |xs|, r)
    decreases |xs| - i
  {
    if i == |xs| then best
    else
      LeadingStep(xs, i, best);
      MostCommonFrom(xs, i + 1, if multiset(xs)[xs[i]] > multiset(xs)[best] then xs[i] else best)
  }

  /** `Counter(xs).most_common(1)[0][0]`: a value of `xs` occurring most
      often, and among those the one seen first, since a `Counter` keeps its
      keys in first-insertion order and `max` returns the first maximum. */
  function MostCommon(xs: seq<string>): (r: string)
    requires |xs| > 0
    ensures r in xs
    ensures forall y :: y in xs ==> multiset(xs)[y] <= multiset(xs)[r]
    ensures forall y :: y in xs && multiset(xs)[y] == multiset(xs)[r] ==> FirstIndex(xs, r) <= FirstIndex(xs, y)
  {
    assert xs[..1] == [xs[0]];
    var r := MostCommonFrom(xs, 1, xs[0]);
    assert xs[..|xs|] == xs;
    assert forall y :: y in xs ==> xs[FirstIndex(xs, y)] == y;
    r
  }

  /** The three properties of `MostCommon` pin its result down: any value
      with them is the one `MostCommon` returns. */
  lemma MostCommonDetermined(xs: seq<string>, r: string)
    requires |xs| > 0 && r in xs
    requires forall y :: y in xs ==> multiset(xs)[y] <= multiset(xs)[r]
    requires forall y :: y in xs && multiset(xs)[y] == multiset(xs)[r] ==> FirstIndex(xs, r) <= FirstIndex(xs, y)
    ensures MostCommon(xs) == r
  {
    var m := MostCommon(xs);
    assert multiset(xs)[m] == multiset(xs)[r];
    assert FirstIndex(xs, m) == FirstIndex(xs, r);
  }

  /** How a cluster's representative was chosen, which is also the counter
      it bumps: `TooFew` clusters are below the consensus size, `Ambiguous`
      ones had an `N` in their consensus. */
  datatype Kind = TooFew | Ambiguous | Consensus

  /** What one cluster contributes before its name is normalised; `cdr3` is
      `None` when reads are not grouped by CDR3. */
  datatype Choice = Choice(kind: Kind, name: string, sequence: string, cdr3: Option<string>)

  /** The running counters of `main`. */
  datatype Counters = Counters(tooFew: nat, nClusters: nat, nSingletons: nat, nConsensus: nat, nAmbiguous: nat)

  const NoCounts := Counters(0, 0, 0, 0, 0)

  /** Once every cluster counted in `nClusters` has been given a
      representative, each was counted once as too small, as a consensus or
      as ambiguous, and singletons are among the too small ones. */
  predicate Balanced(c: Counters) {
    c.tooFew + c.nConsensus + c.nAmbiguous == c.nClusters && c.nSingletons <= c.tooFew
  }

  /** The consensus routine of the sequence library, given the cluster as
      (name, sequence) pairs in cluster order. */
  type Consensus = seq<(string, string)> -> string

  /** `{s.name: s.sequence for s in cluster}` for a cluster with distinct
      names, in insertion order. */
  function NamedSequences(cluster: seq<Read>): (r: seq<(string, string)>)
    ensures |r| == |cluster|
    ensures forall k :: 0 <= k < |r| ==> r[k] == (cluster[k].name, cluster[k].sequence)
  {
    seq(|cluster|, k requires 0 <= k < |cluster| => (cluster[k].name, cluster[k].sequence))
  }

  /** The CDR3 keys of a cluster, in cluster order. */
  function Keys(cluster: seq<Read>): (r: seq<string>)
    ensures |r| == |cluster|
    ensures forall k :: 0 <= k < |r| ==> r[k] == cluster[k].cdr3
  {
    seq(|cluster|, k requires 0 <= k < |cluster| => cluster[k].cdr3)
  }

  /** `read` emitted as it is. */
  function Keep(kind: Kind, read: Read, byCdr3: bool): Choice {
    Choice(kind, read.name, read.sequence, if byCdr3 then Some(read.cdr3) else None)
  }

  /** `'consensus{}'.format(k)`. */
  function ConsensusName(k: nat): string {
    "consensus" + NatToString(k)
  }

  /** The policy of lines 259-286 for one cluster: a cluster too small for a
      consensus, or whose consensus has an ambiguous base `N`, emits its first
      read; otherwise the consensus is emitted under the next consensus
      number, with the most common CDR3 of the cluster. Exactly one of the
      three counters moves, by one, and the singleton counter moves with
      clusters of one read. */
  function SelectRepresentative(cluster: seq<Read>, consensus: Consensus, byCdr3: bool, c: Counters): (r: (Choice, Counters))
    requires |cluster| > 0
    ensures var (choice, d) := r;
      && (choice.kind == TooFew <==> |cluster| < MinConsensusSequences)
      && (choice.kind == Ambiguous <==>
            |cluster| >= MinConsensusSequences && 'N' in consensus(NamedSequences(cluster)))
    ensures var (choice, d) := r;
      && d.nClusters == c.nClusters
      && d.tooFew == c.tooFew + (if choice.kind == TooFew then 1 else 0)
      && d.nAmbiguous == c.nAmbiguous + (if choice.kind == Ambiguous then 1 else 0)
      && d.nConsensus == c.nConsensus + (if choice.kind == Consensus then 1 else 0)
      && d.nSingletons == c.nSingletons + (if |cluster| == 1 then 1 else 0)
    ensures var (choice, d) := r;
      choice.kind != Consensus ==> choice == Keep(choice.kind, cluster[0], byCdr3)
    ensures var (choice, d) := r;
      choice.kind == Consensus ==>
        && choice.name == ConsensusName(d.nConsensus)
        && choice.sequence == consensus(NamedSequences(cluster))
        && 'N' !in choice.sequence
        && choice.cdr3 == (if byCdr3 then Some(MostCommon(Keys(cluster))) else None)
  {
    var singles := c.nSingletons + (if |cluster| == 1 then 1 else 0);
    if |cluster| < MinConsensusSequences then
      (Keep(TooFew, cluster[0], byCdr3), c.(tooFew := c.tooFew + 1, nSingletons := singles))
    else
      var cons := consensus(NamedSequences(cluster));
      if 'N' in cons then
        (Keep(Ambiguous, cluster[0], byCdr3), c.(nAmbiguous := c.nAmbiguous + 1, nSingletons := singles))
      else
        var k := c.nConsensus + 1;
        (Choice(Consensus, ConsensusName(k), cons, if byCdr3 then Some(MostCommon(Keys(cluster))) else None),
         c.(nConsensus := k, nSingletons := singles))
  }

  /** `name.split(maxsplit=1)[0]` with one trailing `;` then removed; `None`
      is the `IndexError` of a name without any token. */
  function NormalizeName(name: string): (r: Option<string>)
    ensures r.None? <==> AllSpace(name)
    ensures r.Some? ==> NoSpace(r.value)
  {
    var w :- FirstToken(name);
    Some(if EndsWith(w, ";") then w[..|w| - 1] else w)
  }

  /** The name a FASTA header `>w;...` or `>w ...` was written with comes
      back: whatever follows the first whitespace is dropped, and so is the
      one `;` that ends the word. */
  lemma NormalizeNameOf(lead: string, w: string, tail: string)
    requires AllSpace(lead) && NoSpace(w)
    requires |tail| == 0 || IsSpace(tail[0])
    ensures NormalizeName(lead + w + ";" + tail) == Some(w)
    ensures |w| > 0 && !EndsWith(w, ";") ==> NormalizeName(lead + w + tail) == Some(w)
  {
    var w' := w + ";";
    assert NoSpace(w') by { assert forall i :: 0 <= i < |w| ==> w'[i] == w[i]; }
    assert lead + w + ";" + tail == lead + w' + tail;
    FirstTokenOf(lead, w', tail);
    assert EndsWith(w', ";") && w'[..|w'| - 1] == w;
    if |w| > 0 {
      FirstTokenOf(lead, w, tail);
    }
  }

  /** Consensus names survive normalisation unchanged. */
  lemma ConsensusNameNormal(k: nat)
    ensures NormalizeName(ConsensusName(k)) == Some(ConsensusName(k))
  {
    var n := ConsensusName(k);
    var d := NatToString(k);
    assert NoSpace(n) by {
      forall i | 0 <= i < |n|
        ensures !IsSpace(n[i])
      {
        if i >= 9 {
          assert n[i] == d[i - 9];
        }
      }
    }
    assert n[|n| - 1] == d[|d| - 1];
    assert !EndsWith(n, ";") by { assert n[|n| - 1..] == [n[|n| - 1]]; }
    assert "" + n + "" == n;
    NormalizeNameOf("", n, "");
  }
}

=== FILE: text.dfy ===
/** The handful of Python `str` operations the grouping engine and the IgBLAST
    parser rely on, over `string` (a sequence of Unicode scalar values). */
module Text {
  import opened Wrappers

  /** Python's `str.isspace` for one character: the set `str.strip()` and
      `str.split()` without arguments treat as whitespace. */
  predicate IsSpace(c: char) {
    var n := c as int;
    || 9 <= n <= 13
    || 28 <= n <= 32
    || n == 0x85 || n == 0xA0 || n == 0x1680
    || 0x2000 <= n <= 0x200A
    || n == 0x2028 || n == 0x2029 || n == 0x202F || n == 0x205F || n == 0x3000
  }

  predicate AllSpace(s: string) {
    forall i :: 0 <= i < |s| ==> IsSpace(s[i])
  }

  predicate NoSpace(s: string) {
    forall i :: 0 <= i < |s| ==> !IsSpace(s[i])
  }

  /** Neither end of `s` is whitespace: the strings `strip()` leaves alone. */
  predicate NoEdgeSpace(s: string) {
    |s| == 0 || (!IsSpace(s[0]) && !IsSpace(s[|s| - 1]))
  }

  predicate StartsWith(s: string, prefix: string) {
    |prefix| <= |s| && s[..|prefix|] == prefix
  }

  predicate EndsWith(s: string, suffix: string) {
    |suffix| <= |s| && s[|s| - |suffix|..] == suffix
  }

  /** Python's `str.lstrip()`. */
  function LStrip(s: string): (r: string)
    ensures |r| <= |s| && r == s[|s| - |r|..]
    ensures AllSpace(s[..|s| - |r|])
    ensures |r| > 0 ==> !IsSpace(r[0])
  {
    if |s| > 0 && IsSpace(s[0]) then LStrip(s[1..]) else s
  }

  /** Python's `str.rstrip()`. */
  function RStrip(s: string): (r: string)
    ensures |r| <= |s| && r == s[..|r|]
    ensures AllSpace(s[|r|..])
    ensures |r| > 0 ==> !IsSpace(r[|r| - 1])
  {
    if |s| > 0 && IsSpace(s[|s| - 1]) then RStrip(s[..|s| - 1]) else s
  }

  /** Python's `str.strip()`: what is left has no whitespace at either end;
      `StripOf` says what it removes. */
  function Strip(s: string): (r: string)
    ensures NoEdgeSpace(r)
  {
    var l := LStrip(s);
    var r := RStrip(l);
    assert |r| > 0 ==> r[0] == l[0];
    r
  }

  lemma StripFixed(s: string)
    requires NoEdgeSpace(s)
    ensures Strip(s) == s
  {
  }

  /** `sep` occurs in `s` at offset `i`. */
  predicate OccursAt(s: string, sep: string, i: nat) {
    i + |sep| <= |s| && s[i..i + |sep|] == sep
  }

  /** The first offset at or after `i` where `sep` occurs (`str.find`). */
  function FindFrom(s: string, sep: string, i: nat): (r: Option<nat>)
    requires i <= |s|
    ensures r.Some? ==> i <= r.value && OccursAt(s, sep, r.value)
    ensures r.Some? ==> forall k :: i <= k < r.value ==> !OccursAt(s, sep, k)
    ensures r.None? ==> forall k: nat :: i <= k ==> !OccursAt(s, sep, k)
    decreases |s| - i
  {
    if OccursAt(s, sep, i) then Some(i)
    else if i == |s| then None
    else FindFrom(s, sep, i + 1)
  }

  /** Python's `sub in s` for strings: substring containment. */
  predicate Contains(s: string, sub: string) {
    FindFrom(s, sub, 0).Some?
  }

  lemma ContainsIff(s: string, sub: string)
    ensures Contains(s, sub) <==> exists k: nat :: OccursAt(s, sub, k)
  {
    if Contains(s, sub) {
      assert OccursAt(s, sub, FindFrom(s, sub, 0).value);
    }
  }

  /** Python's `sep.join(parts)`. */
  function Join(parts: seq<string>, sep: string): string {
    if |parts| == 0 then ""
    else if |parts| == 1 then parts[0]
    else parts[0] + sep + Join(parts[1..], sep)
  }

  /** Python's `s.split(sep)` for a non-empty separator: the pieces between
      the left-to-right, non-overlapping occurrences of `sep`. */
  function Split(s: string, sep: string): (parts: seq<string>)
    requires |sep| > 0
    ensures |parts| >= 1
    ensures Join(parts, sep) == s
    ensures forall k :: 0 <= k < |parts| ==> !Contains(parts[k], sep)
    decreases |s|
  {
    match FindFrom(s, sep, 0)
    case None => [s]
    case Some(i) =>
      var rest := Split(s[i + |sep|..], sep);
      SplitStep(s, sep, i);
      var parts := [s[..i]] + rest;
      assert parts[1..] == rest;
      parts
  }

  /** The piece before the first separator holds none, and the string is
      that piece, the separator and the remainder. */
  lemma SplitStep(s: string, sep: string, i: nat)
    requires |sep| > 0 && FindFrom(s, sep, 0) == Some(i)
    ensures i + |sep| <= |s|
    ensures !Contains(s[..i], sep)
    ensures s == s[..i] + sep + s[i + |sep|..]
  {
    assert OccursAt(s, sep, i);
    PrefixFree(s, sep, i);
    assert s == s[..i] + s[i..i + |sep|] + s[i + |sep|..];
  }

  /** A prefix ending before the first occurrence of `sep` contains none. */
  lemma PrefixFree(s: string, sep: string, i: nat)
    requires |sep| > 0 && i <= |s|
    requires forall k :: 0 <= k < i ==> !OccursAt(s, sep, k)
    ensures !Contains(s[..i], sep)
  {
    var head := s[..i];
    forall k: nat | OccursAt(head, sep, k)
      ensures false
    {
      assert k < i;
      assert head[k..k + |sep|] == s[k..k + |sep|];
      assert OccursAt(s, sep, k);
    }
    ContainsIff(head, sep);
  }

  /** With a one-character separator that no field contains, splitting a
      join recovers the fields: the inverse direction of `Split`'s contract. */
  lemma {:induction false} SplitJoin(parts: seq<string>, c: char)
    requires |parts| >= 1
    requires forall k :: 0 <= k < |parts| ==> c !in parts[k]
    ensures Split(Join(parts, [c]), [c]) == parts
    decreases |parts|
  {
    var s := Join(parts, [c]);
    if |parts| == 1 {
      NoOccurrence(parts[0], c);
    } else {
      var rest := Join(parts[1..], [c]);
      assert s == parts[0] + [c] + rest;
      var i := |parts[0]|;
      assert OccursAt(s, [c], i);
      forall k | 0 <= k < i
        ensures !OccursAt(s, [c], k)
      {
        assert s[k] == parts[0][k];
      }
      FirstOccurrence(s, [c], i);
      assert s[i + 1..] == rest;
      SplitJoin(parts[1..], c);
    }
  }

  lemma NoOccurrence(s: string, c: char)
    requires c !in s
    ensures FindFrom(s, [c], 0).None?
  {
    forall k: nat
      ensures !OccursAt(s, [c], k)
    {
      if k + 1 <= |s| {
        assert s[k..k + 1][0] == s[k];
      }
    }
  }

  lemma FirstOccurrence(s: string, sep: string, i: nat)
    requires OccursAt(s, sep, i)
    requires forall k :: 0 <= k < i ==> !OccursAt(s, sep, k)
    ensures FindFrom(s, sep, 0) == Some(i)
  {
  }

  /** Where `sep` occurs at all, `split` gives at least two pieces. */
  lemma SplitHasTwo(s: string, sep: string, i: nat)
    requires |sep| > 0 && OccursAt(s, sep, i)
    ensures |Split(s, sep)| >= 2
  {
    assert FindFrom(s, sep, 0).Some?;
  }

  /** Splitting `a + sep + b` gives `[a, b]` when `a` lacks the separator's
      first character and `b` lacks the separator. */
  lemma SplitPair(a: string, sep: string, b: string)
    requires |sep| > 0 && sep[0] !in a && !Contains(b, sep)
    ensures Split(a + sep + b, sep) == [a, b]
  {
    var s := a + sep + b;
    assert OccursAt(s, sep, |a|) by { assert s[|a|..|a| + |sep|] == sep; }
    forall k | 0 <= k < |a|
      ensures !OccursAt(s, sep, k)
    {
      assert s[k] == a[k];
    }
    FirstOccurrence(s, sep, |a|);
    assert s[|a| + |sep|..] == b;
  }

  /** A string that differs from `prefix` at a position both have does not
      start with it. */
  lemma DiffersAt(s: string, prefix: string, i: nat)
    requires i < |prefix| && i < |s| && s[i] != prefix[i]
    ensures !StartsWith(s, prefix)
  {
    if |prefix| <= |s| {
      assert s[..|prefix|][i] == s[i];
    }
  }

  /** Text free of whitespace holds no separator that has whitespace in it. */
  lemma NoSpaceLacks(s: string, sep: string, j: nat)
    requires NoSpace(s) && j < |sep| && IsSpace(sep[j])
    ensures !Contains(s, sep)
  {
    ContainsIff(s, sep);
    forall k: nat
      ensures !OccursAt(s, sep, k)
    {
      if k + |sep| <= |s| {
        assert s[k..k + |sep|][j] == s[k + j];
      }
    }
  }

  /** The longest prefix of `s` free of whitespace. */
  function Word(s: string): (w: string)
    ensures StartsWith(s, w) && NoSpace(w)
    ensures |w| == |s| || IsSpace(s[|w|])
  {
    if |s| == 0 || IsSpace(s[0]) then "" else [s[0]] + Word(s[1..])
  }

  /** Python's `s.split(maxsplit=1)[0]`; `None` where Python raises
      `IndexError` because `s` has no token at all. */
  function FirstToken(s: string): (r: Option<string>)
    ensures r.None? <==> AllSpace(s)
    ensures r.Some? ==> |r.value| > 0 && NoSpace(r.value)
    ensures r.Some? ==> var t := LStrip(s);
      StartsWith(t, r.value) && (|t| == |r.value| || IsSpace(t[|r.value|]))
  {
    var t := LStrip(s);
    if |t| == 0 then
      assert s[..|s|] == s;
      None
    else
      assert !AllSpace(s) by { assert s[|s| - |t|] == t[0]; }
      Some(Word(t))
  }

  /** Leading whitespace is exactly what `lstrip` removes. */
  lemma {:induction false} LStripSpaces(lead: string, rest: string)
    requires AllSpace(lead)
    requires |rest| == 0 || !IsSpace(rest[0])
    ensures LStrip(lead + rest) == rest
    decreases |lead|
  {
    if |lead| > 0 {
      assert (lead + rest)[1..] == lead[1..] + rest;
      LStripSpaces(lead[1..], rest);
    } else {
      assert lead + rest == rest;
    }
  }

  /** Trailing whitespace is exactly what `rstrip` removes. */
  lemma {:induction false} RStripSpaces(rest: string, trail: string)
    requires AllSpace(trail)
    requires |rest| == 0 || !IsSpace(rest[|rest| - 1])
    ensures RStrip(rest + trail) == rest
    decreases |trail|
  {
    if |trail| > 0 {
      var t := trail[..|trail| - 1];
      assert (rest + trail)[..|rest + trail| - 1] == rest + t;
      RStripSpaces(rest, t);
    } else {
      assert rest + trail == rest;
    }
  }

  /** Whitespace, a core without whitespace at its ends, whitespace: `strip`
      gives the core. With `StripFixed`, the converse of `Strip`'s
      contract. */
  lemma StripOf(lead: string, core: string, trail: string)
    requires AllSpace(lead) && AllSpace(trail) && NoEdgeSpace(core)
    ensures Strip(lead + core + trail) == core
  {
    var s := lead + core + trail;
    if |core| > 0 {
      assert s == lead + (core + trail);
      LStripSpaces(lead, core + trail);
      RStripSpaces(core, trail);
    } else {
      assert s == (lead + trail) + "";
      assert AllSpace(lead + trail) by {
        forall i | 0 <= i < |lead + trail|
          ensures IsSpace((lead + trail)[i])
        {
          if i >= |lead| {
            assert (lead + trail)[i] == trail[i - |lead|];
          }
        }
      }
      LStripSpaces(lead + trail, "");
    }
  }

  /** A whitespace-free word followed by the end or by whitespace is read
      whole. */
  lemma {:induction false} WordOf(w: string, tail: string)
    requires NoSpace(w)
    requires |tail| == 0 || IsSpace(tail[0])
    ensures Word(w + tail) == w
    decreases |w|
  {
    if |w| > 0 {
      assert (w + tail)[1..] == w[1..] + tail;
      WordOf(w[1..], tail);
    } else {
      assert w + tail == tail;
    }
  }

  /** The first token of whitespace, a word, then nothing or whitespace and
      anything, is the word: the converse of `FirstToken`'s contract. */
  lemma FirstTokenOf(lead: string, w: string, tail: string)
    requires AllSpace(lead) && |w| > 0 && NoSpace(w)
    requires |tail| == 0 || IsSpace(tail[0])
    ensures FirstToken(lead + w + tail) == Some(w)
  {
    assert lead + w + tail == lead + (w + tail);
    LStripSpaces(lead, w + tail);
    WordOf(w, tail);
  }
}

=== FILE: wrappers.dfy ===
/** Failure-compatible Option and Result types, usable with `:-`. */
module Wrappers {

  datatype Option<+T> = None | Some(value: T) {
    predicate IsFailure() { None? }

    function PropagateFailure<U>(): Option<U>
      requires None?
    {
      None
    }

    function Extract(): T
      requires Some?
    {
      value
    }
  }

  datatype Result<+R, +E> = Success(value: R) | Failure(error: E) {
    predicate IsFailure() { Failure? }

    function PropagateFailure<U>(): Result<U, E>
      requires Failure?
    {
      Failure(error)
    }

    function Extract(): R
      requires Success?
    {
      value
    }
  }
}
